=== FILE: README.md ===
# Crypto_Cyphers core in Dafny

This project models the core of the C library `Crypto_Cyphers` and proves properties of that model. The core covers:

- the number-theory helpers (`gcd`, `EEA`, Miller-Rabin `MRA`/`EMRA`, `CRT`);
- the helpers exported from `lib/cypher.c`: `addModInverse`, `mulModInverse`, `isSameModClass` and `hasModInverse`;
- the `CY_KEY` tables: their argument checks and the three linear key builders (identity, random shuffle, inverse table);
- the classical ciphers: affine Caesar, monoalphabetic with its frequency crack, the 256-byte extended-ASCII substitution, and the 16x16 Playfair;
- the framing and transfer loops of the command-line tool: a 16-byte big-endian header, then full send, header-first receive, growing read, and full write.

Modules follow the source:

| module | what it models |
|---|---|
| `Machine` | fixed-width integers, C's truncating `%`, and `CY_STATE_FLAG` as `Status` |
| `Arith` | gcd and Bezout as mathematical definitions, with the lemmas the proofs use |
| `HeaderMath` | the `gcd` loop in `lib/src/cypher.h` |
| `NumberTheory` | `gcd` and `EEA` |
| `Primality` | `MRA` and `EMRA` |
| `ChineseRemainder` | `CRT` |
| `ModArith` | `lib/cypher.c` |
| `Keys` | `CY_KEY`, `cy_key_linear_*`, `cy_check_*` |
| `Substitution` | Caesar, monoalphabetic, crack, extended ASCII |
| `Playfair` | `find_matrix_pos`, `realloc_space`, Playfair encryption and decryption |
| `Framing` | `cy_buff_size_*`, `cy_buff_header_*` |
| `Transport` | `cy_buff_send`, `cy_buff_recv`, `cy_buff_read`, `cy_buff_write` |

How the model is built:

- **Loops and buffers.** C loops become Dafny methods with loop invariants. Each method is proved against a specification function, and the properties the library promises are proved about those functions as lemmas.
- **Keys.** A key is a class with fields `str`, `size` and `owner`; the builders update it in place. The ciphers write into the caller's buffer.
- **Errors.** `CY_ERR` is returned as `Err(kind)`. `kind` is the category `cy_err_manager` would print.
- **Random numbers.** Each call to the random-number generator is a parameter: `Some(r)` is a successful draw, `None` a failure.
- **Sockets.** The socket is a class holding the bytes the peer accepted and the bytes still to be delivered. Each `send`/`recv`/`read` may move any number of bytes up to the amount asked, or return 0 or a negative count. So every transfer postcondition holds however the data is split into chunks.
- **`serror`.** It prints and exits. The model returns `Err(Failure)` instead.

Behaviour the proofs bring out:

- **Playfair decryption drops a byte.** The stripping loop runs while `i + 1 < file.size`, so the last byte is copied only when it ends an inserted triple. `Playfair.TwoBytesLoseTheSecond` proves this: for a permutation key and two different bytes `p`, `q`, decrypting the encryption of `pq` gives `p` alone. The repair is not clear-cut, because the odd-length padding byte would then come back as well. So the model keeps the code as written, and `Playfair.PlayfairRoundTrip` states exactly what the round trip yields: the stripped form of the expanded plaintext.
- **Playfair digraph step is invertible.** The shifts by +1 and by 15 undo each other for a key that is a permutation of 0..255 (`Playfair.DigraphsRoundTrip`).
- **`mulModInverse` can overflow.** The final expression overflows `int64_t` for `a = 1`, `n = 2^63 - 1` (see Findings).

Behaviour of the code that a reader might not expect:

- `MRA` reports `Inconclusive` for an even `n` and for `n == 3`; there is no separate "even" verdict.
- `EMRA` keeps the verdict of its last round, even after an earlier round found the number composite (`Primality.EMRA`).
- The command-line tool does no payload padding.
- The crack's selection sort picks the first of several equal largest counts, so ties are broken the same way every time. The key it builds is therefore one specific table, `Substitution.CrackRanking` of the ciphertext. For example, when no letter occurs the ranking is "abc...z" (`Substitution.NoLettersKeepAlphabet`).

## Model

| member | source | states |
|---|---|---|
| HeaderMath.Gcd | lib/src/cypher.h:35-44 | the Euclid loop returns gcd(a, b): it divides a and b, every common divisor divides it, and gcd(a, 0) == a, gcd(0, b) == b |
| NumberTheory.Gcd | lib/src/cypher.c:231-243 | with its early returns for a == 0 and b == 0, the result is gcd(a, b), and it is 0 exactly when both inputs are 0 |
| NumberTheory.EEA | lib/src/cypher.c:245-264 | fails (and only then) when gcd(a, n) != 1; otherwise out < n and a * out == 1 mod n, out being the extended-Euclid inverse |
| NumberTheory.StepBounds | lib/src/cypher.c:252-259 | each EEA step's quotient product and new coefficient fit in __int128_t; the weighted sum of the coefficients' magnitudes stays equal to the original n and their signs stay opposite, so no coefficient exceeds n |
| Arith.ExtGcdBezout | lib/src/cypher.c:245-264 | the extended Euclid recursion returns gcd(a, n) together with x, y such that x * a + y * n == gcd(a, n) |
| Arith.InverseExistsIffCoprime | lib/cypher.c:64-67 | an inverse of a modulo n exists below n if and only if gcd(a, n) == 1 |
| Arith.ModInverseCorrect | lib/src/cypher.c:261 | the normalised Bezout coefficient is below n and is an inverse of a modulo n |
| Arith.CRemNormalize | lib/src/cypher.c:261 | (m + x % m) % m with C's truncating % is x mod m, for negative x as well |
| Primality.Split | lib/src/cypher.c:283-287 | n - 1 == 2^s * d with d odd |
| Primality.Decompose | lib/src/cypher.c:280-287 | the halving loop computes exactly that split (power, odd) |
| Primality.ModPow | lib/src/cypher.c:289-294 | binary exponentiation with every product reduced mod n returns a^e mod n |
| Primality.BinaryStep | lib/src/cypher.c:289-294 | one step of the exponentiation loop keeps a_q * a^odd mod n fixed |
| Primality.SquareStep | lib/src/cypher.c:298-302 | squaring a^e mod n gives a^(2e) mod n |
| Primality.ProductBound | lib/src/cypher.c:291-301 | every product of two residues modulo a 64-bit n fits in __uint128_t |
| Primality.WitnessRange | lib/src/cypher.c:272-278 | for odd n >= 5 the witness derived from a draw below n - 1 lies in [2, n - 2] |
| Primality.MRA | lib/src/cypher.c:266-309 | status and verdict are those of the strong-probable-prime test: error for n < 3 or a failed draw, Inconclusive for even n and n == 3, Composite exactly when the witness proves it; never Prime |
| Primality.EMRA | lib/src/cypher.c:311-318 | the first round's failure is returned; otherwise Ok with the verdict of the last of prob further rounds |
| Primality.NineIsComposite | lib/src/cypher.c:266-309 | for n == 9 and the witness 2, the round reports Composite |
| ChineseRemainder.CheckModuli | lib/src/cypher.c:322-345 | the first loop accepts exactly the non-empty arrays whose moduli are non-zero, coprime to the running product, and keep it within UINT64_MAX; M is then their product |
| ChineseRemainder.OverflowTest | lib/src/cypher.c:342 | M > UINT64_MAX / m is exactly the test M * m > UINT64_MAX |
| ChineseRemainder.Combine | lib/src/cypher.c:347-359 | the second loop returns A < M satisfying every congruence A == v_i mod m_i |
| ChineseRemainder.CrtStep | lib/src/cypher.c:349-358 | adding (M_i * M_i^-1 mod M) * (v_i mod m_i) mod M fixes residue i and keeps every other residue |
| ChineseRemainder.ModulusFactor | lib/src/cypher.c:349 | M_i == M / m_i is exact, coprime to m_i, and a multiple of every other modulus |
| ChineseRemainder.CRT | lib/src/cypher.c:320-362 | succeeds exactly on accepted input, with out < M solving every congruence; on failure out == 0 |
| ChineseRemainder.SolutionUnique | lib/src/cypher.c:320-362 | two solutions below M are equal, so CRT returns the unique one |
| ChineseRemainder.Example | lib/src/cypher.c:320-362 | x == 2 mod 3, 3 mod 5, 2 mod 7 is accepted with M == 105, and 23 is its only solution below 105 |
| ModArith.AddModInverse | lib/cypher.c:33-36 | n - a % n lies in [1, n], equals n exactly when n divides a, and a + r is a multiple of n |
| ModArith.AddModInverseUnique | lib/cypher.c:33-36 | those properties determine addModInverse |
| ModArith.IsSameModClass | lib/cypher.c:59-62 | for n == 0, equality; otherwise n divides a - b |
| ModArith.HasModInverse | lib/cypher.c:64-67 | true exactly when gcd(a, n) == 1, that is, when a has an inverse modulo n |
| ModArith.MulModInverse | lib/cypher.c:38-55 | 0 when a has no inverse; otherwise the inverse below n, with no int64_t overflow inside the loop |
| ModArith.LoopStep | lib/cypher.c:44-53 | each loop step stays within int64_t and keeps both remainders Bezout combinations of a and n |
| ModArith.NormalizeAsWritten | lib/cypher.c:54 | the final expression as written is undefined exactly when __x % n + n exceeds INT64_MAX, and otherwise is __x mod n |
| ModArith.NormalizeOverflows | lib/cypher.c:38-55 | for a == 1 and n == 2^63 - 1 the loop ends with __x == 1 and the final expression overflows |
| Keys.CheckDirectGenerate | lib/src/cypher.c:565-570 | passes exactly when start <= end and the key is NULL and not owned; every failure is an argument error |
| Keys.CheckRandGenerated | lib/src/cypher.c:572-579 | passes exactly for start <= end and a live key holding at least end - start + 1 entries; the argument error is reported exactly when start > end or the key is not live, and the size error exactly when a live key is too short |
| Keys.CheckInverseGenerated | lib/src/cypher.c:581-592 | passes only for live mapkey and key of equal size of at least end - start + 1, an empty invkey, and key entries no smaller than start |
| Keys.CheckCaesar | lib/src/cypher.c:594-599 | passes exactly for an owned 2-byte key whose first byte is coprime to 26 |
| Keys.CheckMonoalphabetic | lib/src/cypher.c:601-608 | passes only for an owned 26-byte key made of letters |
| Keys.CheckTable256 | lib/src/cypher.c:610-620 | the extended-ASCII and Playfair checks pass exactly for an owned, non-NULL key of size 256; every failure is an argument error |
| Keys.DirectGenerate | lib/src/cypher.c:640-648 | on success the key is a fresh owned table start, start + 1, ..., end; on failure the key is unchanged |
| Keys.ShuffleInPlace | lib/src/cypher.c:652-658 | the loop performs exactly the swaps of the Fisher-Yates specification and reports whether every draw succeeded |
| Keys.ShufflePermutes | lib/src/cypher.c:652-658 | the shuffle permutes the first end - start + 1 entries among themselves and leaves the rest untouched |
| Keys.RandGenerated | lib/src/cypher.c:650-661 | check failures leave the key unchanged; otherwise the entries are the shuffle of the old ones (a permutation), the key becomes owned with the new size only if every draw succeeded, and a failed draw leaves size and owner as they were |
| Keys.InverseTableInverts | lib/src/cypher.c:668 | for distinct key entries, the built table maps key[i] - start back to mapkey[i] |
| Keys.IdentityInverse | lib/src/cypher.c:663-671 | the inverse of the identity table against itself is the identity |
| Keys.InverseGenerated | lib/src/cypher.c:663-671 | the status is the check's, for any key the check rejects; on success invkey is a fresh owned table of end - start + 1 entries with invkey[key[i] - start] == mapkey[i]; on failure invkey is unchanged |
| Substitution.MapInto | lib/src/cypher.c:748-759 | the per-byte loops write f(file[i]) for every i and leave the rest of the buffer alone |
| Substitution.CaesarEncChar | lib/src/cypher.c:748-757 | non-letters pass unchanged and the case of a letter is kept |
| Substitution.CaesarDecChar | lib/src/cypher.c:771-778 | non-letters pass unchanged and the case of a letter is kept |
| Substitution.CaesarCharRoundTrip | lib/src/cypher.c:742-782 | for a coprime to 26, decrypting a byte with the EEA inverse of a undoes its encryption |
| Substitution.CaesarRoundTrip | lib/src/cypher.c:742-782 | the same for whole files |
| Substitution.CaesarEncrypt | lib/src/cypher.c:742-761 | the status is the key check's, the buffer is unchanged on error, and on success holds the affine encryption of the file |
| Substitution.CaesarDecrypt | lib/src/cypher.c:763-782 | the status is the key check's; on success the buffer holds the affine decryption with the inverse of a modulo 26 |
| Substitution.MapLetter | lib/src/cypher.c:790-795 | non-letters pass unchanged; a letter mapped through a letter keeps its case |
| Substitution.MonoRoundTrip | lib/src/cypher.c:784-819 | for a key that permutes the lowercase alphabet, decryption with the inverse table undoes encryption |
| Substitution.MonoEncrypt | lib/src/cypher.c:784-799 | the status is the key check's; on success the buffer holds the file translated through the key |
| Substitution.MonoDecrypt | lib/src/cypher.c:801-819 | a failed key check is returned with the buffer untouched; for a lower-case key the status is Ok and the buffer holds the file translated through the inverse table built from the alphabet; for a key with an upper-case entry no table is built, the letter-free file is copied unchanged and freeing the NULL table gives an argument error |
| Substitution.EasciiRoundTrip | lib/src/cypher.c:859-888 | for a key that permutes 0..255, decryption undoes encryption |
| Substitution.EasciiEncrypt | lib/src/cypher.c:859-871 | the status is the key check's; on success buffer[i] == key[file[i]] |
| Substitution.EasciiDecrypt | lib/src/cypher.c:873-888 | the status is the key check's; on success the buffer holds the file through the inverse of the key |
| Substitution.CountLetters | lib/src/cypher.c:827-831 | numtable[x] is the number of occurrences of letter x, in either case |
| Substitution.ArgMaxIsFirstMax | lib/src/cypher.c:835-837 | the inner scan (ArgMax) ends on a largest count at or after i, and on the first one: every earlier index holds a strictly smaller count |
| Substitution.ScanMax | lib/src/cypher.c:835-837 | the inner loop computes exactly ArgMax, that index |
| Substitution.SelectionStep | lib/src/cypher.c:833-841 | one outer pass keeps counts paired with a permutation of a..z and makes place i final |
| Substitution.SelectionSortSorts | lib/src/cypher.c:833-841 | the whole sort leaves the counts non-increasing and paired with a permutation of a..z |
| Substitution.SortByFrequency | lib/src/cypher.c:832-841 | the in-place sort of numtable and chartable produces exactly SelectionSort of the old tables; so the counts end non-increasing and paired with a permutation of a..z |
| Substitution.CrackRankingRanks | lib/src/cypher.c:823-841 | the ranking the crack computes lists a..z by non-increasing frequency in the file |
| Substitution.NoLettersKeepAlphabet | lib/src/cypher.c:832-841 | for a ciphertext without letters all counts tie, and the ranking is "abc...z" |
| Substitution.SortedRanking | lib/src/cypher.c:832-841 | the sorted table ranks the letters by frequency in the file |
| Substitution.RankLetters | lib/src/cypher.c:823-841 | the counting and sorting produce exactly CrackRanking(file), a frequency ranking of the alphabet |
| Substitution.Crack | lib/src/cypher.c:821-857 | always succeeds; the key becomes the inverse table of CrackRanking(file), the frequency ranking the selection sort fixes, against "etaoinshrdlcumwfgypbvkjxqz", and the buffer holds the file translated through it |
| Substitution.CrackKey | lib/src/cypher.c:823-843 | returns a fresh, owned, valid 26-entry key whose table is the inverse of CrackRanking(file) against "etaoinshrdlcumwfgypbvkjxqz", and CrackRanking(file) ranks the letters by non-increasing count |
| Substitution.CrackTableDecodes | lib/src/cypher.c:842 | that table maps each ranked letter to the matching letter of the frequency order |
| Playfair.LastIndex | lib/src/cypher.c:163-172 | the last index holding val, or -1 when there is none |
| Playfair.FindMatrixPos | lib/src/cypher.c:163-172 | the nested loop leaves the row and column of the last occurrence of val, or the initial values when val is absent |
| Playfair.EveryValueListed | lib/src/cypher.c:163-172 | in a key that permutes 0..255 every byte occurs |
| Playfair.CellHolds | lib/src/cypher.c:163-172 | for a permutation key, the found cell holds val |
| Playfair.CellOfEntry | lib/src/cypher.c:163-172 | for a permutation key, the cell of key[16x + y] is (x, y) |
| Playfair.ShiftRoundTrip | lib/src/cypher.c:913-930 | shifting a pair by d and then by e with d + e == 0 mod 16 gives the pair back |
| Playfair.ShiftPair | lib/src/cypher.c:911-930 | the same-row, same-column and rectangle cases compute the shifted pair |
| Playfair.DigraphsPair | lib/src/cypher.c:909-931 | pair h of the transformed text is the shift of pair h of the input |
| Playfair.DigraphsRoundTrip | lib/src/cypher.c:909-931 | the +1 pass and the +15 pass of decryption undo each other for a permutation key |
| Playfair.ShiftInPlace | lib/src/cypher.c:909-931 | the in-place pair loop produces the digraph transform of the old buffer |
| Playfair.Expand | lib/src/cypher.c:896-905 | the expanded text has even length between |file| and 2 |file|, and is empty only for an empty file |
| Playfair.ExpandNeighboursDiffer | lib/src/cypher.c:896-905 | when no byte is its own key entry, no two neighbouring bytes of the expanded text are equal |
| Playfair.ExpandNoRepeats | lib/src/cypher.c:896-905 | without doubled bytes the expansion only pads the text to even length |
| Playfair.WriteExpanded | lib/src/cypher.c:896-905 | the insertion loop and the padding step write exactly the expanded text |
| Playfair.Realloc | lib/src/cypher.c:429-440 | size 0 is an argument error; otherwise the buffer is reallocated to size bytes, keeping the common prefix |
| Playfair.PlayfairEncrypt | lib/src/cypher.c:890-936 | the key check's error is returned as is; an empty file fails on the zero-size reallocation; otherwise the result holds the digraph encryption of the expanded file |
| Playfair.UnshiftInto | lib/src/cypher.c:942-964 | the decryption pass over complete pairs undoes the shift in the buffer and leaves the odd last byte and the rest alone |
| Playfair.StripFrom | lib/src/cypher.c:967-977 | from a length-n text the stripped result is shorter than n, and empty exactly when n <= 1 |
| Playfair.StripAccumulates | lib/src/cypher.c:967-977 | the in-place accumulation equals the prefix followed by the stripped rest |
| Playfair.StripInPlace | lib/src/cypher.c:967-977 | the compaction loop writes the stripped text at the front and nothing at or after n |
| Playfair.PlayfairDecrypt | lib/src/cypher.c:938-984 | the key check's error leaves the buffer alone; otherwise the buffer starts with the deciphered text, and the result is that text, or an argument error when it is empty |
| Playfair.PlayfairRoundTrip | lib/src/cypher.c:890-984 | for a permutation key, decrypting an encryption gives the stripped form of the expanded plaintext |
| Playfair.TwoBytesLoseTheSecond | lib/src/cypher.c:968 | decrypting the encryption of two different bytes p q returns only p |
| Framing.ValueOfBigEndian | CLI/src/main.c:46-57 | reading back the n big-endian bytes of x gives x mod 256^n |
| Framing.BigEndianOfValue | CLI/src/main.c:46-57 | writing out the value of n bytes gives those bytes back |
| Framing.SizeRoundTrip | CLI/src/main.c:46-57 | importing the exported bytes of a 64-bit size gives the size back |
| Framing.ExportSize | CLI/src/main.c:46-50 | buff[0..8) holds the size big-endian, so byte 0 is the most significant; later bytes are untouched |
| Framing.ImportSize | CLI/src/main.c:52-57 | the size read is the big-endian value of buff[0..8) |
| Framing.DecodeEncode | CLI/src/main.c:59-76 | importing an exported header gives it back |
| Framing.EncodeDecode | CLI/src/main.c:59-76 | every 16 bytes are the export of the header they import as |
| Framing.EncodeInjective | CLI/src/main.c:59-66 | two headers have the same bytes exactly when they are equal |
| Framing.ExportHeader | CLI/src/main.c:59-66 | buff[0..16) holds the length followed by the eight flag and type bytes in declared order, and the payload is untouched |
| Framing.ImportHeader | CLI/src/main.c:68-76 | the header read is the decoding of buff[0..16) |
| Framing.Header777 | CLI/src/main.c:163-173 | the driver's header with length 777 is 0 0 0 0 0 0 3 9 then eight zeros, and reads back with length 777 |
| Transport.MessageRoundTrip | CLI/src/main.c:78-110 | the front of a stream that starts with a message decodes to its header, then its payload, then whatever follows |
| Transport.SendFully | CLI/src/main.c:82-90 | the loop sends p[0..fullsize) in order; a zero or negative return is fatal, and success means everything was sent |
| Transport.SendMessage | CLI/src/main.c:78-91 | the header overwrites buff[0..16) and nothing else; on success the peer has received the header and then the payload |
| Transport.ReceiveMessage | CLI/src/main.c:93-110 | on success the header is the decoding of the first 16 incoming bytes, the buffer holds exactly the 16 + data_len bytes of the message, and the rest stays queued, however the bytes arrived |
| Transport.ReceivedMessage | CLI/src/main.c:78-110 | a message sent whole is received with the same header and payload |
| Transport.ReadAll | CLI/src/main.c:112-133 | the loop ends with a fresh buffer whose first data_len bytes are exactly the bytes consumed from the stream, in order, with at least 2048 bytes to spare; the other header fields stay zero; success and failure are the only outcomes |
| Transport.MakeRoom | CLI/src/main.c:118-124 | the buffer grows by 2048 exactly when fewer than 2048 bytes are free, and afterwards at least 2048 are |
| Transport.WritePayload | CLI/src/main.c:135-147 | on success exactly buff[0..data_len) was sent, with no header |

## Left out

- Allocation and out-of-memory paths. `malloc`, `realloc` and `malloc_space` always succeed in the model and give zero-filled memory; the C contents of fresh memory are indeterminate. `realloc_space`'s zero-size error is modelled.
- File handling, `stdio`, `stderr` messages and `cypher`'s file plumbing (`extract_file`, `read_file`, `write_file`, `cypherStart`/`cypherFinish`). They are input and output; the ciphers take the file contents as a byte sequence.
- The random-number generator (`random_u16`, `random_u128`, its rejection loop and the operating-system source). Each draw is a parameter that is either a value in range or a failure.
- The system calls `send`, `recv` and `read`; `serror`, which exits the process, and `print_u128_hex`. The socket is a nondeterministic class, and exit is a failure status.
- Transport.ReceiveMessage: requires the buffer to hold the message its header announces. The tool does not check this, and a longer announced length would overrun the caller's buffer.
- Transport.ReadAll: requires the stream to be shorter than size_t can count. Wrap-around of data_len and buffsize is not modelled.
- Transport.SendMessage: the sum data_len + 16 is taken without size_t wrap-around. The precondition that the buffer holds the message rules out any length that would wrap.
- AES, RSA, the big-integer code and payload padding. They are not part of this model.
- Primality.MRA: proves the verdict equals the strong-probable-prime test, but not that the test is sound for primes, which is number theory beyond this model.
- ModArith.MulModInverse: requires a and n below 2^63, because the int64_t casts change larger values. It also requires n > 0, since n == 0 with a == 1 divides by zero.
- NumberTheory.EEA: requires n > 0, which every caller in the library meets. Its loop provably cannot overflow __int128_t.
- Keys.InverseGenerated: requires every key entry to be at most end when the check passes. The check does not test this, and a larger entry in an accepted key would write outside the new table (lib/src/cypher.c:668). A key the check rejects is admitted whatever its entries.
- Substitution.Crack: the previous contents of the key are overwritten without being freed, a leak the model does not track.
- Substitution.MonoDecrypt: requires that a key passing the check but holding an upper-case entry comes with a file without letters. For such a key the inverse-table build fails (the entry is below 'a', lib/src/cypher.c:590), the table stays NULL, and the decryption loop then reads through NULL for every letter of the file (lib/src/cypher.c:811-814), which has no defined result to model.
- Playfair.PlayfairEncrypt: `file.size = size` updates only the local copy of the file record, so the caller never learns the ciphertext length. The model returns the resized buffer, whose length is that size.
- Playfair.PlayfairDecrypt: the bytes of the old buffer between the plaintext and the input length are stated only as far as the postcondition says. The old buffer is released by the reallocation and is not described further.
- Playfair.Shift: one shift parameter d stands for the two copies of the digraph loop in the source. d is 1 for encryption and 15 for decryption.
- Keys.ShuffleInPlace: iterates k = i - start instead of i. The draw for step k is below end - i + 1, as random_u16(count) delivers.

## Findings

| source | as written | input that shows it | evidently intended | confidence | as-written member | corrected member |
|---|---|---|---|---|---|---|
| lib/cypher.c:54 | `(__x % (int64_t)n + (int64_t)n) % (int64_t)n` is evaluated in int64_t, where the inner sum can exceed INT64_MAX | a = 1, n = 2^63 - 1: the loop ends with __x = 1, and 1 + (2^63 - 1) overflows | the inverse __x mod n, here 1 | not executed | ModArith.NormalizeAsWritten, ModArith.NormalizeOverflows | ModArith.MulModInverse |

=== FILE: arith.dfy ===
/**
  The mathematics the number-theory routines are specified against:
  divisibility, the greatest common divisor, Bezout coefficients, modular
  arithmetic and powers.  Nothing here is executable code of the library; it
  is the vocabulary the contracts of the other modules are written in.
 */
module Arith {

  import opened Machine

  /** d divides x; zero divides only zero. */
  predicate Divides(d: nat, x: nat)
  {
    if d == 0 then x == 0 else x % d == 0
  }

  /** Euclid's recursion: the value every gcd loop of the library computes. */
  function Gcd(a: nat, b: nat): nat
    decreases b
  {
    if b == 0 then a else Gcd(b, a % b)
  }

  // ---------------------------------------------------------------------------
  // Division with remainder
  // ---------------------------------------------------------------------------

  lemma MulPositiveGrows(d: int, z: int)
    requires d > 0 && z >= 1
    ensures d * z >= d
  {
    var k := z - 1;
    assert d * z == d * k + d;
  }

  /** Products are monotone in both factors. */
  lemma MulLe(a: nat, b: nat, c: nat, d: nat)
    requires a <= c && b <= d
    ensures a * b <= c * d
  {
    assert a * b <= a * d;
    assert a * d <= c * d;
  }

  /** Quotient and remainder are unique. */
  lemma DivModUnique(x: int, d: int, q: int, r: int)
    requires d > 0 && 0 <= r < d && x == q * d + r
    ensures x / d == q && x % d == r
  {
    var q' := x / d;
    var r' := x % d;
    assert x == q' * d + r';
    var z := q' - q;
    assert z * d == r - r';
    if z >= 1 {
      MulPositiveGrows(d, z);
      assert false;
    } else if z <= -1 {
      MulPositiveGrows(d, -z);
      assert false;
    }
  }

  /** A remainder of 0 means exact division. */
  lemma ExactDivision(x: int, d: int)
    requires d > 0 && x % d == 0
    ensures x == d * (x / d)
  {
  }

  /** A multiple of d leaves remainder 0. */
  lemma MultipleMod(k: int, d: int)
    requires d > 0
    ensures (k * d) % d == 0 && (k * d) / d == k
  {
    DivModUnique(k * d, d, k, 0);
  }

  /** Adding multiples of the modulus does not change the remainder. */
  lemma ModAddMultiple(x: int, k: int, d: int)
    requires d > 0
    ensures (x + k * d) % d == x % d
  {
    var q := x / d;
    var r := x % d;
    assert x + k * d == (q + k) * d + r;
    DivModUnique(x + k * d, d, q + k, r);
  }

  lemma ModOfMod(x: int, d: int)
    requires d > 0
    ensures (x % d) % d == x % d
  {
    DivModUnique(x % d, d, 0, x % d);
  }

  /** (x + y) mod d depends only on x mod d and y mod d. */
  lemma ModAdd(x: int, y: int, d: int)
    requires d > 0
    ensures (x + y) % d == (x % d + y % d) % d
  {
    var qx, rx := x / d, x % d;
    var qy, ry := y / d, y % d;
    assert x + y == (rx + ry) + (qx + qy) * d;
    ModAddMultiple(rx + ry, qx + qy, d);
  }

  /** Two numbers leave the same remainder exactly when n divides their difference. */
  lemma SameResidueIffDifference(a: int, b: int, n: int)
    requires n > 0
    ensures a % n == b % n <==> (a - b) % n == 0
  {
    var d := a % n - b % n;
    assert a - b == d + (a / n - b / n) * n;
    ModAddMultiple(d, a / n - b / n, n);
    if d < 0 {
      DivModUnique(d, n, -1, d + n);
    } else {
      DivModUnique(d, n, 0, d);
    }
  }

  /** (x * y) mod d depends only on x mod d. */
  lemma ModMulLeft(x: int, y: int, d: int)
    requires d > 0
    ensures (x * y) % d == ((x % d) * y) % d
  {
    var q, r := x / d, x % d;
    assert x * y == r * y + (q * y) * d by {
      assert x == q * d + r;
    }
    ModAddMultiple(r * y, q * y, d);
  }

  /** (x * y) mod d depends only on x mod d and y mod d. */
  lemma ModMul(x: int, y: int, d: int)
    requires d > 0
    ensures (x * y) % d == ((x % d) * (y % d)) % d
  {
    ModMulLeft(x, y, d);
    ModMulLeft(y, x % d, d);
    assert (x % d) * y == y * (x % d);
    assert (y % d) * (x % d) == (x % d) * (y % d);
  }

  /** Reducing modulo a multiple first does not change the remainder. */
  lemma ModOfModMultiple(x: int, m: int, k: int)
    requires m > 0 && k > 0
    ensures (x % (m * k)) % m == x % m
  {
    var q := x / (m * k);
    var r := x % (m * k);
    assert x == r + (q * k) * m;
    ModAddMultiple(r, q * k, m);
  }

  // ---------------------------------------------------------------------------
  // Divisibility and the gcd
  // ---------------------------------------------------------------------------

  lemma DividesWitness(d: nat, x: nat)
    requires d > 0 && Divides(d, x)
    ensures x == (x / d) * d
  {
  }

  lemma DividesMultiple(d: nat, k: nat)
    ensures Divides(d, k * d)
  {
    if d > 0 { MultipleMod(k, d); }
  }

  /** A common divisor of a and b divides a mod b. */
  lemma DividesMod(d: nat, a: nat, b: nat)
    requires b > 0 && Divides(d, a) && Divides(d, b)
    ensures Divides(d, a % b)
  {
    if d > 0 {
      var ka, kb, q := a / d, b / d, a / b;
      DividesWitness(d, a);
      DividesWitness(d, b);
      assert a % b == a - q * b;
      assert a % b == (ka - q * kb) * d;
      MultipleMod(ka - q * kb, d);
    }
  }

  /** A common divisor of b and a mod b divides a. */
  lemma DividesFromMod(d: nat, a: nat, b: nat)
    requires b > 0 && Divides(d, b) && Divides(d, a % b)
    ensures Divides(d, a)
  {
    if d > 0 {
      var kb, kr, q := b / d, (a % b) / d, a / b;
      DividesWitness(d, b);
      DividesWitness(d, a % b);
      assert a == q * b + a % b;
      assert a == (q * kb + kr) * d;
      MultipleMod(q * kb + kr, d);
    }
  }

  /** The gcd is a common divisor. */
  lemma {:induction false} GcdDividesBoth(a: nat, b: nat)
    ensures Divides(Gcd(a, b), a) && Divides(Gcd(a, b), b)
    decreases b
  {
    if b == 0 {
      if a > 0 { MultipleMod(1, a); }
    } else {
      GcdDividesBoth(b, a % b);
      DividesFromMod(Gcd(a, b), a, b);
    }
  }

  /** Every common divisor divides the gcd. */
  lemma {:induction false} GcdGreatest(a: nat, b: nat, d: nat)
    requires Divides(d, a) && Divides(d, b)
    ensures Divides(d, Gcd(a, b))
    decreases b
  {
    if b != 0 {
      DividesMod(d, a, b);
      GcdGreatest(b, a % b, d);
    }
  }

  lemma DividesBounded(d: nat, x: nat)
    requires x > 0 && Divides(d, x)
    ensures 0 < d <= x
  {
    var k := x / d;
    DividesWitness(d, x);
    if k >= 1 { MulPositiveGrows(d, k); }
  }

  /** Divisibility is antisymmetric on the naturals. */
  lemma DividesAntisymmetric(x: nat, y: nat)
    requires Divides(x, y) && Divides(y, x)
    ensures x == y
  {
    if x > 0 && y > 0 {
      DividesBounded(x, y);
      DividesBounded(y, x);
    }
  }

  /** The gcd is symmetric. */
  lemma GcdSymmetric(a: nat, b: nat)
    ensures Gcd(a, b) == Gcd(b, a)
  {
    GcdDividesBoth(a, b);
    GcdDividesBoth(b, a);
    GcdGreatest(a, b, Gcd(b, a));
    GcdGreatest(b, a, Gcd(a, b));
    DividesAntisymmetric(Gcd(a, b), Gcd(b, a));
  }

  /** gcd(x, 0) == x and gcd(0, x) == x. */
  lemma GcdWithZero(x: nat)
    ensures Gcd(x, 0) == x && Gcd(0, x) == x
  {
  }

  // ---------------------------------------------------------------------------
  // The extended Euclidean iteration and Bezout's identity
  // ---------------------------------------------------------------------------

  /** A gcd together with the coefficients that express it. */
  datatype Bezout = Bezout(g: nat, x: int, y: int)

  /**
    The extended Euclidean iteration as the library's loops run it: the pair of
    remainders (r0, r1) and, for each, coefficients x and y of the original
    inputs; each step replaces (r0, r1) by (r1, r0 mod r1) and updates the
    coefficients with the same quotient.
   */
  function ExtEuclid(r0: nat, r1: nat, x0: int, x1: int, y0: int, y1: int): Bezout
    decreases r1
  {
    if r1 == 0 then Bezout(r0, x0, y0)
    else
      var q := r0 / r1;
      ExtEuclid(r1, r0 % r1, x1, x0 - q * x1, y1, y0 - q * y1)
  }

  /** The iteration started on (a, n) with the identity coefficients. */
  function ExtGcd(a: nat, n: nat): Bezout
  {
    ExtEuclid(a, n, 1, 0, 0, 1)
  }

  /**
    While both remainders are combinations of A and B, the iteration ends on
    their gcd, written as a combination of A and B.
   */
  lemma {:induction false} ExtEuclidInvariant(r0: nat, r1: nat, x0: int, x1: int, y0: int, y1: int, A: int, B: int)
    requires r0 == x0 * A + y0 * B && r1 == x1 * A + y1 * B
    ensures ExtEuclid(r0, r1, x0, x1, y0, y1).g == Gcd(r0, r1)
    ensures ExtEuclid(r0, r1, x0, x1, y0, y1).g
         == ExtEuclid(r0, r1, x0, x1, y0, y1).x * A + ExtEuclid(r0, r1, x0, x1, y0, y1).y * B
    decreases r1
  {
    if r1 != 0 {
      var q := r0 / r1;
      assert r0 % r1 == r0 - q * r1;
      assert q * r1 == (q * x1) * A + (q * y1) * B by {
        assert q * (x1 * A + y1 * B) == q * (x1 * A) + q * (y1 * B);
      }
      assert r0 % r1 == (x0 - q * x1) * A + (y0 - q * y1) * B;
      ExtEuclidInvariant(r1, r0 % r1, x1, x0 - q * x1, y1, y0 - q * y1, A, B);
    }
  }

  /** Bezout's identity for the library's extended Euclid: g == x*a + y*n with g == gcd(a, n). */
  lemma ExtGcdBezout(a: nat, n: nat)
    ensures ExtGcd(a, n).g == Gcd(a, n)
    ensures ExtGcd(a, n).g == ExtGcd(a, n).x * a + ExtGcd(a, n).y * n
  {
    ExtEuclidInvariant(a, n, 1, 0, 0, 1, a, n);
  }

  /** If some combination of a and b equals 1, every common divisor is 1. */
  lemma UnitCombinationCoprime(a: nat, b: nat, u: int, v: int)
    requires u * a + v * b == 1
    ensures Gcd(a, b) == 1
  {
    var g := Gcd(a, b);
    GcdDividesBoth(a, b);
    if g == 0 {
      assert false;
    }
    var ka, kb := a / g, b / g;
    DividesWitness(g, a);
    DividesWitness(g, b);
    var z := u * ka + v * kb;
    assert g * z == 1 by {
      assert u * a == (u * ka) * g;
      assert v * b == (v * kb) * g;
    }
    if z >= 1 { MulPositiveGrows(g, z); }
  }

  /** Multiplying two unit combinations gives one for a and b * c. */
  lemma UnitCombinationProduct(a: int, b: int, c: int, x1: int, y1: int, x2: int, y2: int)
    requires x1 * a + y1 * b == 1 && x2 * a + y2 * c == 1
    ensures (x1 + y1 * b * x2) * a + (y1 * y2) * (b * c) == 1
  {
    var X, Y, R, S := x1 * a, y1 * b, x2 * a, y2 * c;
    assert Y == Y * R + Y * S by {
      assert Y * (R + S) == Y * R + Y * S;
    }
    assert Y * R == (y1 * b * x2) * a;
    assert Y * S == (y1 * y2) * (b * c);
    assert (x1 + y1 * b * x2) * a == X + (y1 * b * x2) * a;
  }

  /** A number coprime to b and to c is coprime to b * c. */
  lemma CoprimeProduct(a: nat, b: nat, c: nat)
    requires Gcd(a, b) == 1 && Gcd(a, c) == 1
    ensures Gcd(a, b * c) == 1
  {
    ExtGcdBezout(a, b);
    ExtGcdBezout(a, c);
    var e1, e2 := ExtGcd(a, b), ExtGcd(a, c);
    UnitCombinationProduct(a, b, c, e1.x, e1.y, e2.x, e2.y);
    UnitCombinationCoprime(a, b * c, e1.x + e1.y * b * e2.x, e1.y * e2.y);
  }

  /** A number coprime to a product is coprime to each factor. */
  lemma CoprimeFactor(a: nat, b: nat, c: nat)
    requires Gcd(a, b * c) == 1
    ensures Gcd(a, b) == 1
  {
    ExtGcdBezout(a, b * c);
    var x, y := ExtGcd(a, b * c).x, ExtGcd(a, b * c).y;
    assert y * (b * c) == (y * c) * b;
    UnitCombinationCoprime(a, b, x, y * c);
  }

  /** Bezout coefficients with gcd 1 give a multiplicative inverse modulo n. */
  lemma BezoutInverse(a: nat, n: nat, x: int, y: int)
    requires n > 0 && x * a + y * n == 1
    ensures (a * (x % n)) % n == 1 % n
  {
    ModMulLeft(x, a, n);
    assert x * a == 1 + (-y) * n;
    ModAddMultiple(1, -y, n);
    assert (a * (x % n)) == (x % n) * a;
  }

  /** An inverse of a modulo n exists only when gcd(a, n) == 1. */
  lemma InverseImpliesCoprime(a: nat, n: nat, x: nat)
    requires n > 0 && (a * x) % n == 1 % n
    ensures Gcd(a, n) == 1
  {
    if n == 1 {
      assert Gcd(a, 1) == Gcd(1, 0);
    } else {
      var ax := a * x;
      var q := ax / n;
      assert ax == q * n + 1;
      assert x * a == ax && (-q) * n == -(q * n);
      UnitCombinationCoprime(a, n, x, -q);
    }
  }

  /** x is an inverse of a modulo n. */
  predicate IsModInverse(a: nat, x: nat, n: nat)
    requires n > 0
  {
    (a * x) % n == 1 % n
  }

  /** a has an inverse modulo n exactly when gcd(a, n) == 1. */
  lemma InverseExistsIffCoprime(a: nat, n: nat)
    requires n > 0
    ensures (exists x: nat :: x < n && IsModInverse(a, x, n)) <==> Gcd(a, n) == 1
  {
    if Gcd(a, n) == 1 {
      ModInverseCorrect(a, n);
      assert IsModInverse(a, ModInverse(a, n), n);
    }
    if exists x: nat :: x < n && IsModInverse(a, x, n) {
      var x: nat :| x < n && IsModInverse(a, x, n);
      InverseImpliesCoprime(a, n, x);
    }
  }

  /** The normalised modular inverse the library returns: the Bezout coefficient of a, reduced into [0, n). */
  function ModInverse(a: nat, n: nat): nat
    requires n > 0
  {
    ExtGcd(a, n).x % n
  }

  /** When gcd(a, n) == 1 the reduced coefficient is an inverse of a modulo n. */
  lemma ModInverseCorrect(a: nat, n: nat)
    requires n > 0 && Gcd(a, n) == 1
    ensures ModInverse(a, n) < n && (a * ModInverse(a, n)) % n == 1 % n
  {
    ExtGcdBezout(a, n);
    BezoutInverse(a, n, ExtGcd(a, n).x, ExtGcd(a, n).y);
  }

  /** Two coefficients of opposite sign (or zero), as the extended iteration produces them. */
  predicate OppositeSigns(u: int, v: int)
  {
    (u >= 0 && v <= 0) || (u <= 0 && v >= 0)
  }

  lemma OppositeSignsStep(sp: int, s: int, q: nat)
    requires OppositeSigns(sp, s)
    ensures Abs(q * s) == q * Abs(s)
    ensures Abs(sp - q * s) == Abs(sp) + q * Abs(s)
    ensures OppositeSigns(s, sp - q * s)
  {
    if s < 0 {
      assert q * s == -(q * (-s));
    }
  }

  lemma StepIdentity(B: int, A: int, q: int, r: int, rp: int)
    ensures (B + q * A) * r + A * (rp - q * r) == B * r + A * rp
  {
    assert (B + q * A) * r == B * r + (q * A) * r;
    assert A * (rp - q * r) == A * rp - A * (q * r);
    assert (q * A) * r == A * (q * r);
  }

  lemma ScaledBound(x: nat, r: nat, y: nat, N: nat)
    requires r >= 1 && x * r + y == N
    ensures x <= N
  {
    if x > 0 { MulPositiveGrows(x, r); }
  }

  /**
    One step of the extended iteration keeps the coefficient bound
    |s| * r_prev + |s_prev| * r == N with alternating signs; hence every
    coefficient, and every product q * s formed on the way, stays within N.
   */
  lemma CoefficientStep(rp: nat, r: nat, sp: int, s: int, N: nat)
    requires r > 0
    requires Abs(s) * rp + Abs(sp) * r == N && OppositeSigns(sp, s)
    ensures Abs(sp - (rp / r) * s) * r + Abs(s) * (rp % r) == N
    ensures OppositeSigns(s, sp - (rp / r) * s)
    ensures Abs((rp / r) * s) <= Abs(sp - (rp / r) * s) <= N
  {
    var q := rp / r;
    var s' := sp - q * s;
    assert rp % r == rp - q * r;
    OppositeSignsStep(sp, s, q);
    StepIdentity(Abs(sp), Abs(s), q, r, rp);
    assert Abs(s') * r + Abs(s) * (rp % r) == N;
    assert Abs(s) * (rp % r) >= 0;
    ScaledBound(Abs(s'), r, Abs(s) * (rp % r), N);
  }

  /** The C expression (m + x % m) % m reduces x into [0, m). */
  lemma CRemNormalize(x: int, m: int)
    requires m > 0
    ensures (m + CRem(x, m)) % m == x % m
  {
    if x >= 0 {
      ModAddMultiple(x % m, 1, m);
      ModOfMod(x, m);
    } else {
      var y := -x;
      var q, r := y / m, y % m;
      assert y == q * m + r;
      if r == 0 {
        DivModUnique(x, m, -q, 0);
        DivModUnique(m, m, 1, 0);
      } else {
        DivModUnique(x, m, -q - 1, m - r);
        DivModUnique(m - r, m, 0, m - r);
      }
    }
  }
}

=== FILE: crt.dfy ===
/**
  Chinese-remainder reconstruction (CRT in lib/src/cypher.c): from residues
  v_i modulo pairwise-coprime m_i, the unique x < m_0 * ... * m_(k-1) with
  x == v_i (mod m_i) for every i.
 */
module ChineseRemainder {

  import opened Machine
  import Arith
  import NumberTheory

  /** CY_Residu64: a value and its modulus. */
  datatype Residue = Residue(value: u64, mod: u64)

  /** The product of the moduli, folded from the front as the source's loop does. */
  function Product(a: seq<Residue>): nat
  {
    if |a| == 0 then 1 else Product(a[..|a| - 1]) * a[|a| - 1].mod
  }

  /**
    The inputs CRT accepts: a non-empty array in which every modulus is
    non-zero, coprime to the product of the moduli before it, and the running
    product never exceeds UINT64_MAX.
   */
  predicate Accepted(a: seq<Residue>)
  {
    && |a| > 0
    && (forall i :: 0 <= i < |a| ==> a[i].mod > 0)
    && (forall i :: 0 <= i < |a| ==> AcceptedAt(a, i))
  }

  /** The three checks of the first loop at index i. */
  predicate AcceptedAt(a: seq<Residue>, i: int)
    requires 0 <= i < |a|
  {
    a[i].mod > 0 && Arith.Gcd(a[i].mod, Product(a[..i])) == 1 && Product(a[..i + 1]) <= U64_MAX
  }

  /** x satisfies every congruence x == v_i (mod m_i) of a. */
  predicate Solves(a: seq<Residue>, x: nat)
  {
    forall i :: 0 <= i < |a| && a[i].mod > 0 ==> x % a[i].mod == a[i].value % a[i].mod
  }

  /**
    CRT(a, size, &out): out is 0 and the call fails on an empty array, a zero
    modulus, a modulus sharing a factor with the running product, or a product
    that overflows 64 bits.  Otherwise the second loop adds, for each i,
    (M_i * M_i^-1 mod M) * (v_i mod m_i) mod M to the accumulator, where
    M_i == M / m_i and M_i^-1 is its inverse modulo m_i computed by EEA.
   */
  method CRT(a: seq<Residue>) returns (st: Status, out: u64)
    ensures st.Ok? <==> Accepted(a)
    ensures st.Err? ==> st.kind == Failure && out == 0
    ensures st.Ok? ==> out < Product(a) && Solves(a, out)
  {
    out := 0;
    if |a| == 0 {
      return Err(Failure), 0;
    }
    var ok, M := CheckModuli(a);
    if !ok {
      return Err(Failure), 0;
    }
    // `M = M ? M : UINT64_MAX` follows here in the source; M >= 1, so it never fires.
    var A := Combine(a, M);
    Arith.DivModUnique(A, M, 0, A);
    out := A % M;
    st := Ok;
  }

  /**
    The first loop of CRT: every modulus must be non-zero and coprime to the
    running product M, and M * m_i must not exceed UINT64_MAX; on success M is
    the product of all the moduli.
   */
  method CheckModuli(a: seq<Residue>) returns (ok: bool, M: u64)
    requires |a| > 0
    ensures ok <==> Accepted(a)
    ensures ok ==> M == Product(a)
  {
    M := 1;
    var i := 0;
    while i < |a|
      invariant i <= |a| && 0 < M == Product(a[..i])
      invariant forall k :: 0 <= k < i ==> AcceptedAt(a, k)
    {
      var m := a[i].mod;
      if m == 0 {
        assert !AcceptedAt(a, i);
        return false, M;
      }
      var g := NumberTheory.Gcd(m, M);
      if g != 1 {
        assert !AcceptedAt(a, i);
        return false, M;
      }
      ProductSnoc(a, i);
      OverflowTest(M, m);
      if M > U64_MAX / m {
        assert !AcceptedAt(a, i);
        return false, M;
      }
      M := M * m;
      i := i + 1;
    }
    AllAccepted(a);
    ok := true;
  }

  /**
    The second loop of CRT on an accepted array with M the product of its
    moduli: the accumulator ends below M and congruent to every v_i modulo m_i.
    EEA(M_i, m_i) cannot fail there, because M_i is the product of the other
    moduli and so coprime to m_i; the source's failure return after it is
    unreachable.
   */
  method Combine(a: seq<Residue>, M: u64) returns (A: u64)
    requires Accepted(a) && M == Product(a)
    ensures A < M && Solves(a, A)
  {
    PositiveProduct(a);
    A := 0;
    var i := 0;
    while i < |a|
      invariant i <= |a| && A < M
      invariant forall j :: 0 <= j < i ==> A % a[j].mod == a[j].value % a[j].mod
      invariant forall j :: i <= j < |a| ==> A % a[j].mod == 0
    {
      var m := a[i].mod;
      var Mi := M / m;
      ModulusFactor(a, i);
      var est, inv := NumberTheory.EEA(Mi, m);
      assert est.Ok?;
      InverseProductBound(Mi, inv, m, M);
      var t := (Mi * inv) % M;
      ResidueProductBound(t, a[i].value % m, M, m);
      t := (t * (a[i].value % m)) % M;
      CrtStep(a, i, A, inv);
      assert (t + A) % M == Accumulate(a, i, A, inv);
      A := (t + A) % M;
      i := i + 1;
    }
  }

  /** Prefix products grow one modulus at a time. */
  lemma ProductSnoc(a: seq<Residue>, i: int)
    requires 0 <= i < |a|
    ensures Product(a[..i + 1]) == Product(a[..i]) * a[i].mod
  {
    assert a[..i + 1][..i] == a[..i];
  }

  /** Once every index passed the first loop, the array is accepted. */
  lemma AllAccepted(a: seq<Residue>)
    requires |a| > 0 && forall k :: 0 <= k < |a| ==> AcceptedAt(a, k)
    ensures Accepted(a) && Product(a[..|a|]) == Product(a)
  {
    assert a[..|a|] == a;
    forall k | 0 <= k < |a|
      ensures a[k].mod > 0
    {
      assert AcceptedAt(a, k);
    }
  }

  /** M * m <= UINT64_MAX exactly when M <= UINT64_MAX / m. */
  lemma OverflowTest(M: nat, m: nat)
    requires m > 0
    ensures M * m <= U64_MAX <==> M <= U64_MAX / m
  {
    var q := U64_MAX / m;
    assert U64_MAX == q * m + U64_MAX % m;
    if M <= q {
      Arith.MulLe(M, m, q, m);
    } else {
      Arith.MulLe(q + 1, m, M, m);
    }
  }

  /** M_i * M_i^-1 < M_i * m_i == M, so the uint64_t product cannot overflow. */
  lemma InverseProductBound(Mi: nat, inv: nat, m: nat, M: nat)
    requires inv < m && Mi * m == M && 0 < M <= U64_MAX
    ensures Mi * inv < M
  {
    Arith.MulLe(Mi, inv + 1, Mi, m);
    assert Mi * (inv + 1) == Mi * inv + Mi;
  }

  /** t < M and v < m, both 64-bit: t * v fits in __uint128_t. */
  lemma ResidueProductBound(t: nat, v: nat, M: nat, m: nat)
    requires t < M < U64_LIMIT && v < m < U64_LIMIT
    ensures InU128(t * v)
  {
    Arith.MulLe(t, v, U64_MAX, U64_MAX);
  }

  lemma {:induction false} ProductConcat(x: seq<Residue>, y: seq<Residue>)
    ensures Product(x + y) == Product(x) * Product(y)
    decreases |y|
  {
    if |y| > 0 {
      var y' := y[..|y| - 1];
      assert (x + y)[..|x + y| - 1] == x + y';
      ProductConcat(x, y');
      Reassociate(Product(x), Product(y'), y[|y| - 1].mod);
    } else {
      assert x + y == x;
    }
  }

  lemma Reassociate(P: int, S: int, m: int)
    ensures (P * S) * m == P * (S * m) && P * (m * S) == (P * S) * m
  {
  }

  /** Removing the modulus at i divides it out of the product. */
  lemma ProductAround(a: seq<Residue>, i: int)
    requires 0 <= i < |a|
    ensures Product(a) == Product(a[..i] + a[i + 1..]) * a[i].mod
  {
    var L, R := a[..i], a[i + 1..];
    SplitAt(a, i);
    ProductCons(a[i], R);
    ProductConcat(L, R);
    Reassociate(Product(L), Product(R), a[i].mod);
  }

  lemma SplitAt(a: seq<Residue>, i: int)
    requires 0 <= i < |a|
    ensures Product(a) == Product(a[..i]) * Product([a[i]] + a[i + 1..])
  {
    SplitSeq(a, i);
    ProductConcat(a[..i], [a[i]] + a[i + 1..]);
  }

  lemma SplitSeq(a: seq<Residue>, i: int)
    requires 0 <= i < |a|
    ensures a[..i] + ([a[i]] + a[i + 1..]) == a
  {
  }

  lemma ProductCons(r: Residue, R: seq<Residue>)
    ensures Product([r] + R) == r.mod * Product(R)
  {
    ProductConcat([r], R);
    assert [r][..0] == [];
  }

  /** Every non-zero modulus divides the product. */
  lemma ElementDivides(a: seq<Residue>, j: int)
    requires 0 <= j < |a| && a[j].mod > 0
    ensures Product(a) % a[j].mod == 0
  {
    ProductAround(a, j);
    Arith.MultipleMod(Product(a[..j] + a[j + 1..]), a[j].mod);
  }

  /** An accepted array has pairwise-coprime moduli. */
  lemma PairwiseCoprime(a: seq<Residue>, j: int, k: int)
    requires Accepted(a) && 0 <= j < |a| && 0 <= k < |a| && j != k
    ensures Arith.Gcd(a[j].mod, a[k].mod) == 1
  {
    if j > k {
      PairwiseCoprime(a, k, j);
      Arith.GcdSymmetric(a[k].mod, a[j].mod);
    } else {
      var p := a[..k];
      assert AcceptedAt(a, k);
      assert p[j] == a[j];
      ElementDivides(p, j);
      var c := Product(p) / a[j].mod;
      Arith.DivModUnique(Product(p), a[j].mod, c, 0);
      assert Product(p) == a[j].mod * c;
      Arith.CoprimeFactor(a[k].mod, a[j].mod, c);
      Arith.GcdSymmetric(a[k].mod, a[j].mod);
    }
  }

  /** x coprime to every modulus of b is coprime to their product. */
  lemma {:induction false} CoprimeWithAll(x: nat, b: seq<Residue>)
    requires forall k :: 0 <= k < |b| ==> Arith.Gcd(x, b[k].mod) == 1
    ensures Arith.Gcd(x, Product(b)) == 1
    decreases |b|
  {
    if |b| == 0 {
      assert Arith.Gcd(x, 1) == Arith.Gcd(1, 0);
    } else {
      var b' := b[..|b| - 1];
      CoprimeWithAll(x, b');
      Arith.CoprimeProduct(x, Product(b'), b[|b| - 1].mod);
    }
  }

  lemma {:induction false} PositiveProduct(b: seq<Residue>)
    requires forall k :: 0 <= k < |b| ==> b[k].mod > 0
    ensures Product(b) > 0
    decreases |b|
  {
    if |b| > 0 {
      PositiveProduct(b[..|b| - 1]);
      Arith.MulPositiveGrows(Product(b[..|b| - 1]), b[|b| - 1].mod);
    }
  }

  /**
    For an accepted array, M_i == M / m_i is the product of the other moduli:
    M == M_i * m_i, gcd(M_i, m_i) == 1 (so EEA succeeds), and every other
    modulus divides M_i.
   */
  lemma ModulusFactor(a: seq<Residue>, i: int)
    requires Accepted(a) && 0 <= i < |a|
    ensures Product(a) / a[i].mod * a[i].mod == Product(a)
    ensures Arith.Gcd(Product(a) / a[i].mod, a[i].mod) == 1
    ensures forall j :: 0 <= j < |a| && j != i ==> (Product(a) / a[i].mod) % a[j].mod == 0
  {
    var m := a[i].mod;
    var rest := a[..i] + a[i + 1..];
    ProductAround(a, i);
    Arith.MultipleMod(Product(rest), m);
    RestCoprime(a, i);
    forall j | 0 <= j < |a| && j != i
      ensures Product(rest) % a[j].mod == 0
    {
      if j < i {
        assert rest[j] == a[j];
        ElementDivides(rest, j);
      } else {
        assert rest[j - 1] == a[j];
        ElementDivides(rest, j - 1);
      }
    }
  }

  /** The product of the other moduli is coprime to m_i. */
  lemma RestCoprime(a: seq<Residue>, i: int)
    requires Accepted(a) && 0 <= i < |a|
    ensures Arith.Gcd(Product(a[..i] + a[i + 1..]), a[i].mod) == 1
  {
    var m := a[i].mod;
    var rest := a[..i] + a[i + 1..];
    forall k | 0 <= k < |rest|
      ensures Arith.Gcd(m, rest[k].mod) == 1
    {
      if k < i {
        assert rest[k] == a[k];
        PairwiseCoprime(a, i, k);
      } else {
        assert rest[k] == a[k + 1];
        PairwiseCoprime(a, i, k + 1);
      }
    }
    CoprimeWithAll(m, rest);
    Arith.GcdSymmetric(m, Product(rest));
  }

  /** A multiple of d stays one after reducing modulo a multiple of d. */
  lemma ReduceModMultiple(x: int, d: nat, M: nat)
    requires d > 0 && M > 0 && M % d == 0
    ensures (x % M) % d == x % d
  {
    Arith.DivModUnique(M, d, M / d, 0);
    Arith.ModOfModMultiple(x, d, M / d);
  }

  /** Adding modulo M, read modulo a divisor d of M. */
  lemma AddResidue(t: int, A: int, M: nat, d: nat)
    requires d > 0 && M > 0 && M % d == 0
    ensures ((t + A) % M) % d == (t % d + A % d) % d
  {
    ReduceModMultiple(t + A, d, M);
    Arith.ModAdd(t, A, d);
  }

  /** With p == 1 (mod m), the term (p mod M) * v mod M is v modulo m, for v < m. */
  lemma TermAtOwn(p: int, v: nat, M: nat, m: nat)
    requires m > 0 && M > 0 && M % m == 0 && p % m == 1 % m && v < m
    ensures (((p % M) * v) % M) % m == v
  {
    Arith.ModMulLeft(p, v, M);
    ReduceModMultiple(p * v, m, M);
    Arith.ModMulLeft(p, v, m);
    Arith.DivModUnique(v, m, 0, v);
    if m == 1 {
      assert v == 0 && (p % m) * v == 0;
    } else {
      Arith.DivModUnique(1, m, 0, 1);
      assert (p % m) * v == v;
    }
  }

  /** With p == 0 (mod d), the term (p mod M) * v mod M vanishes modulo d. */
  lemma TermAtOther(p: int, v: int, M: nat, d: nat)
    requires d > 0 && M > 0 && M % d == 0 && p % d == 0
    ensures (((p % M) * v) % M) % d == 0
  {
    Arith.ModMulLeft(p, v, M);
    ReduceModMultiple(p * v, d, M);
    Arith.ModMulLeft(p, v, d);
    assert (p % d) * v == 0;
    Arith.DivModUnique(0, d, 0, 0);
  }

  /** A multiple of d times anything is a multiple of d. */
  lemma MultipleTimes(x: nat, y: nat, d: nat)
    requires d > 0 && x % d == 0
    ensures (x * y) % d == 0
  {
    Arith.ModMulLeft(x, y, d);
  }

  /**
    One pass of the second loop: adding t == (M_i * M_i^-1 mod M) * (v_i mod m_i)
    mod M fixes the residue modulo m_i and leaves every other residue as it was.
   */
  lemma CrtStep(a: seq<Residue>, i: int, A: nat, inv: nat)
    requires Accepted(a) && 0 <= i < |a| && 0 < Product(a)
    requires forall j :: 0 <= j < i ==> A % a[j].mod == a[j].value % a[j].mod
    requires forall j :: i <= j < |a| ==> A % a[j].mod == 0
    requires (Product(a) / a[i].mod * inv) % a[i].mod == 1 % a[i].mod
    ensures forall j :: 0 <= j <= i ==> Accumulate(a, i, A, inv) % a[j].mod == a[j].value % a[j].mod
    ensures forall j :: i < j < |a| ==> Accumulate(a, i, A, inv) % a[j].mod == 0
  {
    ModulusFactor(a, i);
    forall j | 0 <= j < |a|
      ensures Accumulate(a, i, A, inv) % a[j].mod == (if j <= i then a[j].value % a[j].mod else 0)
    {
      CrtStepAt(a, i, A, inv, j);
    }
  }

  /**
    The accumulator after pass i of the second loop:
    (A + (M_i * inv mod M) * (v_i mod m_i) mod M) mod M.
   */
  function Accumulate(a: seq<Residue>, i: int, A: nat, inv: nat): nat
    requires Accepted(a) && 0 <= i < |a| && 0 < Product(a)
  {
    var M, m := Product(a), a[i].mod;
    ((((M / m * inv) % M) * (a[i].value % m)) % M + A) % M
  }

  lemma CrtStepAt(a: seq<Residue>, i: int, A: nat, inv: nat, j: int)
    requires Accepted(a) && 0 <= i < |a| && 0 <= j < |a| && 0 < Product(a)
    requires j < i ==> A % a[j].mod == a[j].value % a[j].mod
    requires j >= i ==> A % a[j].mod == 0
    requires (Product(a) / a[i].mod * inv) % a[i].mod == 1 % a[i].mod
    requires forall k :: 0 <= k < |a| && k != i ==> (Product(a) / a[i].mod) % a[k].mod == 0
    ensures Accumulate(a, i, A, inv) % a[j].mod == (if j <= i then a[j].value % a[j].mod else 0)
  {
    var M, m := Product(a), a[i].mod;
    var Mi := M / m;
    var p := Mi * inv;
    var v := a[i].value % m;
    var t := ((p % M) * v) % M;
    var mj := a[j].mod;
    ElementDivides(a, j);
    if j != i {
      MultipleTimes(Mi, inv, mj);
      ResidueAfterStep(t, A, M, mj, p, v, false);
    } else {
      ResidueAfterStep(t, A, M, mj, p, v, true);
    }
    Arith.DivModUnique(0, mj, 0, 0);
    Arith.ModOfMod(a[j].value, mj);
  }

  /** The residue modulo m_j after adding t == (p mod M) * v mod M to A. */
  lemma ResidueAfterStep(t: int, A: int, M: nat, mj: nat, p: int, v: nat, own: bool)
    requires M > 0 && mj > 0 && M % mj == 0 && t == ((p % M) * v) % M
    requires own ==> p % mj == 1 % mj && v < mj
    requires !own ==> p % mj == 0
    ensures ((t + A) % M) % mj == ((if own then v else 0) + A % mj) % mj
  {
    AddResidue(t, A, M, mj);
    if own {
      TermAtOwn(p, v, M, mj);
    } else {
      TermAtOther(p, v, M, mj);
    }
  }

  /**
    A difference d divisible by every m_i of an accepted array is divisible by
    the product of the first k moduli.
   */
  lemma {:induction false} CongruentModPrefix(a: seq<Residue>, d: int, k: nat)
    requires Accepted(a) && k <= |a|
    requires forall i :: 0 <= i < |a| ==> d % a[i].mod == 0
    ensures Product(a[..k]) > 0 && d % Product(a[..k]) == 0
    decreases k
  {
    if k == 0 {
      assert Product(a[..0]) == 1;
    } else {
      CongruentModPrefix(a, d, k - 1);
      ProductSnoc(a, k - 1);
      assert AcceptedAt(a, k - 1);
      var P, m := Product(a[..k - 1]), a[k - 1].mod;
      Arith.GcdSymmetric(m, P);
      CoprimeDivides(P, m, d);
      Arith.MulPositiveGrows(P, m);
    }
  }

  /** Coprime P and m that both divide d: P * m divides d. */
  lemma CoprimeDivides(P: nat, m: nat, d: int)
    requires P > 0 && m > 0 && Arith.Gcd(P, m) == 1 && d % P == 0 && d % m == 0
    ensures d % (P * m) == 0
  {
    Arith.ExtGcdBezout(P, m);
    var x, y := Arith.ExtGcd(P, m).x, Arith.ExtGcd(P, m).y;
    var k1, k2 := d / P, d / m;
    Arith.ExactDivision(d, P);
    Arith.ExactDivision(d, m);
    CoprimeCombination(P, m, d, k1, k2, x, y);
    Arith.MulPositiveGrows(P, m);
    Arith.MultipleMod(k2 * x + k1 * y, P * m);
  }

  /** The ring identity behind CoprimeDivides. */
  lemma CoprimeCombination(P: int, m: int, d: int, k1: int, k2: int, x: int, y: int)
    requires d == P * k1 && d == m * k2 && x * P + y * m == 1
    ensures d == (k2 * x + k1 * y) * (P * m)
  {
    calc {
      d;
      d * (x * P + y * m);
      d * (x * P) + d * (y * m);
      (m * k2) * (x * P) + (P * k1) * (y * m);
      { Regroup(m, k2, x, P); Regroup(P, k1, y, m); }
      (k2 * x) * (P * m) + (k1 * y) * (P * m);
    }
  }

  lemma Regroup(u: int, k: int, x: int, w: int)
    ensures (u * k) * (x * w) == (k * x) * (w * u)
  {
  }

  /** An accepted array has at most one solution below the product of its moduli. */
  lemma SolutionUnique(a: seq<Residue>, x: nat, y: nat)
    requires Accepted(a) && x < Product(a) && y < Product(a) && Solves(a, x) && Solves(a, y)
    ensures x == y
  {
    forall i | 0 <= i < |a|
      ensures (x - y) % a[i].mod == 0
    {
      Arith.SameResidueIffDifference(x, y, a[i].mod);
    }
    CongruentModPrefix(a, x - y, |a|);
    assert a[..|a|] == a;
    var M := Product(a);
    if x > y {
      Arith.DivModUnique(x - y, M, 0, x - y);
    } else if x < y {
      Arith.DivModUnique(x - y, M, -1, x - y + M);
    }
  }

  /** [(2, 3), (3, 5), (2, 7)] is accepted and 23 is its only solution below 105. */
  lemma Example()
    ensures Accepted([Residue(2, 3), Residue(3, 5), Residue(2, 7)])
    ensures Product([Residue(2, 3), Residue(3, 5), Residue(2, 7)]) == 105
    ensures forall x: nat :: x < 105 && Solves([Residue(2, 3), Residue(3, 5), Residue(2, 7)], x) ==> x == 23
  {
    var a := [Residue(2, 3), Residue(3, 5), Residue(2, 7)];
    ExampleAccepted(a);
    assert 23 % 3 == 2 && 23 % 5 == 3 && 23 % 7 == 2;
    assert Solves(a, 23);
    forall x: nat | x < 105 && Solves(a, x)
      ensures x == 23
    {
      SolutionUnique(a, x, 23);
    }
  }

  lemma ExampleAccepted(a: seq<Residue>)
    requires a == [Residue(2, 3), Residue(3, 5), Residue(2, 7)]
    ensures Accepted(a) && Product(a) == 105
  {
    ExamplePrefixes(a);
    assert Arith.Gcd(3, 1) == 1;
    assert Arith.Gcd(5, 3) == Arith.Gcd(3, 2) == Arith.Gcd(2, 1) == Arith.Gcd(1, 0) == 1;
    assert Arith.Gcd(7, 15) == Arith.Gcd(15, 7) == Arith.Gcd(7, 1) == Arith.Gcd(1, 0) == 1;
    assert AcceptedAt(a, 0) && AcceptedAt(a, 1) && AcceptedAt(a, 2);
  }

  lemma ExamplePrefixes(a: seq<Residue>)
    requires a == [Residue(2, 3), Residue(3, 5), Residue(2, 7)]
    ensures Product(a[..0]) == 1 && Product(a[..1]) == 3 && Product(a[..2]) == 15
    ensures Product(a[..3]) == 105 && Product(a) == 105
  {
    assert a[..3] == a;
    assert a[..3][..2] == a[..2] && a[..2][..1] == a[..1] && a[..1][..0] == a[..0];
  }
}

=== FILE: framing.dfy ===
/**
  The 16-byte message header of the command-line tool (CLI/src/main.c): the
  payload length as eight big-endian bytes, then the eight one-byte flag and
  type fields of struct CY_HEADER in their declared order.

  `(size >> (8 * i)) & 0xFF` is written `(size / 256^i) % 256`, and the
  import's `size |= byte << (8 * i)` is written as an addition: the shifted
  byte only occupies bits above every bit set so far, so the two agree.
 */
module Framing {

  import opened Machine
  import Arith

  /** The header length, CY_HEADER_OFFSET. */
  const HEADER_SIZE: nat := 16
  /** sizeof(size_t) on the 64-bit targets the tool is written for. */
  const SIZE_BYTES: nat := 8

  /** struct CY_HEADER */
  datatype Header = Header(
    dataLen: u64,
    padFlag: u8, padSize: u8,
    encFlag: u8, encType: u8,
    keyFlag: u8, keyType: u8,
    hashFlag: u8, hashType: u8)

  function Pow256(n: nat): (r: nat)
    ensures r >= 1
  {
    if n == 0 then 1 else 256 * Pow256(n - 1)
  }

  lemma SizeTLimit()
    ensures Pow256(SIZE_BYTES) == U64_LIMIT
  {
  }

  /** Byte i of x, counting from the least significant. */
  function Digit(x: nat, i: nat): u8
  {
    (x / Pow256(i)) % 256
  }

  /** The low n bytes of x, most significant first. */
  function BigEndian(x: nat, n: nat): (r: seq<u8>)
    ensures |r| == n
  {
    if n == 0 then [] else [Digit(x, n - 1)] + BigEndian(x, n - 1)
  }

  /** The number whose big-endian bytes are s. */
  function BigEndianValue(s: seq<u8>): (v: nat)
    ensures v < Pow256(|s|)
  {
    if |s| == 0 then 0
    else
      var m := Pow256(|s| - 1);
      Arith.MulLe(s[0], m, 255, m);
      s[0] * m + BigEndianValue(s[1..])
  }

  /** x mod 256^(i+1) is byte i of x followed by x mod 256^i. */
  lemma ModSplit(x: nat, m: nat)
    requires m > 0
    ensures x % (256 * m) == ((x / m) % 256) * m + x % m
  {
    var q, r := x / m, x % m;
    var hi, lo := q / 256, q % 256;
    assert x == q * m + r;
    assert q * m == hi * (256 * m) + lo * m by {
      assert q == hi * 256 + lo;
    }
    Arith.MulLe(lo, m, 255, m);
    Arith.DivModUnique(x, 256 * m, hi, lo * m + r);
  }

  /** Decoding the n-byte encoding of x gives back x mod 256^n. */
  lemma {:induction false} ValueOfBigEndian(x: nat, n: nat)
    ensures BigEndianValue(BigEndian(x, n)) == x % Pow256(n)
  {
    if n > 0 {
      var s := BigEndian(x, n);
      assert s[1..] == BigEndian(x, n - 1);
      ValueOfBigEndian(x, n - 1);
      ModSplit(x, Pow256(n - 1));
    }
  }

  /** Two byte strings of one length with the same value are equal. */
  lemma {:induction false} BigEndianValueInjective(s: seq<u8>, t: seq<u8>)
    requires |s| == |t| && BigEndianValue(s) == BigEndianValue(t)
    ensures s == t
  {
    if |s| > 0 {
      var m := Pow256(|s| - 1);
      Arith.DivModUnique(BigEndianValue(s), m, s[0], BigEndianValue(s[1..]));
      Arith.DivModUnique(BigEndianValue(t), m, t[0], BigEndianValue(t[1..]));
      BigEndianValueInjective(s[1..], t[1..]);
      assert s == [s[0]] + s[1..] && t == [t[0]] + t[1..];
    }
  }

  /** Encoding the value of n bytes gives back those bytes. */
  lemma BigEndianOfValue(s: seq<u8>)
    ensures BigEndian(BigEndianValue(s), |s|) == s
  {
    var v := BigEndianValue(s);
    ValueOfBigEndian(v, |s|);
    Arith.DivModUnique(v, Pow256(|s|), 0, v);
    BigEndianValueInjective(BigEndian(v, |s|), s);
  }

  /** A value below 256^k has only zero bytes above its low k. */
  lemma {:induction false} LeadingZeros(x: nat, k: nat, n: nat)
    requires x < Pow256(k)
    ensures BigEndian(x, k + n) == seq(n, _ => 0) + BigEndian(x, k)
  {
    if n > 0 {
      LeadingZeros(x, k, n - 1);
      PowMonotone(k, k + n - 1);
      Arith.DivModUnique(x, Pow256(k + n - 1), 0, x);
      assert Digit(x, k + n - 1) == 0;
      assert seq(n, _ => 0) == [0] + seq(n - 1, _ => 0);
    }
  }

  lemma {:induction false} PowMonotone(i: nat, j: nat)
    requires i <= j
    ensures Pow256(i) <= Pow256(j)
    decreases j
  {
    if i < j {
      PowMonotone(i, j - 1);
    }
  }

  /** size_t round trip: importing the exported bytes of a 64-bit size gives it back. */
  lemma SizeRoundTrip(size: u64)
    ensures BigEndianValue(BigEndian(size, SIZE_BYTES)) == size
  {
    ValueOfBigEndian(size, SIZE_BYTES);
    SizeTLimit();
    Arith.DivModUnique(size, U64_LIMIT, 0, size);
  }

  /**
    cy_buff_size_exp: for i = 0 .. 7, byte i of size (from the least
    significant) goes to buff[7 - i]; nothing past buff[8] is touched.
   */
  method ExportSize(size: u64, buff: array<u8>)
    requires buff.Length >= SIZE_BYTES
    modifies buff
    ensures buff[..SIZE_BYTES] == BigEndian(size, SIZE_BYTES)
    ensures buff[SIZE_BYTES..] == old(buff[SIZE_BYTES..])
  {
    var i := 0;
    while i < SIZE_BYTES
      invariant i <= SIZE_BYTES
      invariant buff[SIZE_BYTES - i..SIZE_BYTES] == BigEndian(size, i)
      invariant buff[SIZE_BYTES..] == old(buff[SIZE_BYTES..])
    {
      buff[SIZE_BYTES - (i + 1)] := (size / Pow256(i)) % 256;
      assert buff[SIZE_BYTES - (i + 1)..SIZE_BYTES]
          == [buff[SIZE_BYTES - (i + 1)]] + buff[SIZE_BYTES - i..SIZE_BYTES];
      i := i + 1;
    }
  }

  /**
    cy_buff_size_imp: size starts at 0 and takes in buff[7 - i] shifted by
    8 * i for i = 0 .. 7, so buff[0..8) is read as a big-endian number.
   */
  method ImportSize(buff: array<u8>) returns (size: u64)
    requires buff.Length >= SIZE_BYTES
    ensures size == BigEndianValue(buff[..SIZE_BYTES])
  {
    SizeTLimit();
    size := 0;
    var i := 0;
    while i < SIZE_BYTES
      invariant i <= SIZE_BYTES
      invariant size == BigEndianValue(buff[SIZE_BYTES - i..SIZE_BYTES])
    {
      ghost var s := buff[SIZE_BYTES - (i + 1)..SIZE_BYTES];
      assert s[1..] == buff[SIZE_BYTES - i..SIZE_BYTES];
      assert |s| == i + 1 && BigEndianValue(s) < Pow256(i + 1) <= Pow256(SIZE_BYTES);
      size := size + buff[SIZE_BYTES - (i + 1)] * Pow256(i);
      i := i + 1;
    }
    assert buff[SIZE_BYTES - i..SIZE_BYTES] == buff[..SIZE_BYTES];
  }

  /** The eight flag and type bytes, offsets 8 .. 15 of the header. */
  function Flags(h: Header): seq<u8>
  {
    [h.padFlag, h.padSize, h.encFlag, h.encType, h.keyFlag, h.keyType, h.hashFlag, h.hashType]
  }

  /** The 16 header bytes cy_buff_header_exp writes. */
  function Encode(h: Header): (b: seq<u8>)
    ensures |b| == HEADER_SIZE
  {
    BigEndian(h.dataLen, SIZE_BYTES) + Flags(h)
  }

  /** The header cy_buff_header_imp reads from the first 16 bytes of b. */
  function Decode(b: seq<u8>): (h: Header)
    requires |b| >= HEADER_SIZE
  {
    SizeTLimit();
    Header(BigEndianValue(b[..SIZE_BYTES]), b[8], b[9], b[10], b[11], b[12], b[13], b[14], b[15])
  }

  /** cy_buff_header_imp(cy_buff_header_exp(h)) == h */
  lemma DecodeEncode(h: Header)
    ensures Decode(Encode(h)) == h
  {
    var b := Encode(h);
    assert b[..SIZE_BYTES] == BigEndian(h.dataLen, SIZE_BYTES);
    SizeRoundTrip(h.dataLen);
  }

  /** Every 16-byte string is the encoding of the header it decodes to. */
  lemma EncodeDecode(b: seq<u8>)
    requires |b| == HEADER_SIZE
    ensures Encode(Decode(b)) == b
  {
    var h := Decode(b);
    BigEndianOfValue(b[..SIZE_BYTES]);
    assert BigEndian(h.dataLen, SIZE_BYTES) == b[..SIZE_BYTES];
    assert Flags(h) == b[SIZE_BYTES..];
    assert b == b[..SIZE_BYTES] + b[SIZE_BYTES..];
  }

  /** Headers with different encodings differ, and conversely. */
  lemma EncodeInjective(h: Header, g: Header)
    ensures Encode(h) == Encode(g) <==> h == g
  {
    if Encode(h) == Encode(g) {
      DecodeEncode(h);
      DecodeEncode(g);
    }
  }

  /**
    cy_buff_header_exp: the length into buff[0..8), then the flag and type
    fields into buff[8..16) in declaration order.
   */
  method ExportHeader(head: Header, buff: array<u8>)
    requires buff.Length >= HEADER_SIZE
    modifies buff
    ensures buff[..HEADER_SIZE] == Encode(head)
    ensures buff[HEADER_SIZE..] == old(buff[HEADER_SIZE..])
  {
    ExportSize(head.dataLen, buff);
    buff[8], buff[9] := head.padFlag, head.padSize;
    buff[10], buff[11] := head.encFlag, head.encType;
    buff[12], buff[13] := head.keyFlag, head.keyType;
    buff[14], buff[15] := head.hashFlag, head.hashType;
    assert buff[..HEADER_SIZE] == buff[..SIZE_BYTES] + buff[SIZE_BYTES..HEADER_SIZE];
  }

  /** cy_buff_header_imp: the header is cleared, then every field is read back. */
  method ImportHeader(buff: array<u8>) returns (head: Header)
    requires buff.Length >= HEADER_SIZE
    ensures head == Decode(buff[..HEADER_SIZE])
  {
    var len := ImportSize(buff);
    assert buff[..HEADER_SIZE][..SIZE_BYTES] == buff[..SIZE_BYTES];
    head := Header(len, buff[8], buff[9], buff[10], buff[11], buff[12], buff[13], buff[14], buff[15]);
  }

  /**
    The program's own self-check: a cleared header with length 777 is written
    as 0 0 0 0 0 0 3 9 followed by eight zero bytes, and reads back as 777.
   */
  lemma Header777()
    ensures Encode(Header(777, 0, 0, 0, 0, 0, 0, 0, 0))
         == [0, 0, 0, 0, 0, 0, 3, 9, 0, 0, 0, 0, 0, 0, 0, 0]
    ensures Decode(Encode(Header(777, 0, 0, 0, 0, 0, 0, 0, 0))).dataLen == 777
  {
    var h := Header(777, 0, 0, 0, 0, 0, 0, 0, 0);
    assert Pow256(2) == 65536;
    assert BigEndian(777, 2) == [3, 9];
    assert BigEndian(777, SIZE_BYTES) == [0, 0, 0, 0, 0, 0] + BigEndian(777, 2) by {
      LeadingZeros(777, 2, 6);
    }
    DecodeEncode(h);
  }
}

=== FILE: header_math.dfy ===
/**
  The helper declared in lib/src/cypher.h: Euclid's gcd on two uint64_t.
  lib/cypher.c:27-31 defines `gcd` with the same loop, so this method is the
  model of both.
 */
module HeaderMath {

  import opened Machine
  import Arith

  /**
    gcd(a, b): while b is not zero, replace (a, b) by (b, a % b).  The result
    is the greatest common divisor; gcd(a, 0) == a because the loop body never
    runs, and gcd(0, b) == b after one step.
   */
  method Gcd(a0: u64, b0: u64) returns (g: u64)
    ensures g == Arith.Gcd(a0, b0)
    ensures Arith.Divides(g, a0) && Arith.Divides(g, b0)
    ensures forall d: nat :: Arith.Divides(d, a0) && Arith.Divides(d, b0) ==> Arith.Divides(d, g)
    ensures b0 == 0 ==> g == a0
    ensures a0 == 0 ==> g == b0
  {
    var a, b := a0, b0;
    while b != 0
      invariant Arith.Gcd(a, b) == Arith.Gcd(a0, b0)
      decreases b
    {
      var r := a % b;
      a := b;
      b := r;
    }
    g := a;
    Arith.GcdDividesBoth(a0, b0);
    Arith.GcdWithZero(b0);
    forall d: nat | Arith.Divides(d, a0) && Arith.Divides(d, b0)
      ensures Arith.Divides(d, g)
    {
      Arith.GcdGreatest(a0, b0, d);
    }
  }
}

=== FILE: keys.dfy ===
/**
  Key tables of lib/src/cypher.c: the CY_KEY record, the argument checks that
  guard every key operation (cy_key_linear_check_* and cy_check_*), and the
  three linear key builders: the identity table, the Fisher-Yates shuffle and
  the inverse table.
 */
module Keys {

  import opened Machine
  import Arith

  /** CY_OWNERSHIP_FLAG */
  datatype Ownership = Owned | NotOwned

  /**
    A CY_KEY as a value, the way the checks receive it: the bytes behind
    `str` (None for NULL), the `size` field and the `owner` flag.  `size` and
    the allocation are independent fields in C.
   */
  datatype KeyState = KeyState(str: Option<seq<u8>>, size: nat, owner: Ownership)

  /** `str` points to at least `size` bytes: what every access through the key relies on. */
  predicate WellFormed(k: KeyState)
  {
    k.str.Some? ==> k.size <= |k.str.value|
  }

  /** Non-NULL, owned and of non-zero size: the test every builder check applies to its inputs. */
  predicate Live(k: KeyState)
  {
    k.str.Some? && k.owner.Owned? && k.size > 0
  }

  /** The entries key[0 .. n) of a key holding at least n bytes. */
  function Entries(k: KeyState, n: nat): (s: seq<u8>)
    requires k.str.Some? && n <= |k.str.value|
    ensures |s| == n
  {
    k.str.value[..n]
  }

  /** A CY_KEY reached through a pointer: the builders update its fields and bytes in place. */
  class Key {
    var str: array?<u8>
    var size: nat
    var owner: Ownership

    /** `{.owner = CY_NOT_OWNED, .size = 0, .str = NULL}`, the empty key the ciphers start from. */
    constructor Empty()
      ensures str == null && size == 0 && owner.NotOwned?
    {
      str := null;
      size := 0;
      owner := NotOwned;
    }

    /** An owned key holding exactly the bytes of s. */
    constructor FromBytes(s: seq<u8>)
      ensures str != null && fresh(str) && str[..] == s && size == |s| && owner.Owned?
    {
      str := new u8[|s|](i requires 0 <= i < |s| => s[i]);
      size := |s|;
      owner := Owned;
    }

    predicate Valid()
      reads this
    {
      str != null ==> size <= str.Length
    }

    function State(): (k: KeyState)
      reads this, str
      ensures k.size == size && k.owner == owner && (k.str.Some? <==> str != null)
      ensures Valid() <==> WellFormed(k)
    {
      KeyState(if str == null then None else Some(str[..]), size, owner)
    }
  }

  // ---------------------------------------------------------------------------
  // Argument checks.  Every failing check returns CY_ERR; the ErrorKind records
  // which diagnostic cy_err_manager prints.

  /**
    cy_key_linear_check_direct_generate: start <= end, and the key holds no
    storage and is not owned, so the builder may allocate it.
   */
  function CheckDirectGenerate(start: u8, end: u8, k: KeyState): (st: Status)
    ensures st.Ok? <==> start <= end && k.str.None? && k.owner.NotOwned?
    ensures st.Err? ==> st.kind == InvalidArgument
  {
    if start > end then Err(InvalidArgument)
    else if k.str.Some? || k.owner.Owned? then Err(InvalidArgument)
    else Ok
  }

  /**
    cy_key_linear_check_rand_generated: start <= end, the key is live, and it
    holds at least end - start + 1 entries (otherwise a key-size error).
   */
  function CheckRandGenerated(start: u8, end: u8, k: KeyState): (st: Status)
    ensures st.Ok? <==> start <= end && Live(k) && end - start + 1 <= k.size
    ensures st == Err(InvalidArgument) <==> start > end || !Live(k)
    ensures st == Err(KeySize) <==> start <= end && Live(k) && k.size < end - start + 1
  {
    if start > end then Err(InvalidArgument)
    else if !Live(k) then Err(InvalidArgument)
    else if k.size < end - start + 1 then Err(KeySize)
    else Ok
  }

  /**
    What cy_key_linear_check_inverse_generated admits, in the order it tests:
    argument errors first, then the two size errors, then a key entry below
    start.
   */
  function InverseCheck(start: u8, end: u8, mapkey: KeyState, key: KeyState, invkey: KeyState): Status
    requires WellFormed(key)
  {
    if start > end then Err(InvalidArgument)
    else if !Live(mapkey) then Err(InvalidArgument)
    else if !Live(key) then Err(InvalidArgument)
    else if invkey.str.Some? || invkey.owner.Owned? || invkey.size != 0 then Err(InvalidArgument)
    else if key.size < end - start + 1 then Err(KeySize)
    else if key.size != mapkey.size then Err(KeySize)
    else if exists i :: 0 <= i < end - start + 1 && key.str.value[i] < start then Err(KeyInvalid)
    else Ok
  }

  /**
    cy_key_linear_check_inverse_generated: the argument tests, then a loop
    over the first end - start + 1 key entries looking for one below start.
   */
  method CheckInverseGenerated(start: u8, end: u8, mapkey: KeyState, key: KeyState, invkey: KeyState)
    returns (st: Status)
    requires WellFormed(key)
    ensures st == InverseCheck(start, end, mapkey, key, invkey)
    ensures st.Ok? ==> Live(mapkey) && Live(key) && mapkey.size == key.size && end - start + 1 <= key.size
    ensures st.Ok? ==> forall i :: 0 <= i < end - start + 1 ==> start <= key.str.value[i]
  {
    if start > end {
      return Err(InvalidArgument);
    }
    if !Live(mapkey) {
      return Err(InvalidArgument);
    }
    if !Live(key) {
      return Err(InvalidArgument);
    }
    if invkey.str.Some? || invkey.owner.Owned? || invkey.size != 0 {
      return Err(InvalidArgument);
    }
    var size := end - start + 1;
    if key.size < size {
      return Err(KeySize);
    }
    if key.size != mapkey.size {
      return Err(KeySize);
    }
    var i := 0;
    while i < size
      invariant i <= size
      invariant forall j :: 0 <= j < i ==> start <= key.str.value[j]
    {
      if key.str.value[i] < start {
        return Err(KeyInvalid);
      }
      i := i + 1;
    }
    return Ok;
  }

  /**
    cy_check_caesar: a live two-byte key (a, b) whose multiplier a is coprime
    to 26, so that encryption is invertible.
   */
  function CheckCaesar(k: KeyState): (st: Status)
    requires WellFormed(k)
    ensures st.Ok? ==> k.str.Some? && k.owner.Owned? && k.size == 2
    ensures st.Ok? <==> k.str.Some? && k.owner.Owned? && k.size == 2 && Arith.Gcd(k.str.value[0], 26) == 1
    ensures st.Err? ==> st.kind == InvalidArgument || st.kind == KeyInvalid
  {
    if k.str.None? || k.owner.NotOwned? || k.size != 2 then Err(InvalidArgument)
    else if Arith.Gcd(k.str.value[0], 26) != 1 then Err(KeyInvalid)
    else Ok
  }

  predicate IsUpper(c: int) { 'A' as int <= c <= 'Z' as int }
  predicate IsLower(c: int) { 'a' as int <= c <= 'z' as int }
  predicate IsLetter(c: int) { IsUpper(c) || IsLower(c) }

  /** What cy_check_monoalpahbetic admits: a live 26-byte key all of whose entries are letters. */
  function MonoCheck(k: KeyState): Status
    requires WellFormed(k)
  {
    if k.str.None? || k.owner.NotOwned? || k.size != 26 then Err(InvalidArgument)
    else if exists i :: 0 <= i < 26 && !IsLetter(k.str.value[i]) then Err(KeyInvalid)
    else Ok
  }

  /** cy_check_monoalpahbetic: the argument test, then a loop over the 26 entries. */
  method CheckMonoalphabetic(k: KeyState) returns (st: Status)
    requires WellFormed(k)
    ensures st == MonoCheck(k)
    ensures st.Ok? ==> k.str.Some? && k.size == 26 && forall i :: 0 <= i < 26 ==> IsLetter(k.str.value[i])
  {
    if k.str.None? || k.owner.NotOwned? || k.size != 26 {
      return Err(InvalidArgument);
    }
    var i := 0;
    while i < 26
      invariant i <= 26
      invariant forall j :: 0 <= j < i ==> IsLetter(k.str.value[j])
    {
      if !IsLetter(k.str.value[i]) {
        return Err(KeyInvalid);
      }
      i := i + 1;
    }
    return Ok;
  }

  /**
    cy_check_eascii and cy_check_playfaire, which are the same test: a live
    key of exactly 256 bytes, one entry per byte value.
   */
  function CheckTable256(k: KeyState): (st: Status)
    requires WellFormed(k)
    ensures st.Ok? <==> k.str.Some? && k.owner.Owned? && k.size == 256
    ensures st.Ok? ==> |k.str.value| >= 256
    ensures st.Err? ==> st.kind == InvalidArgument
  {
    if k.str.None? || k.owner.NotOwned? || k.size != 256 then Err(InvalidArgument)
    else Ok
  }

  // ---------------------------------------------------------------------------
  // Specifications of the builders.

  /** The identity table start, start + 1, ..., end. */
  function Identity(start: u8, end: u8): (s: seq<u8>)
    requires start <= end
    ensures |s| == end - start + 1
    ensures forall i :: 0 <= i < |s| ==> s[i] == start + i
  {
    seq(end - start + 1, i requires 0 <= i < end - start + 1 => start + i)
  }

  /** s lists every value of [start, start + |s|) exactly once. */
  predicate IsPermutationFrom(s: seq<u8>, start: int)
  {
    && (forall i :: 0 <= i < |s| ==> start <= s[i] < start + |s|)
    && (forall i, j :: 0 <= i < j < |s| ==> s[i] != s[j])
  }

  /** Entries i and j exchanged. */
  function Swap<T>(s: seq<T>, i: nat, j: nat): (r: seq<T>)
    requires i < |s| && j < |s|
    ensures |r| == |s| && r[i] == s[j] && r[j] == s[i]
    ensures forall k :: 0 <= k < |s| && k != i && k != j ==> r[k] == s[k]
  {
    s[i := s[j]][j := s[i]]
  }

  /** A swap keeps the multiset of entries. */
  lemma SwapMultiset(s: seq<u8>, i: nat, j: nat)
    requires i < |s| && j < |s|
    ensures multiset(Swap(s, i, j)) == multiset(s)
  {
    var t := s[i := s[j]];
    assert multiset(t) == multiset(s) - multiset{s[i]} + multiset{s[j]};
    assert Swap(s, i, j) == t[j := s[i]];
  }

  /**
    The RNG results a shuffle may use: draw k (None when random_u16 fails) is
    below the number of entries still to place, |draws| - k.
   */
  predicate DrawsInRange(draws: seq<Option<nat>>)
  {
    forall k :: 0 <= k < |draws| && draws[k].Some? ==> draws[k].value < |draws| - k
  }

  predicate AllDrawn(draws: seq<Option<nat>>)
  {
    forall k :: 0 <= k < |draws| ==> draws[k].Some?
  }

  /**
    The Fisher-Yates pass from position k on: swap entry k with entry
    k + draws[k], then continue at k + 1; a failed draw ends the pass where it is.
   */
  function Shuffle(s: seq<u8>, draws: seq<Option<nat>>, k: nat): (r: seq<u8>)
    requires k <= |draws| <= |s| && DrawsInRange(draws)
    decreases |draws| - k
  {
    if k == |draws| || draws[k].None? then s
    else Shuffle(Swap(s, k, k + draws[k].value), draws, k + 1)
  }

  /**
    The shuffle permutes the first |draws| entries among themselves: the
    multiset of the whole table and of its first |draws| entries is kept, and
    every later entry is untouched.
   */
  lemma {:induction false} ShufflePermutes(s: seq<u8>, draws: seq<Option<nat>>, k: nat)
    requires k <= |draws| <= |s| && DrawsInRange(draws)
    ensures |Shuffle(s, draws, k)| == |s|
    ensures multiset(Shuffle(s, draws, k)) == multiset(s)
    ensures multiset(Shuffle(s, draws, k)[..|draws|]) == multiset(s[..|draws|])
    ensures Shuffle(s, draws, k)[|draws|..] == s[|draws|..]
    decreases |draws| - k
  {
    if k < |draws| && draws[k].Some? {
      var t := Swap(s, k, k + draws[k].value);
      ShufflePermutes(t, draws, k + 1);
      SwapPrefix(s, k, k + draws[k].value, |draws|);
    }
  }

  /** A swap inside the first n entries keeps the multiset of those entries and the rest. */
  lemma SwapPrefix(s: seq<u8>, i: nat, j: nat, n: nat)
    requires i < n && j < n && n <= |s|
    ensures multiset(Swap(s, i, j)[..n]) == multiset(s[..n])
    ensures Swap(s, i, j)[n..] == s[n..]
  {
    assert Swap(s, i, j)[..n] == Swap(s[..n], i, j);
    SwapMultiset(s[..n], i, j);
  }

  /**
    The table of n entries cy_key_linear_inverse_generated writes: entry
    keys[i] - start receives maps[i] for i = 0, 1, ... in order, so a later
    write wins.  Entries no key points to keep the fresh table's content, 0 here.
   */
  function InverseTable(start: u8, keys: seq<u8>, maps: seq<u8>, n: nat): (t: seq<u8>)
    requires |keys| == |maps|
    requires forall i :: 0 <= i < |keys| ==> start <= keys[i] < start + n
    ensures |t| == n
  {
    if |keys| == 0 then seq(n, _ => 0)
    else
      var last := |keys| - 1;
      InverseTable(start, keys[..last], maps[..last], n)[keys[last] - start := maps[last]]
  }

  /** Entry keys[i] - start holds maps[i] when no later key points to the same entry. */
  lemma {:induction false} InverseTableEntry(start: u8, keys: seq<u8>, maps: seq<u8>, n: nat, i: nat)
    requires |keys| == |maps| && i < |keys|
    requires forall k :: 0 <= k < |keys| ==> start <= keys[k] < start + n
    requires forall k :: i < k < |keys| ==> keys[k] != keys[i]
    ensures InverseTable(start, keys, maps, n)[keys[i] - start] == maps[i]
    decreases |keys|
  {
    var last := |keys| - 1;
    if i < last {
      var keys', maps' := keys[..last], maps[..last];
      InverseTableEntry(start, keys', maps', n, i);
    }
  }

  /**
    When the key lists distinct values of [start, start + n), the table maps
    each of them back: entry keys[i] - start holds maps[i], for every i.
   */
  lemma InverseTableInverts(start: u8, keys: seq<u8>, maps: seq<u8>, n: nat)
    requires |keys| == |maps|
    requires forall i :: 0 <= i < |keys| ==> start <= keys[i] < start + n
    requires forall i, j :: 0 <= i < j < |keys| ==> keys[i] != keys[j]
    ensures forall i :: 0 <= i < |keys| ==> InverseTable(start, keys, maps, n)[keys[i] - start] == maps[i]
  {
    forall i | 0 <= i < |keys|
      ensures InverseTable(start, keys, maps, n)[keys[i] - start] == maps[i]
    {
      InverseTableEntry(start, keys, maps, n, i);
    }
  }

  lemma IdentityPermutes(start: u8, end: u8)
    requires start <= end
    ensures IsPermutationFrom(Identity(start, end), start)
  {
  }

  /** The identity table lists every value of [start, end] once, and it is its own inverse. */
  lemma IdentityInverse(start: u8, end: u8)
    requires start <= end
    ensures IsPermutationFrom(Identity(start, end), start)
    ensures InverseTable(start, Identity(start, end), Identity(start, end), end - start + 1) == Identity(start, end)
  {
    var id, n := Identity(start, end), end - start + 1;
    IdentityPermutes(start, end);
    InverseTableInverts(start, id, id, n);
    var t := InverseTable(start, id, id, n);
    forall i | 0 <= i < n
      ensures t[i] == id[i]
    {
      assert id[i] - start == i;
      assert t[id[i] - start] == id[i];
    }
  }

  // ---------------------------------------------------------------------------
  // The builders.

  /**
    cy_key_linear_direct_generate(start, end, key): after the check, allocate
    end - start + 1 bytes, fill them with start, start + 1, ..., end, and mark
    the key owned.
   */
  method DirectGenerate(start: u8, end: u8, key: Key) returns (st: Status)
    modifies key
    ensures st == CheckDirectGenerate(start, end, old(key.State()))
    ensures st.Err? ==> key.str == old(key.str) && key.size == old(key.size) && key.owner == old(key.owner)
    ensures st.Ok? ==> key.str != null && fresh(key.str) && key.str[..] == Identity(start, end)
    ensures st.Ok? ==> key.size == end - start + 1 && key.owner.Owned? && key.Valid()
  {
    st := CheckDirectGenerate(start, end, key.State());
    if st.Err? {
      return;
    }
    var size := end - start + 1;
    var s := new u8[size];
    var i := 0;
    while i < size
      invariant i <= size
      invariant forall j :: 0 <= j < i ==> s[j] == start + j
    {
      s[i] := i + start;
      i := i + 1;
    }
    key.str := s;
    key.owner := Owned;
    key.size := size;
  }

  /**
    CY_key_linear_rand_generated(start, end, key): after the check, for
    i = start .. end draw r < end - i + 1 from the RNG (draws[i - start], None
    when random_u16 fails), add i - start, and swap key[i - start] with key[r].
    A failed draw returns at once, leaving the swaps made so far; success marks
    the key owned and sets its size to end - start + 1.
   */
  method RandGenerated(start: u8, end: u8, key: Key, draws: seq<Option<nat>>) returns (st: Status)
    requires key.Valid() && DrawsInRange(draws)
    requires start <= end ==> |draws| == end - start + 1
    modifies key, key.str
    ensures key.str == old(key.str)
    ensures CheckRandGenerated(start, end, old(key.State())).Err? ==>
              st == CheckRandGenerated(start, end, old(key.State())) && key.State() == old(key.State())
    ensures CheckRandGenerated(start, end, old(key.State())).Ok? ==>
              && key.str != null && key.str[..] == Shuffle(old(key.str[..]), draws, 0)
              && multiset(key.str[..|draws|]) == multiset(old(key.str[..|draws|]))
              && key.str[|draws|..] == old(key.str[|draws|..])
              && (st.Ok? <==> AllDrawn(draws))
              && (st.Err? ==> st.kind == Failure && key.size == old(key.size) && key.owner == old(key.owner))
              && (st.Ok? ==> key.size == |draws| && key.owner.Owned?)
  {
    st := CheckRandGenerated(start, end, key.State());
    if st.Err? {
      return;
    }
    ShufflePermutes(key.str[..], draws, 0);
    var ok := ShuffleInPlace(start, end, key.str, draws);
    if !ok {
      return Err(Failure);
    }
    key.owner := Owned;
    key.size := end - start + 1;
    st := Ok;
  }

  /**
    The loop of cy_key_linear_rand_generated: for i = start .. end, draw r
    below end - i + 1 and swap entries i - start and i - start + r; a failed
    draw stops the loop and is reported as false.
   */
  method ShuffleInPlace(start: u8, end: u8, a: array<u8>, draws: seq<Option<nat>>) returns (ok: bool)
    requires start <= end && |draws| == end - start + 1 <= a.Length && DrawsInRange(draws)
    modifies a
    ensures a[..] == Shuffle(old(a[..]), draws, 0)
    ensures ok <==> AllDrawn(draws)
  {
    ghost var target := Shuffle(a[..], draws, 0);
    // k == i - start; the draw for step k lies below end - i + 1 == |draws| - k
    var k: nat := 0;
    while k < |draws|
      invariant k <= |draws|
      invariant Shuffle(a[..], draws, k) == target
      invariant AllDrawn(draws[..k])
    {
      if draws[k].None? {
        ShuffleStops(a[..], draws, k);
        return false;
      }
      ShuffleStep(a[..], draws, k);
      SwapEntries(a, k, k + draws[k].value);
      DrawnExtend(draws, k);
      k := k + 1;
    }
    ShuffleStops(a[..], draws, k);
    assert draws[..k] == draws;
    ok := true;
  }

  /** Exchange entries i and j of the table in place. */
  method SwapEntries<T>(a: array<T>, i: nat, j: nat)
    requires i < a.Length && j < a.Length
    modifies a
    ensures a[..] == Swap(old(a[..]), i, j)
  {
    var tmp := a[i];
    a[i] := a[j];
    a[j] := tmp;
  }

  /** One step of the pass: swap entry k with entry k + draws[k], continue at k + 1. */
  lemma ShuffleStep(s: seq<u8>, draws: seq<Option<nat>>, k: nat)
    requires k < |draws| <= |s| && DrawsInRange(draws) && draws[k].Some?
    ensures k + draws[k].value < |s|
    ensures Shuffle(s, draws, k) == Shuffle(Swap(s, k, k + draws[k].value), draws, k + 1)
  {
  }

  /** A pass that has reached a failed draw, or the end, changes nothing more. */
  lemma ShuffleStops(s: seq<u8>, draws: seq<Option<nat>>, k: nat)
    requires k <= |draws| <= |s| && DrawsInRange(draws)
    requires k == |draws| || draws[k].None?
    ensures Shuffle(s, draws, k) == s
  {
  }

  lemma DrawnExtend(draws: seq<Option<nat>>, k: nat)
    requires k < |draws| && AllDrawn(draws[..k]) && draws[k].Some?
    ensures AllDrawn(draws[..k + 1])
  {
    assert forall j :: 0 <= j < k ==> draws[..k + 1][j] == draws[..k][j];
  }

  /**
    cy_key_linear_inverse_generated(start, end, mapkey, key, invkey): after the
    check, allocate end - start + 1 bytes for invkey and, for each i in order,
    store mapkey[i] at invkey[key[i] - start].  The check tests key[i] >= start
    but never key[i] <= end; for a key the check accepts, the requires
    supplies that bound (every caller in the library meets it).
   */
  method InverseGenerated(start: u8, end: u8, mapkey: KeyState, key: KeyState, invkey: Key) returns (st: Status)
    requires WellFormed(mapkey) && WellFormed(key)
    requires InverseCheck(start, end, mapkey, key, invkey.State()).Ok? ==>
               forall i :: 0 <= i < end - start + 1 ==> key.str.value[i] <= end
    modifies invkey
    ensures st == InverseCheck(start, end, mapkey, key, old(invkey.State()))
    ensures st.Err? ==> invkey.str == old(invkey.str) && invkey.size == old(invkey.size) && invkey.owner == old(invkey.owner)
    ensures st.Ok? ==>
              && invkey.str != null && fresh(invkey.str) && invkey.size == end - start + 1 && invkey.owner.Owned?
              && invkey.Valid()
              && invkey.str[..] == InverseTable(start, Entries(key, end - start + 1), Entries(mapkey, end - start + 1), end - start + 1)
  {
    st := CheckInverseGenerated(start, end, mapkey, key, invkey.State());
    if st.Err? {
      return;
    }
    var size := end - start + 1;
    ghost var keys, maps := Entries(key, size), Entries(mapkey, size);
    var t := new u8[size](_ => 0);
    var i := 0;
    while i < size
      invariant i <= size
      invariant t[..] == InverseTable(start, keys[..i], maps[..i], size)
    {
      assert keys[..i + 1][..i] == keys[..i] && maps[..i + 1][..i] == maps[..i];
      t[key.str.value[i] - start] := mapkey.str.value[i];
      i := i + 1;
    }
    assert keys[..size] == keys && maps[..size] == maps;
    invkey.str := t;
    invkey.owner := Owned;
    invkey.size := size;
  }
}

=== FILE: machine.dfy ===
/**
  Fixed-width integer types of the C code, the C remainder operator, and the
  status values the library returns.

  Integers are mathematical here; every fixed-width quantity of the source is a
  subset type, and every place where the source could leave its range is either
  proved not to or written out explicitly.
 */
module Machine {

  const U8_LIMIT: int := 0x100
  const U16_LIMIT: int := 0x1_0000
  const U64_LIMIT: int := 0x1_0000_0000_0000_0000
  const U64_MAX: int := U64_LIMIT - 1
  const I64_MIN: int := -0x8000_0000_0000_0000
  const I64_MAX: int := 0x7FFF_FFFF_FFFF_FFFF
  const I128_MIN: int := -0x8000_0000_0000_0000_0000_0000_0000_0000
  const I128_MAX: int := 0x7FFF_FFFF_FFFF_FFFF_FFFF_FFFF_FFFF_FFFF
  const U128_LIMIT: int := 0x1_0000_0000_0000_0000_0000_0000_0000_0000

  /** uint8_t */
  type u8 = x: int | 0 <= x < 0x100
  /** uint16_t */
  type u16 = x: int | 0 <= x < 0x1_0000
  /** uint64_t, and size_t on the 64-bit targets the code is written for */
  type u64 = x: int | 0 <= x < 0x1_0000_0000_0000_0000

  predicate InI64(x: int) { I64_MIN <= x <= I64_MAX }
  predicate InI128(x: int) { I128_MIN <= x <= I128_MAX }
  predicate InU128(x: int) { 0 <= x < U128_LIMIT }

  /** |x| */
  function Abs(x: int): (r: nat)
    ensures r == x || r == -x
  {
    if x < 0 then -x else x
  }

  /**
    The C `%` operator: the quotient is truncated toward zero, so the remainder
    takes the sign of the dividend (Dafny's own `%` is Euclidean).
   */
  function CRem(x: int, m: int): (r: int)
    requires m > 0
    ensures -m < r < m
    ensures x >= 0 ==> r == x % m
    ensures x < 0 ==> r == -((-x) % m)
  {
    if x >= 0 then x % m else -((-x) % m)
  }

  /** The kind of diagnostic the library logs before it returns CY_ERR. */
  datatype ErrorKind =
    | Failure         // CY_ERR, logged by the caller or not at all
    | InvalidArgument // CY_ERR_ARG
    | KeyInvalid      // CY_ERR_KEY
    | KeySize         // CY_ERR_KEY_SIZE

  /**
    CY_STATE_FLAG as the callers see it: CY_OK, or CY_ERR together with the
    category that cy_err_manager would have printed to stderr.
   */
  datatype Status = Ok | Err(kind: ErrorKind)

  datatype Option<T> = None | Some(value: T)
}

=== FILE: mod_arith.dfy ===
/**
  The exported math helpers of lib/cypher.c: additive and multiplicative
  inverses modulo n and the two congruence tests.  Their `gcd` is the loop of
  HeaderMath.Gcd.
 */
module ModArith {

  import opened Machine
  import Arith
  import HeaderMath

  /**
    addModInverse(a, n) == n - a % n.  It lies in [1, n] (n, not 0, when n
    divides a) and adding it to a gives a multiple of n; those two facts
    determine it.
   */
  function AddModInverse(a: u64, n: u64): (r: u64)
    requires n > 0
    ensures 1 <= r <= n
    ensures (a + r) % n == 0
    ensures r == n <==> a % n == 0
  {
    var m: nat := a % n;
    assert a + (n - m) == (a / n + 1) * n;
    Arith.MultipleMod(a / n + 1, n);
    n - m
  }

  /** The value of AddModInverse is the only one in [1, n] with (a + r) % n == 0. */
  lemma AddModInverseUnique(a: u64, n: u64, r: int)
    requires n > 0 && 1 <= r <= n && (a + r) % n == 0
    ensures r == AddModInverse(a, n)
  {
    var s: int := AddModInverse(a, n);
    var x: int, y: int := a + r, a + s;
    Arith.SameResidueIffDifference(x, y, n);
    assert x - y == r - s;
    if r - s < 0 {
      Arith.DivModUnique(r - s, n, -1, r - s + n);
    } else {
      Arith.DivModUnique(r - s, n, 0, r - s);
    }
  }

  /**
    isSameModClass(a, b, n): with n == 0 it compares a and b; otherwise it
    holds exactly when n divides the difference of a and b.
   */
  function IsSameModClass(a: u64, b: u64, n: u64): (r: bool)
    ensures n == 0 ==> (r <==> a == b)
    ensures n > 0 ==> (r <==> (a - b) % n == 0)
  {
    if n > 0 then
      Arith.SameResidueIffDifference(a, b, n);
      a % n == b % n
    else
      a == b
  }

  /**
    hasModInverse(a, n): gcd(a, n) == 1, which for n > 0 means that some x in
    [0, n) has a * x congruent to 1 modulo n.
   */
  method HasModInverse(a: u64, n: u64) returns (r: bool)
    ensures r <==> Arith.Gcd(a, n) == 1
    ensures n > 0 ==> (r <==> exists x: nat :: x < n && Arith.IsModInverse(a, x, n))
  {
    var g := HeaderMath.Gcd(a, n);
    r := g == 1;
    if n > 0 {
      Arith.InverseExistsIffCoprime(a, n);
    }
  }

  /**
    mulModInverse(a, n): 0 when a has no inverse modulo n; otherwise the
    extended Euclidean loop on int64_t remainders (__r, _r) and coefficients
    (__x, _x) of a and (__y, _y) of n, followed by a reduction of __x into
    [0, n).

    The int64_t casts of a and n keep their values only below 2^63, and n == 0
    with a == 1 passes the coprimality test and then divides by zero, hence the
    requires.  The reduction is computed here without the int64_t overflow of
    the as-written expression; see NormalizeAsWritten.
   */
  method MulModInverse(a: u64, n: u64) returns (r: u64)
    requires 0 < n <= I64_MAX && a <= I64_MAX
    ensures Arith.Gcd(a, n) != 1 ==> r == 0
    ensures Arith.Gcd(a, n) == 1 ==> r == Arith.ModInverse(a, n)
    ensures Arith.Gcd(a, n) == 1 ==> r < n && Arith.IsModInverse(a, r, n)
  {
    var ok := HasModInverse(a, n);
    if !ok {
      return 0;
    }
    var px: int, cx: int, py: int, cy: int := 1, 0, 0, 1;
    var rp: nat, rc: nat := a, n;
    while rc != 0
      invariant Arith.ExtEuclid(rp, rc, px, cx, py, cy) == Arith.ExtGcd(a, n)
      invariant rp == px * a + py * n && rc == cx * a + cy * n
      invariant Abs(cx) * rp + Abs(px) * rc == n && Arith.OppositeSigns(px, cx)
      invariant Abs(cy) * rp + Abs(py) * rc == a && Arith.OppositeSigns(py, cy)
      invariant rp <= I64_MAX && rc <= I64_MAX
      decreases rc
    {
      var q := rp / rc;
      // no int64_t overflow in q * _r, q * _x, q * _y or the differences
      LoopStep(rp, rc, px, cx, py, cy, a, n);
      var next := rp - q * rc;
      var x := px - q * cx;
      var y := py - q * cy;
      px, cx := cx, x;
      py, cy := cy, y;
      rp, rc := rc, next;
    }
    Arith.CRemNormalize(px, n);
    r := (CRem(px, n) + n) % n;
    Arith.ModInverseCorrect(a, n);
  }

  /**
    One step of the mulModInverse loop: every product and difference it forms
    stays within int64_t, the remainders stay Bezout combinations of a and n
    (__r == __x * a + __y * n), and the coefficient bounds carry over.
   */
  lemma LoopStep(rp: nat, rc: nat, px: int, cx: int, py: int, cy: int, a: nat, n: nat)
    requires 0 < rc && rp <= I64_MAX && rc <= I64_MAX
    requires rp == px * a + py * n && rc == cx * a + cy * n
    requires Abs(cx) * rp + Abs(px) * rc == n && Arith.OppositeSigns(px, cx)
    requires Abs(cy) * rp + Abs(py) * rc == a && Arith.OppositeSigns(py, cy)
    requires n <= I64_MAX && a <= I64_MAX
    ensures InI64(rp / rc * rc) && rp - rp / rc * rc == rp % rc
    ensures InI64(rp / rc * cx) && InI64(px - rp / rc * cx)
    ensures InI64(rp / rc * cy) && InI64(py - rp / rc * cy)
    ensures rp % rc == (px - rp / rc * cx) * a + (py - rp / rc * cy) * n
    ensures Abs(px - rp / rc * cx) * rc + Abs(cx) * (rp % rc) == n && Arith.OppositeSigns(cx, px - rp / rc * cx)
    ensures Abs(py - rp / rc * cy) * rc + Abs(cy) * (rp % rc) == a && Arith.OppositeSigns(cy, py - rp / rc * cy)
  {
    var q := rp / rc;
    assert rp == q * rc + rp % rc;
    Arith.CoefficientStep(rp, rc, px, cx, n);
    Arith.CoefficientStep(rp, rc, py, cy, a);
    BezoutStep(rp, rc, px, cx, py, cy, q, a, n);
  }

  /** __r - q * _r == (__x - q * _x) * a + (__y - q * _y) * n. */
  lemma BezoutStep(rp: int, rc: int, px: int, cx: int, py: int, cy: int, q: int, a: int, n: int)
    requires rp == px * a + py * n && rc == cx * a + cy * n
    ensures rp - q * rc == (px - q * cx) * a + (py - q * cy) * n
  {
    calc {
      q * rc;
      q * (cx * a + cy * n);
      q * (cx * a) + q * (cy * n);
      (q * cx) * a + (q * cy) * n;
    }
  }

  /**
    The final expression of mulModInverse as written,
    (__x % (int64_t)n + (int64_t)n) % (int64_t)n, evaluated in int64_t:
    None when the inner sum leaves the int64_t range (undefined behaviour in C).
   */
  function NormalizeAsWritten(x: int, n: int): (r: Option<int>)
    requires 0 < n <= I64_MAX
    ensures r.None? <==> CRem(x, n) + n > I64_MAX
    ensures r.Some? ==> r.value == x % n
  {
    Arith.CRemNormalize(x, n);
    if CRem(x, n) + n > I64_MAX then None else Some((CRem(x, n) + n) % n)
  }

  /**
    With a == 1 and n == 2^63 - 1 the loop ends with __x == 1, and
    1 % n + n == 2^63 overflows int64_t: mulModInverse as written does not
    return the inverse 1.
   */
  lemma NormalizeOverflows()
    ensures Arith.Gcd(1, I64_MAX) == 1
    ensures Arith.ExtGcd(1, I64_MAX).x == 1
    ensures NormalizeAsWritten(Arith.ExtGcd(1, I64_MAX).x, I64_MAX).None?
  {
    var n := I64_MAX;
    assert Arith.Gcd(1, n) == Arith.Gcd(n, 1) == Arith.Gcd(1, 0) == 1;
    assert Arith.ExtGcd(1, n) == Arith.ExtEuclid(n, 1, 0, 1, 1, 0);
    assert Arith.ExtEuclid(n, 1, 0, 1, 1, 0) == Arith.ExtEuclid(1, 0, 1, -n, 0, 1);
  }
}

=== FILE: number_theory.dfy ===
/**
  The static math helpers of lib/src/cypher.c: gcd with early returns and the
  extended Euclidean algorithm (EEA) that computes a modular inverse with
  128-bit signed intermediates.
 */
module NumberTheory {

  import opened Machine
  import Arith
  import HeaderMath

  /**
    gcd(a, b) of lib/src/cypher.c: returns b when a is zero and a when b is
    zero, otherwise runs Euclid's loop.
   */
  method Gcd(a: u64, b: u64) returns (g: u64)
    ensures g == Arith.Gcd(a, b)
    ensures a == 0 ==> g == b
    ensures b == 0 ==> g == a
    ensures g == 0 <==> a == 0 && b == 0
  {
    Arith.GcdWithZero(a);
    Arith.GcdWithZero(b);
    if a == 0 {
      return b;
    }
    if b == 0 {
      return a;
    }
    // The remaining loop is the one of lib/src/cypher.h.
    g := HeaderMath.Gcd(a, b);
    Arith.DividesBounded(g, a);
  }

  /**
    EEA(a, n, &out): fails when gcd(a, n) != 1; otherwise runs the extended
    Euclidean loop, keeping only the coefficients of a (__x, _x) as 128-bit
    signed integers, and stores (n + __x % n) % n.

    n == 0 with a == 1 passes the gcd test and then divides by zero, so the
    model requires n > 0 (the two callers pass 26 and a non-zero modulus).
   */
  method EEA(a0: u64, n0: u64) returns (st: Status, out: u64)
    requires n0 > 0
    ensures st.Ok? <==> Arith.Gcd(a0, n0) == 1
    ensures st.Err? ==> st.kind == Failure
    ensures st.Ok? ==> out == Arith.ModInverse(a0, n0)
    ensures st.Ok? ==> out < n0 && (a0 * out) % n0 == 1 % n0
  {
    out := 0;
    var g := Gcd(a0, n0);
    if g != 1 {
      return Err(Failure), 0;
    }
    var a: nat, n: nat := a0, n0;
    var px: int, cx: int := 1, 0;      // __x and _x: coefficients of a0 for a and n
    ghost var py: int, cy: int := 0, 1;  // the matching coefficients of n0, kept for the proof only
    while n != 0
      invariant Arith.ExtEuclid(a, n, px, cx, py, cy) == Arith.ExtGcd(a0, n0)
      invariant Abs(cx) * a + Abs(px) * n == n0 && Arith.OppositeSigns(px, cx)
      invariant Abs(px) <= n0 && Abs(cx) <= n0
      decreases n
    {
      var q := a / n;
      var r := a % n;
      StepBounds(a, n, px, cx, n0);
      var x := px - q * cx;
      ghost var y := py - q * cy;
      px, cx := cx, x;
      py, cy := cy, y;
      a, n := n, r;
    }
    assert px == Arith.ExtGcd(a0, n0).x;
    assert InI128(n0 + CRem(px, n0));
    Arith.CRemNormalize(px, n0);
    out := (n0 + CRem(px, n0)) % n0;
    st := Ok;
    Arith.ModInverseCorrect(a0, n0);
  }

  /**
    One step of the EEA loop keeps the coefficient of a0 within n0 in absolute
    value, so neither `(a / n) * _x` nor `__x - (a / n) * _x` leaves the range
    of __int128.
   */
  lemma StepBounds(a: nat, n: nat, px: int, cx: int, n0: nat)
    requires n > 0 && n0 < U64_LIMIT
    requires Abs(cx) * a + Abs(px) * n == n0 && Arith.OppositeSigns(px, cx)
    ensures InI128((a / n) * cx) && InI128(px - (a / n) * cx)
    ensures Abs(px - (a / n) * cx) * n + Abs(cx) * (a % n) == n0
    ensures Arith.OppositeSigns(cx, px - (a / n) * cx)
    ensures Abs(px - (a / n) * cx) <= n0
  {
    Arith.CoefficientStep(a, n, px, cx, n0);
  }
}

=== FILE: playfair.dfy ===
/**
  The byte Playfair cipher of lib/src/cypher.c.  The 256-byte key is read as a
  16 x 16 matrix, entry (x, y) at index 16 * x + y.  Encryption inserts
  key[b] between two equal neighbours b b, pads an odd result with
  key[last], and replaces every digraph by the usual rules: the same row moves
  one column right, the same column one row down, otherwise the two columns are
  exchanged.  Decryption applies the rules backwards (a shift of 15, that is -1
  modulo 16) and then removes the inserted bytes.
 */
module Playfair {

  import opened Machine
  import Arith
  import opened Keys

  // ---------------------------------------------------------------------------
  // find_matrix_pos

  /** The last index of s whose entry is val, or -1 when there is none. */
  function LastIndex(s: seq<u8>, val: u8): (r: int)
    ensures -1 <= r < |s|
    ensures r >= 0 ==> s[r] == val
    ensures forall k :: r < k < |s| ==> s[k] != val
  {
    if |s| == 0 then -1
    else if s[|s| - 1] == val then |s| - 1
    else LastIndex(s[..|s| - 1], val)
  }

  /**
    The (row, column) find_matrix_pos leaves after scanning the first n
    entries: that of the last entry equal to val, or the caller's initial
    (x0, y0) when no entry matched.
   */
  function MatrixPos(key: seq<u8>, val: u8, n: nat, x0: u8, y0: u8): (p: (u8, u8))
    requires n <= 256 <= |key|
  {
    var r := LastIndex(key[..n], val);
    if r < 0 then (x0, y0) else (r / 16, r % 16)
  }

  /** The cell of val as both ciphers find it, starting from fx = fy = 0. */
  function Cell(key: seq<u8>, val: u8): (p: (u8, u8))
    requires |key| >= 256
    ensures p.0 < 16 && p.1 < 16
  {
    MatrixPos(key, val, 256, 0, 0)
  }

  /**
    find_matrix_pos(fairkey, val, &posx, &posy): scan the rows i and columns j
    in order and record (i, j) whenever fairkey[16 * i + j] == val.
   */
  method FindMatrixPos(fairkey: array<u8>, val: u8, x0: u8, y0: u8) returns (posx: u8, posy: u8)
    requires fairkey.Length >= 256
    ensures (posx, posy) == MatrixPos(fairkey[..], val, 256, x0, y0)
  {
    posx, posy := x0, y0;
    var i: u8 := 0;
    while i < 16
      invariant i <= 16
      invariant (posx, posy) == MatrixPos(fairkey[..], val, 16 * i, x0, y0)
    {
      var j: u8 := 0;
      while j < 16
        invariant j <= 16
        invariant (posx, posy) == MatrixPos(fairkey[..], val, 16 * i + j, x0, y0)
      {
        MatrixPosStep(fairkey[..], val, i, j, x0, y0);
        if val == fairkey[i * 16 + j] {
          posx, posy := i, j;
        }
        j := j + 1;
      }
      i := i + 1;
    }
  }

  /** Scanning entry (i, j) records (i, j) when it holds val, and nothing else changes. */
  lemma MatrixPosStep(key: seq<u8>, val: u8, i: nat, j: nat, x0: u8, y0: u8)
    requires i < 16 && j < 16 && 256 <= |key|
    ensures MatrixPos(key, val, 16 * i + j + 1, x0, y0)
      == if key[16 * i + j] == val then (i, j) else MatrixPos(key, val, 16 * i + j, x0, y0)
  {
    var n := 16 * i + j;
    assert key[..n + 1][..n] == key[..n];
    Arith.DivModUnique(n, 16, i, j);
  }

  // ---------------------------------------------------------------------------
  // Cells of a key that permutes the 256 byte values

  /** The key is a 16 x 16 matrix holding every byte value once. */
  predicate PermutationKey(key: seq<u8>)
  {
    |key| >= 256 && IsPermutationFrom(key[..256], 0)
  }

  ghost function Values(s: seq<u8>, n: nat): set<int>
    requires n <= |s|
  {
    set k | 0 <= k < n :: s[k] as int
  }

  lemma {:induction false} ValuesCard(s: seq<u8>, n: nat)
    requires n <= |s|
    requires forall i, j :: 0 <= i < j < n ==> s[i] != s[j]
    ensures |Values(s, n)| == n
  {
    if n > 0 {
      ValuesCard(s, n - 1);
      assert Values(s, n) == Values(s, n - 1) + {s[n - 1] as int};
      assert s[n - 1] as int !in Values(s, n - 1);
    }
  }

  /** A subset as large as its superset is all of it. */
  lemma SubsetSameSize(a: set<int>, b: set<int>)
    requires a <= b && |a| == |b|
    ensures a == b
  {
    assert b == (b - a) + a;
    assert |b - a| == 0;
  }

  /** 256 distinct entries below 256 take every byte value: val occurs in the key. */
  lemma EveryValueListed(key: seq<u8>, val: u8)
    requires PermutationKey(key)
    ensures exists k :: 0 <= k < 256 && key[k] == val
  {
    var s, id := key[..256], Identity(0, 255);
    IdentityInverse(0, 255);
    ValuesCard(s, 256);
    ValuesCard(id, 256);
    var listed, all := Values(s, 256), Values(id, 256);
    forall k | 0 <= k < 256
      ensures s[k] as int in all
    {
      assert id[s[k]] == s[k];
    }
    SubsetSameSize(listed, all);
    assert id[val] as int == val as int;
    assert val as int in all;
    assert val as int in listed;
    var k :| 0 <= k < 256 && s[k] as int == val as int;
    assert key[k] == val;
  }

  /** Every byte value is found at a cell holding it. */
  lemma CellHolds(key: seq<u8>, val: u8)
    requires PermutationKey(key)
    ensures At(key, Cell(key, val).0, Cell(key, val).1) == val
  {
    EveryValueListed(key, val);
    var k :| 0 <= k < 256 && key[k] == val;
    var r := LastIndex(key[..256], val);
    assert key[..256][k] == val;
    assert r >= k;
    assert 16 * (r / 16) + r % 16 == r;
  }

  /** The entry at (x, y) is found at (x, y). */
  lemma CellOfEntry(key: seq<u8>, x: nat, y: nat)
    requires PermutationKey(key) && x < 16 && y < 16
    ensures Cell(key, At(key, x, y)) == (x, y)
  {
    var k := 16 * x + y;
    var r := LastIndex(key[..256], key[k]);
    assert key[..256][k] == key[k];
    assert r >= k;
    assert key[..256][r] == key[..256][k];
    assert r == k;
  }

  // ---------------------------------------------------------------------------
  // The digraph rules

  /** Entry (x, y) of the matrix. */
  function At(key: seq<u8>, x: int, y: int): u8
    requires |key| >= 256 && 0 <= x < 16 && 0 <= y < 16
  {
    key[16 * x + y]
  }

  /** A row or column moved by d places around the matrix: `(uint8_t)((y + d) & 0x0F)`. */
  function Wrap(y: int, d: nat): (r: u8)
    requires 0 <= y
    ensures r < 16
  {
    (y + d) % 16
  }

  /** Moving by d and then by e, with d + e a multiple of 16, comes back. */
  lemma WrapBack(y: int, d: nat, e: nat)
    requires 0 <= y < 16 && (d + e) % 16 == 0
    ensures Wrap(Wrap(y, d), e) == y
  {
    var k := (d + e) / 16;
    assert d + e == 16 * k;
    Arith.DivModUnique((y + d) % 16 + e, 16, (y + d) / 16 * -1 + k, y);
  }

  /** Two different rows stay different after the same move. */
  lemma WrapInjective(x: int, y: int, d: nat)
    requires 0 <= x < 16 && 0 <= y < 16 && x != y
    ensures Wrap(x, d) != Wrap(y, d)
  {
    Arith.SameResidueIffDifference(x + d, y + d, 16);
    assert (x + d) - (y + d) == x - y;
    if x > y {
      Arith.DivModUnique(x - y, 16, 0, x - y);
    } else {
      Arith.DivModUnique(x - y, 16, -1, x - y + 16);
    }
  }

  /**
    One digraph (p, q) under the rules of the digraph loops, with shift d: 1 in
    encryption and 15 in decryption.
   */
  function Shift(key: seq<u8>, p: u8, q: u8, d: nat): (r: (u8, u8))
    requires |key| >= 256
  {
    ShiftCells(key, Cell(key, p), Cell(key, q), d)
  }

  /** The rules on the cells f and s of the two bytes. */
  function ShiftCells(key: seq<u8>, f: (u8, u8), s: (u8, u8), d: nat): (r: (u8, u8))
    requires |key| >= 256 && f.0 < 16 && f.1 < 16 && s.0 < 16 && s.1 < 16
  {
    if f.0 == s.0 then (At(key, f.0, Wrap(f.1, d)), At(key, s.0, Wrap(s.1, d)))
    else if f.1 == s.1 then (At(key, Wrap(f.0, d), f.1), At(key, Wrap(s.0, d), s.1))
    else (At(key, f.0, s.1), At(key, s.0, f.1))
  }

  /**
    With a key that permutes the byte values, shifting by d and then by e with
    d + e a multiple of 16 gives the digraph back: decryption (e == 15) undoes
    encryption (d == 1), and the other way round.
   */
  lemma ShiftRoundTrip(key: seq<u8>, p: u8, q: u8, d: nat, e: nat)
    requires PermutationKey(key) && (d + e) % 16 == 0
    ensures Shift(key, Shift(key, p, q, d).0, Shift(key, p, q, d).1, e) == (p, q)
  {
    var f, s := Cell(key, p), Cell(key, q);
    CellHolds(key, p);
    CellHolds(key, q);
    var r := ShiftCells(key, f, s, d);
    var f': (u8, u8), s': (u8, u8) :=
      if f.0 == s.0 then (f.0, Wrap(f.1, d)) else if f.1 == s.1 then (Wrap(f.0, d), f.1) else (f.0, s.1),
      if f.0 == s.0 then (s.0, Wrap(s.1, d)) else if f.1 == s.1 then (Wrap(s.0, d), s.1) else (s.0, f.1);
    assert r == (At(key, f'.0, f'.1), At(key, s'.0, s'.1));
    CellOfEntry(key, f'.0, f'.1);
    CellOfEntry(key, s'.0, s'.1);
    assert Shift(key, r.0, r.1, e) == ShiftCells(key, f', s', e);
    if f.0 == s.0 {
      WrapBack(f.1, d, e);
      WrapBack(s.1, d, e);
    } else if f.1 == s.1 {
      WrapInjective(f.0, s.0, d);
      WrapBack(f.0, d, e);
      WrapBack(s.0, d, e);
    }
    assert ShiftCells(key, f', s', e) == (At(key, f.0, f.1), At(key, s.0, s.1));
  }

  /** The digraph loop over an even-length text: pair h is the bytes 2h and 2h + 1. */
  function Digraphs(key: seq<u8>, s: seq<u8>, d: nat): (r: seq<u8>)
    requires |key| >= 256 && |s| % 2 == 0
    ensures |r| == |s|
    decreases |s|
  {
    if |s| == 0 then []
    else
      var pair := Shift(key, s[0], s[1], d);
      [pair.0, pair.1] + Digraphs(key, s[2..], d)
  }

  /** Bytes 2h and 2h + 1 of the result are pair h under the rules. */
  lemma {:induction false} DigraphsPair(key: seq<u8>, s: seq<u8>, d: nat, h: nat)
    requires |key| >= 256 && |s| % 2 == 0 && 2 * h + 1 < |s|
    ensures Digraphs(key, s, d)[2 * h] == Shift(key, s[2 * h], s[2 * h + 1], d).0
    ensures Digraphs(key, s, d)[2 * h + 1] == Shift(key, s[2 * h], s[2 * h + 1], d).1
    decreases h
  {
    if h > 0 {
      DigraphsPair(key, s[2..], d, h - 1);
    }
  }

  /** Applying the rules backwards after applying them forwards gives the text back. */
  lemma {:induction false} DigraphsRoundTrip(key: seq<u8>, s: seq<u8>, d: nat, e: nat)
    requires PermutationKey(key) && |s| % 2 == 0 && (d + e) % 16 == 0
    ensures Digraphs(key, Digraphs(key, s, d), e) == s
    decreases |s|
  {
    if |s| > 0 {
      var t := Digraphs(key, s, d);
      ShiftRoundTrip(key, s[0], s[1], d, e);
      DigraphsRoundTrip(key, s[2..], d, e);
      assert t[2..] == Digraphs(key, s[2..], d);
      assert s == [s[0], s[1]] + s[2..];
    }
  }

  /**
    The one digraph loop both directions share: (*buffer)[i], (*buffer)[i + 1]
    from the cells of the pair found by find_matrix_pos.
   */
  method ShiftPair(fairkey: array<u8>, p: u8, q: u8, d: nat) returns (a: u8, b: u8)
    requires fairkey.Length >= 256
    ensures (a, b) == Shift(fairkey[..], p, q, d)
  {
    var fx, fy := FindMatrixPos(fairkey, p, 0, 0);
    var sx, sy := FindMatrixPos(fairkey, q, 0, 0);
    assert (fx, fy) == Cell(fairkey[..], p) && (sx, sy) == Cell(fairkey[..], q);
    if fx == sx {
      a, b := fairkey[fx * 16 + Wrap(fy, d)], fairkey[sx * 16 + Wrap(sy, d)];
    } else if fy == sy {
      a, b := fairkey[Wrap(fx, d) * 16 + fy], fairkey[Wrap(sx, d) * 16 + sy];
    } else {
      a, b := fairkey[fx * 16 + sy], fairkey[sx * 16 + fy];
    }
  }

  // ---------------------------------------------------------------------------
  // Preparing the plaintext

  /**
    The text the first loop of the encryption writes for the first i bytes:
    each byte, followed by key[b] when the next byte of the file is the same b.
   */
  function Doubled(key: seq<u8>, file: seq<u8>, i: nat): (r: seq<u8>)
    requires |key| >= 256 && i <= |file|
    ensures i <= |r| <= 2 * i
    ensures 0 < i == |file| ==> |r| < 2 * i
  {
    if i == 0 then []
    else
      Doubled(key, file, i - 1) + [file[i - 1]]
      + (if i < |file| && file[i - 1] == file[i] then [key[file[i]]] else [])
  }

  /** The padding step: an odd-length text gets key[last byte] appended. */
  function Pad(key: seq<u8>, s: seq<u8>): (r: seq<u8>)
    requires |key| >= 256
    ensures |r| % 2 == 0 && |s| <= |r| <= |s| + 1 && r[..|s|] == s
  {
    if |s| % 2 == 1 then s + [key[s[|s| - 1]]] else s
  }

  /**
    The plaintext as the digraph loop receives it: even, non-empty exactly when
    the file is, and at most twice as long, so it fits the 2 * size + 1 bytes
    reserved for it.
   */
  function Expand(key: seq<u8>, file: seq<u8>): (r: seq<u8>)
    requires |key| >= 256
    ensures |r| % 2 == 0 && |file| <= |r| <= 2 * |file|
    ensures |r| == 0 <==> |file| == 0
  {
    Pad(key, Doubled(key, file, |file|))
  }

  /** A file with no two equal neighbours is copied as it is (before the padding). */
  lemma {:induction false} DoubledNoRepeats(key: seq<u8>, file: seq<u8>, i: nat)
    requires |key| >= 256 && i <= |file|
    requires forall j :: 0 <= j < |file| - 1 ==> file[j] != file[j + 1]
    ensures Doubled(key, file, i) == file[..i]
  {
    if i > 0 {
      DoubledNoRepeats(key, file, i - 1);
      assert file[..i] == file[..i - 1] + [file[i - 1]];
    }
  }

  /**
    With a key that maps no byte to itself, no two neighbours of the doubled
    text are equal, and its last byte is the one the next step compares with.
   */
  lemma {:induction false} DoubledNeighboursDiffer(key: seq<u8>, file: seq<u8>, i: nat)
    requires |key| >= 256 && i <= |file|
    requires forall v: u8 :: key[v] != v
    ensures forall j :: 0 <= j < |Doubled(key, file, i)| - 1 ==>
      Doubled(key, file, i)[j] != Doubled(key, file, i)[j + 1]
    ensures i > 0 ==> (Doubled(key, file, i)[|Doubled(key, file, i)| - 1] ==
      if i < |file| && file[i - 1] == file[i] then key[file[i]] else file[i - 1])
  {
    if i > 0 {
      DoubledNeighboursDiffer(key, file, i - 1);
      var prev := Doubled(key, file, i - 1);
      var r := Doubled(key, file, i);
      assert r[..|prev|] == prev;
      assert r[|prev|] == file[i - 1];
      if i - 1 > 0 {
        assert prev[|prev| - 1] != file[i - 1];
      }
      forall j | 0 <= j < |r| - 1
        ensures r[j] != r[j + 1]
      {
        if j < |prev| - 1 {
          assert r[j] == prev[j] && r[j + 1] == prev[j + 1];
        }
      }
    }
  }

  /**
    The purpose of the insertions: with a key that maps no byte to itself, no
    two neighbouring bytes of the prepared text are equal, so no digraph holds
    the same byte twice.
   */
  lemma ExpandNeighboursDiffer(key: seq<u8>, file: seq<u8>)
    requires |key| >= 256
    requires forall v: u8 :: key[v] != v
    ensures forall j :: 0 <= j < |Expand(key, file)| - 1 ==> Expand(key, file)[j] != Expand(key, file)[j + 1]
  {
    var s := Doubled(key, file, |file|);
    DoubledNeighboursDiffer(key, file, |file|);
    var r := Expand(key, file);
    forall j | 0 <= j < |r| - 1
      ensures r[j] != r[j + 1]
    {
      if j < |s| - 1 {
        assert r[j] == s[j] && r[j + 1] == s[j + 1];
      }
    }
  }

  /** A file with no two equal neighbours is only padded. */
  lemma ExpandNoRepeats(key: seq<u8>, file: seq<u8>)
    requires |key| >= 256
    requires forall j :: 0 <= j < |file| - 1 ==> file[j] != file[j + 1]
    ensures Expand(key, file) == Pad(key, file)
  {
    DoubledNoRepeats(key, file, |file|);
    assert file[..|file|] == file;
  }

  // ---------------------------------------------------------------------------
  // Removing the insertions after decryption

  /** d[i + 1] is a byte the encryption inserted between d[i] and d[i + 2], as the removal loop sees it. */
  predicate Inserted(key: seq<u8>, d: seq<u8>, n: nat, i: nat)
    requires |key| >= 256 && n <= |d|
  {
    i + 2 < n && d[i] == d[i + 2] && d[i + 1] == key[d[i]]
  }

  /**
    The second loop of the decryption over the n bytes of d, from position i:
    copy d[i]; when d[i + 2] == d[i] and d[i + 1] == key[d[i]], copy d[i + 2]
    as well and skip both.  The loop stops at i + 1 == n, so the last byte is
    never copied.
   */
  function StripFrom(key: seq<u8>, d: seq<u8>, n: nat, i: nat): (r: seq<u8>)
    requires |key| >= 256 && n <= |d| && i <= n
    ensures i < n ==> |r| < n - i
    ensures |r| == 0 <==> i + 1 >= n
    decreases n - i
  {
    if i + 1 >= n then []
    else if Inserted(key, d, n, i) then
      [d[i], d[i + 2]] + StripFrom(key, d, n, i + 3)
    else
      [d[i]] + StripFrom(key, d, n, i + 1)
  }

  /** The removal loop with the bytes already copied in acc, as the in-place loop runs it. */
  function StripAcc(key: seq<u8>, d: seq<u8>, n: nat, i: nat, acc: seq<u8>): (r: seq<u8>)
    requires |key| >= 256 && n <= |d| && i <= n
    decreases n - i
  {
    if i + 1 >= n then acc
    else if Inserted(key, d, n, i) then
      StripAcc(key, d, n, i + 3, acc + [d[i], d[i + 2]])
    else
      StripAcc(key, d, n, i + 1, acc + [d[i]])
  }

  lemma {:induction false} StripAccumulates(key: seq<u8>, d: seq<u8>, n: nat, i: nat, acc: seq<u8>)
    requires |key| >= 256 && n <= |d| && i <= n
    ensures StripAcc(key, d, n, i, acc) == acc + StripFrom(key, d, n, i)
    decreases n - i
  {
    if i + 1 < n {
      var copied := if Inserted(key, d, n, i) then [d[i], d[i + 2]] else [d[i]];
      var next := if Inserted(key, d, n, i) then i + 3 else i + 1;
      assert StripFrom(key, d, n, i) == copied + StripFrom(key, d, n, next);
      assert StripAcc(key, d, n, i, acc) == StripAcc(key, d, n, next, acc + copied);
      StripAccumulates(key, d, n, next, acc + copied);
      assert (acc + copied) + StripFrom(key, d, n, next) == acc + (copied + StripFrom(key, d, n, next));
    }
  }

  // ---------------------------------------------------------------------------
  // The two ciphers

  /** The ciphertext of a file: the prepared plaintext under the forward rules. */
  function Encrypted(key: seq<u8>, file: seq<u8>): (c: seq<u8>)
    requires |key| >= 256
  {
    Digraphs(key, Expand(key, file), 1)
  }

  /** The buffer after the digraph loop of the decryption: an odd last byte is not written. */
  function Unshifted(key: seq<u8>, file: seq<u8>, b0: seq<u8>): (d: seq<u8>)
    requires |key| >= 256 && |file| <= |b0|
    ensures |d| == |b0|
  {
    var m := |file| - |file| % 2;
    Digraphs(key, file[..m], 15) + b0[m..]
  }

  /** The plaintext the decryption leaves, from the file and the buffer's old content b0. */
  function Deciphered(key: seq<u8>, file: seq<u8>, b0: seq<u8>): (p: seq<u8>)
    requires |key| >= 256 && |file| <= |b0|
    ensures |file| > 0 ==> |p| < |file|
  {
    StripFrom(key, Unshifted(key, file, b0), |file|, 0)
  }

  /**
    realloc_space(memp, size): size 0 is refused, and otherwise the block is
    moved to a fresh one of size bytes keeping the common prefix.  Bytes past
    the old block are indeterminate in C and 0 here.
   */
  method Realloc(buf: array<u8>, size: nat) returns (st: Status, out: array<u8>)
    ensures size == 0 ==> st == Err(InvalidArgument) && out == buf
    ensures size > 0 ==> st == Ok && fresh(out) && out.Length == size
    ensures size > 0 ==> forall i :: 0 <= i < size && i < buf.Length ==> out[i] == buf[i]
  {
    if size == 0 {
      return Err(InvalidArgument), buf;
    }
    out := new u8[size](_ => 0);
    var i := 0;
    while i < size && i < buf.Length
      invariant i <= size
      invariant forall j :: 0 <= j < i && j < buf.Length ==> out[j] == buf[j]
    {
      out[i] := buf[i];
      i := i + 1;
    }
    st := Ok;
  }

  /**
    cy_encryption_playfair(file, key, &buffer): check the key, reallocate the
    buffer to 2 * size + 1 bytes, write the prepared plaintext, shrink the
    buffer to its length (an empty file makes that length 0, which
    realloc_space refuses) and run the digraph loop on it in place.  `out` is
    the new value of *buffer.
   */
  method PlayfairEncrypt(file: seq<u8>, key: Key, buffer: array<u8>) returns (st: Status, out: array<u8>)
    requires key.Valid()
    ensures CheckTable256(key.State()).Err? ==> st == CheckTable256(key.State()) && out == buffer
    ensures CheckTable256(key.State()).Ok? && |file| == 0 ==> st == Err(InvalidArgument)
    ensures st.Ok? <==> CheckTable256(key.State()).Ok? && |file| > 0
    ensures st.Ok? ==> fresh(out) && out[..] == Encrypted(key.str[..], file)
  {
    st := CheckTable256(key.State());
    if st.Err? {
      return st, buffer;
    }
    var table := key.str;
    var _, grown := Realloc(buffer, 2 * |file| + 1);
    var size := WriteExpanded(file, table, grown);
    st, out := Realloc(grown, size);
    if st.Err? {
      return;
    }
    assert out[..] == grown[..size];
    ShiftInPlace(table, out, 1);
  }

  /**
    The first loop and the padding step of the encryption: the prepared
    plaintext written from the start of the reserved 2 * size + 1 bytes.
   */
  method WriteExpanded(file: seq<u8>, table: array<u8>, grown: array<u8>) returns (size: nat)
    requires table.Length >= 256 && grown.Length == 2 * |file| + 1 && grown != table
    modifies grown
    ensures size <= grown.Length && grown[..size] == Expand(table[..], file)
  {
    ghost var k := table[..];
    size := 0;
    var i := 0;
    while i < |file|
      invariant i <= |file|
      invariant size == |Doubled(k, file, i)| && grown[..size] == Doubled(k, file, i)
    {
      grown[size] := file[i];
      if i + 1 < |file| && file[i] == file[i + 1] {
        size := size + 1;
        grown[size] := table[file[i + 1]];
      }
      size := size + 1;
      i := i + 1;
    }
    if size % 2 == 1 {
      grown[size] := table[grown[size - 1]];
      size := size + 1;
    }
  }

  /** The digraph loop with shift d over the whole even-length buffer, in place. */
  method ShiftInPlace(table: array<u8>, buf: array<u8>, d: nat)
    requires table.Length >= 256 && buf.Length % 2 == 0 && buf != table
    modifies buf
    ensures buf[..] == Digraphs(table[..], old(buf[..]), d)
  {
    ghost var k, e := table[..], buf[..];
    ghost var c := Digraphs(k, e, d);
    ghost var h := 0;
    var i := 0;
    while i + 1 < buf.Length
      invariant i == 2 * h && i <= buf.Length
      invariant forall j :: 0 <= j < i ==> buf[j] == c[j]
      invariant forall j :: i <= j < buf.Length ==> buf[j] == e[j]
    {
      DigraphsPair(k, e, d, h);
      var a, b := ShiftPair(table, buf[i], buf[i + 1], d);
      buf[i], buf[i + 1] := a, b;
      i, h := i + 2, h + 1;
    }
    assert i == buf.Length;
  }

  /**
    cy_decryption_playfair(file, key, &buffer): check the key, run the
    backward digraph loop from the file into the buffer, remove the inserted
    bytes in place, and shrink the buffer to what is left (an empty result is
    refused by realloc_space).  `out` is the new value of *buffer.
   */
  method PlayfairDecrypt(file: seq<u8>, key: Key, buffer: array<u8>) returns (st: Status, out: array<u8>)
    requires key.Valid() && |file| <= buffer.Length && buffer != key.str
    modifies buffer
    ensures CheckTable256(key.State()).Err? ==>
      st == CheckTable256(key.State()) && out == buffer && buffer[..] == old(buffer[..])
    ensures CheckTable256(key.State()).Ok? ==>
      var plain := Deciphered(key.str[..], file, old(buffer[..]));
      && (st.Ok? <==> |plain| > 0)
      && (st.Err? ==> st == Err(InvalidArgument) && out == buffer)
      && (st.Ok? ==> fresh(out) && out[..] == plain)
      && buffer[..|plain|] == plain
      && buffer[|file|..] == old(buffer[|file|..])
  {
    st := CheckTable256(key.State());
    if st.Err? {
      return st, buffer;
    }
    var table := key.str;
    ghost var b0 := buffer[..];
    UnshiftInto(file, table, buffer);
    UnshiftedTail(table[..], file, b0);
    var size := StripInPlace(table, buffer, |file|);
    ghost var plain := Deciphered(table[..], file, b0);
    assert buffer[..size] == plain;
    assert buffer[|file|..] == b0[|file|..];
    st, out := Realloc(buffer, size);
    if st.Ok? {
      assert out[..] == buffer[..size];
    }
  }

  /** The decryption's digraph pass leaves the buffer past the file as it was. */
  lemma UnshiftedTail(key: seq<u8>, file: seq<u8>, b0: seq<u8>)
    requires |key| >= 256 && |file| <= |b0|
    ensures Unshifted(key, file, b0)[|file|..] == b0[|file|..]
  {
    var m := |file| - |file| % 2;
    var u := Unshifted(key, file, b0);
    assert u[m..] == b0[m..];
    assert u[|file|..] == u[m..][|file| - m..];
  }

  /** The digraph loop of the decryption: pairs of the file, shifted by 15, into the buffer. */
  method UnshiftInto(file: seq<u8>, table: array<u8>, buffer: array<u8>)
    requires table.Length >= 256 && |file| <= buffer.Length && buffer != table
    modifies buffer
    ensures buffer[..] == Unshifted(table[..], file, old(buffer[..]))
  {
    ghost var k := table[..];
    var n := |file|;
    ghost var m := n - n % 2;
    ghost var d := Unshifted(k, file, buffer[..]);
    var i := 0;
    ghost var h := 0;
    while i + 1 < n
      invariant i == 2 * h && i <= m
      invariant forall j :: 0 <= j < i ==> buffer[j] == d[j]
      invariant forall j :: i <= j < buffer.Length ==> buffer[j] == old(buffer[j])
    {
      DigraphsPair(k, file[..m], 15, h);
      var a, b := ShiftPair(table, file[i], file[i + 1], 15);
      assert file[..m][i] == file[i] && file[..m][i + 1] == file[i + 1];
      buffer[i], buffer[i + 1] := a, b;
      i, h := i + 2, h + 1;
    }
  }

  /**
    The removal loop of the decryption over the first n bytes, in place: the
    output never overtakes the byte being read.
   */
  method StripInPlace(table: array<u8>, buffer: array<u8>, n: nat) returns (size: nat)
    requires table.Length >= 256 && n <= buffer.Length && buffer != table
    modifies buffer
    ensures size <= n && buffer[..size] == StripFrom(table[..], old(buffer[..]), n, 0)
    ensures buffer[n..] == old(buffer[n..])
  {
    ghost var k, d := table[..], buffer[..];
    ghost var plain := StripFrom(k, d, n, 0);
    StripAccumulates(k, d, n, 0, []);
    size := 0;
    var i := 0;
    while i + 1 < n
      invariant size <= i <= n
      invariant forall j :: i <= j < buffer.Length ==> buffer[j] == d[j]
      invariant StripAcc(k, d, n, i, buffer[..size]) == plain
      decreases n - i
    {
      ghost var before := buffer[..size];
      buffer[size] := buffer[i];
      size := size + 1;
      if i + 2 < n && buffer[i] == buffer[i + 2] && buffer[i + 1] == table[buffer[i]] {
        buffer[size] := buffer[i + 2];
        size := size + 1;
        assert buffer[..size] == before + [d[i], d[i + 2]];
        i := i + 2;
      } else {
        assert buffer[..size] == before + [d[i]];
      }
      i := i + 1;
    }
  }

  // ---------------------------------------------------------------------------
  // What a round trip gives

  /**
    Decrypting a ciphertext with the same permutation key undoes the digraph
    rules exactly; what is left is the removal loop applied to the prepared
    plaintext.
   */
  lemma PlayfairRoundTrip(key: seq<u8>, file: seq<u8>, b0: seq<u8>)
    requires PermutationKey(key)
    requires |Encrypted(key, file)| <= |b0|
    ensures Deciphered(key, Encrypted(key, file), b0) == StripFrom(key, Expand(key, file), |Expand(key, file)|, 0)
  {
    var e := Expand(key, file);
    var c := Encrypted(key, file);
    DigraphsRoundTrip(key, e, 1, 15);
    assert c[..|c|] == c;
    assert Unshifted(key, c, b0)[..|e|] == e;
    StripPrefix(key, Unshifted(key, c, b0), e, |e|, 0);
  }

  /** The removal loop reads only the first n bytes. */
  lemma {:induction false} StripPrefix(key: seq<u8>, d: seq<u8>, d': seq<u8>, n: nat, i: nat)
    requires |key| >= 256 && n <= |d| && n <= |d'| && i <= n && d[..n] == d'[..n]
    ensures StripFrom(key, d, n, i) == StripFrom(key, d', n, i)
    decreases n - i
  {
    if i + 1 < n {
      assert d[i] == d[..n][i] && d[i + 1] == d[..n][i + 1];
      if i + 2 < n {
        assert d[i + 2] == d[..n][i + 2];
      }
      if Inserted(key, d, n, i) {
        StripPrefix(key, d, d', n, i + 3);
      } else {
        StripPrefix(key, d, d', n, i + 1);
      }
    }
  }

  /**
    Because the removal loop never copies the last byte, a plaintext of two
    different bytes p q comes back as p alone.
   */
  lemma TwoBytesLoseTheSecond(key: seq<u8>, p: u8, q: u8, b0: seq<u8>)
    requires PermutationKey(key) && p != q
    ensures |Encrypted(key, [p, q])| == 2
    ensures 2 <= |b0| ==> Deciphered(key, Encrypted(key, [p, q]), b0) == [p]
  {
    ExpandNoRepeats(key, [p, q]);
    if 2 <= |b0| {
      PlayfairRoundTrip(key, [p, q], b0);
    }
  }
}

=== FILE: primality.dfy ===
/**
  One Miller-Rabin round (MRA) and its repetition (EMRA) from
  lib/src/cypher.c, with the witness drawn by the RNG passed in as a
  parameter.  The verdict is specified by the strong-probable-prime test:
  writing n - 1 == 2^s * d with d odd, the witness w proves n composite when
  w^d mod n != 1 and no w^(2^i * d) mod n (0 <= i < s) equals n - 1.
 */
module Primality {

  import opened Machine
  import Arith

  /** CY_PRIMALITY_FLAG */
  datatype Verdict = Inconclusive | Composite | Prime

  function Pow(b: nat, e: nat): nat
    decreases e
  {
    if e == 0 then 1 else b * Pow(b, e - 1)
  }

  function Pow2(e: nat): (r: nat)
    ensures r >= 1
  {
    if e == 0 then 1 else 2 * Pow2(e - 1)
  }

  /** m == 2^s * d with d odd, for m > 0: the pair (s, d). */
  function Split(m: nat): (sd: (nat, nat))
    requires m > 0
    ensures Pow2(sd.0) * sd.1 == m && sd.1 % 2 == 1
    decreases m
  {
    if m % 2 == 1 then (0, m)
    else
      var sd := Split(m / 2);
      (sd.0 + 1, sd.1)
  }

  /** The strong-probable-prime test fails for witness w: n is composite. */
  predicate MrComposite(n: nat, w: nat)
    requires n >= 2
  {
    var (s, d) := Split(n - 1);
    Pow(w, d) % n != 1 && forall i: nat :: i < s ==> Pow(w, Pow2(i) * d) % n != n - 1
  }

  /** The witness MRA derives from an RNG value r in [0, n - 1): r, or r + 2 when r < 2. */
  function Witness(r: nat): nat
  {
    if r < 2 then r + 2 else r
  }

  /** For odd n >= 5 the witness lies in [2, n - 2], as the standard requires. */
  lemma WitnessRange(n: nat, r: nat)
    requires n >= 5 && n % 2 == 1 && r < n - 1
    ensures 2 <= Witness(r) <= n - 2
  {
  }

  /**
    The outcome of one round as a function of n and the RNG result (None when
    the RNG fails): the status and the verdict left in *out.
   */
  function Round(n: nat, draw: Option<nat>): (Status, Verdict)
  {
    if n < 3 then (Err(Failure), Inconclusive)
    else if n % 2 == 0 || n == 3 then (Ok, Inconclusive)
    else if draw.None? then (Err(Failure), Inconclusive)
    else if MrComposite(n, Witness(draw.value)) then (Ok, Composite)
    else (Ok, Inconclusive)
  }

  /**
    MRA(n, &out): out starts Inconclusive; n < 3 is an error; even n and n == 3
    succeed without drawing a witness; otherwise the witness comes from the RNG,
    n - 1 is split into 2^power * odd, a^odd mod n is computed by binary
    exponentiation in 128-bit arithmetic, and the result is squared power times
    looking for n - 1.
   */
  method MRA(n: u64, draw: Option<nat>) returns (st: Status, out: Verdict)
    requires n >= 3 && draw.Some? ==> draw.value < n - 1
    ensures (st, out) == Round(n, draw)
    ensures out != Prime
    ensures st.Err? ==> out == Inconclusive
  {
    out := Inconclusive;
    if n < 3 {
      return Err(Failure), out;
    }
    if n % 2 == 0 || n == 3 {
      return Ok, out;
    }
    if draw.None? {
      return Err(Failure), out;
    }
    var a: nat := draw.value;
    if a < 2 {
      a := a + 2;
    }
    WitnessRange(n, draw.value);

    var power, odd := Decompose(n - 1);
    ghost var d := odd;
    var aq := ModPow(a, odd, n);

    if aq == 1 {
      return Ok, out;
    }
    var i: nat := 0;
    assert Pow2(i) * d == d;
    while i < power
      invariant i <= power
      invariant aq == Pow(a, Pow2(i) * d) % n
      invariant forall j: nat :: j < i ==> Pow(a, Pow2(j) * d) % n != n - 1
    {
      if aq == n - 1 {
        return Ok, out;
      }
      assert InU128(aq * aq) by {
        ProductBound(aq, aq, n);
      }
      SquareStep(a, Pow2(i) * d, n);
      Pow2Step(i, d);
      aq := (aq * aq) % n;
      i := i + 1;
    }
    out := Composite;
    return Ok, out;
  }

  /** The first loop of MRA: strip factors of two, n - 1 == 2^power * odd. */
  method Decompose(m: u64) returns (power: nat, odd: nat)
    requires m > 0
    ensures (power, odd) == Split(m)
    ensures Pow2(power) * odd == m && odd % 2 == 1
  {
    odd, power := m, 0;
    while odd % 2 == 0
      invariant odd > 0 && Split(m) == (power + Split(odd).0, Split(odd).1)
      decreases odd
    {
      odd := odd / 2;
      power := power + 1;
    }
  }

  /**
    The binary exponentiation of MRA: while odd is non-zero, multiply a_q by a
    when the low bit is set, square a, and shift odd right; all products of two
    residues are taken in __uint128_t.
   */
  method ModPow(a0: nat, e: nat, n: u64) returns (aq: nat)
    requires 1 < n && a0 < n
    ensures aq == Pow(a0, e) % n
  {
    var a: nat, odd: nat := a0, e;
    aq := 1;
    while odd > 0
      invariant aq < n && a < n
      invariant (aq * Pow(a, odd)) % n == Pow(a0, e) % n
      decreases odd
    {
      ProductBound(aq, a, n);
      ProductBound(a, a, n);
      BinaryStep(aq, a, odd, n);
      if odd % 2 == 1 {
        aq := (aq * a) % n;
      }
      a := (a * a) % n;
      odd := odd / 2;
    }
    assert Pow(a, odd) == 1 && aq * Pow(a, odd) == aq;
    Arith.DivModUnique(aq, n, 0, aq);
  }

  /**
    EMRA(n, prob, &out): one round whose failure is returned, then prob more
    rounds whose statuses are ignored; out keeps the verdict of the last round,
    even after a Composite one.  draws[k] is the RNG result of round k.
   */
  method EMRA(n: u64, prob: u64, draws: seq<Option<nat>>) returns (st: Status, out: Verdict)
    requires |draws| == prob + 1
    requires forall k :: 0 <= k < |draws| && n >= 3 && draws[k].Some? ==> draws[k].value < n - 1
    ensures Round(n, draws[0]).0.Err? ==> st == Err(Failure) && out == Inconclusive
    ensures Round(n, draws[0]).0.Ok? ==> st == Ok && out == Round(n, draws[prob]).1
  {
    st, out := MRA(n, draws[0]);
    if st.Err? {
      return Err(Failure), out;
    }
    var i := 0;
    while i < prob
      invariant i <= prob
      invariant out == Round(n, draws[i]).1
    {
      var _, v := MRA(n, draws[i + 1]);
      out := v;
      i := i + 1;
    }
    st := Ok;
  }

  /** Every product of two residues modulo a 64-bit n fits in __uint128_t. */
  lemma ProductBound(x: nat, y: nat, n: nat)
    requires x < n && y < n && n < U64_LIMIT
    ensures InU128(x * y)
  {
    Arith.MulLe(x, y, U64_MAX, U64_MAX);
  }

  lemma {:induction false} PowAdd(b: nat, e1: nat, e2: nat)
    ensures Pow(b, e1 + e2) == Pow(b, e1) * Pow(b, e2)
    decreases e1
  {
    if e1 > 0 {
      PowAdd(b, e1 - 1, e2);
      assert Pow(b, e1 + e2) == b * Pow(b, (e1 - 1) + e2);
      assert b * (Pow(b, e1 - 1) * Pow(b, e2)) == (b * Pow(b, e1 - 1)) * Pow(b, e2);
    }
  }

  lemma {:induction false} PowSquareBase(b: nat, k: nat)
    ensures Pow(b, 2 * k) == Pow(b * b, k)
    decreases k
  {
    if k > 0 {
      PowSquareBase(b, k - 1);
      assert Pow(b, 2 * k) == b * (b * Pow(b, 2 * (k - 1)));
    }
  }

  lemma {:induction false} PowModBase(b: nat, e: nat, n: nat)
    requires n > 0
    ensures Pow(b % n, e) % n == Pow(b, e) % n
    decreases e
  {
    if e > 0 {
      PowModBase(b, e - 1, n);
      Arith.ModMul(b % n, Pow(b % n, e - 1), n);
      Arith.ModOfMod(b, n);
      Arith.ModMul(b, Pow(b, e - 1), n);
    }
  }

  lemma ModMulRight(x: int, y: int, n: int)
    requires n > 0
    ensures (x * y) % n == (x * (y % n)) % n
  {
    Arith.ModMulLeft(y, x, n);
    assert x * y == y * x && x * (y % n) == (y % n) * x;
  }

  /** One step of the binary exponentiation keeps a_q * a^odd mod n fixed. */
  lemma BinaryStep(aq: nat, a: nat, odd: nat, n: nat)
    requires n > 0 && odd > 0
    ensures ((if odd % 2 == 1 then (aq * a) % n else aq) * Pow((a * a) % n, odd / 2)) % n
         == (aq * Pow(a, odd)) % n
  {
    var k := odd / 2;
    var p := Pow(a * a, k);
    PowSquareBase(a, k);
    PowModBase(a * a, k, n);
    ModMulRight(aq, Pow((a * a) % n, k), n);
    ModMulRight(aq, p, n);
    if odd % 2 == 1 {
      assert Pow(a, odd) == a * Pow(a, 2 * k);
      Arith.ModMulLeft(aq * a, Pow((a * a) % n, k), n);
      ModMulRight(aq * a, Pow((a * a) % n, k), n);
      ModMulRight(aq * a, p, n);
      assert (aq * a) * p == aq * (a * p);
    } else {
      assert odd == 2 * k;
    }
  }

  lemma Pow2Step(i: nat, d: nat)
    ensures Pow2(i + 1) * d == 2 * (Pow2(i) * d)
  {
  }

  /** Squaring w^e mod n gives w^(2e) mod n. */
  lemma SquareStep(a: nat, e: nat, n: nat)
    requires n > 0
    ensures ((Pow(a, e) % n) * (Pow(a, e) % n)) % n == Pow(a, 2 * e) % n
  {
    PowAdd(a, e, e);
    Arith.ModMul(Pow(a, e), Pow(a, e), n);
  }

  /** 2^3 * 1 == 8 and the witness 2 shows that 9 is composite. */
  lemma NineIsComposite()
    ensures MrComposite(9, 2)
    ensures Round(9, Some(0)) == (Ok, Composite)
  {
    assert Split(8) == (3, 1);
    assert Pow2(1) == 2 && Pow2(2) == 4;
    assert Pow(2, 1) == 2 && Pow(2, 2) == 4 && Pow(2, 4) == 16;
  }
}

=== FILE: substitution.dfy ===
/**
  The substitution ciphers of lib/src/cypher.c: the affine "Caesar" cipher,
  the monoalphabetic cipher, the 256-entry byte substitution (eascii) and the
  frequency-analysis crack of the monoalphabetic cipher.  Each one checks the
  key, then writes one output byte per input byte into the caller's buffer.
 */
module Substitution {

  import opened Machine
  import Arith
  import NumberTheory
  import opened Keys

  /** The byte-by-byte translation every cipher here performs. */
  function Map(f: u8 -> u8, s: seq<u8>): (r: seq<u8>)
    ensures |r| == |s| && forall i :: 0 <= i < |s| ==> r[i] == f(s[i])
  {
    seq(|s|, i requires 0 <= i < |s| => f(s[i]))
  }

  /**
    The loop shared by every cipher: (*buffer)[i] = f(file.str[i]) for each
    input byte.  Bytes of the buffer past the input are left alone.
   */
  method MapInto(file: seq<u8>, f: u8 -> u8, buffer: array<u8>)
    requires |file| <= buffer.Length
    modifies buffer
    ensures buffer[..|file|] == Map(f, file)
    ensures buffer[|file|..] == old(buffer[|file|..])
  {
    var i := 0;
    while i < |file|
      invariant i <= |file|
      invariant forall j :: 0 <= j < i ==> buffer[j] == f(file[j])
      invariant buffer[|file|..] == old(buffer[|file|..])
    {
      buffer[i] := f(file[i]);
      i := i + 1;
    }
  }

  /** The base of a letter's case: 'A' for an upper-case letter, 'a' otherwise. */
  function CaseBase(c: int): int
  {
    if IsUpper(c) then 'A' as int else 'a' as int
  }

  // ---------------------------------------------------------------------------
  // Caesar (affine) cipher

  /**
    Encryption of one byte with key (a, b): a letter x (counted from its case
    base) becomes (a mod 26) * x + (b mod 26) mod 26 in the same case; every
    other byte passes through.
   */
  function CaesarEncChar(a: u8, b: u8, c: u8): (r: u8)
    ensures !IsLetter(c) ==> r == c
    ensures IsUpper(r) <==> IsUpper(c)
    ensures IsLower(r) <==> IsLower(c)
  {
    if IsLetter(c) then
      var cas := CaseBase(c);
      ((a % 26) * (c - cas) + b % 26) % 26 + cas
    else c
  }

  /**
    Decryption of one byte with the inverse inv of a modulo 26 (from EEA) and
    b: a letter y becomes inv * (26 + y - b mod 26) mod 26 in the same case.
    The uint64_t arithmetic never wraps: 26 + y - b mod 26 is at least 1.
   */
  function CaesarDecChar(inv: nat, b: u8, c: u8): (r: u8)
    ensures !IsLetter(c) ==> r == c
    ensures IsUpper(r) <==> IsUpper(c)
    ensures IsLower(r) <==> IsLower(c)
  {
    if IsLetter(c) then
      var cas := CaseBase(c);
      (inv * (26 + (c - cas) - b % 26)) % 26 + cas
    else c
  }

  /** Decryption undoes encryption on every byte when gcd(a, 26) == 1. */
  lemma CaesarCharRoundTrip(a: u8, b: u8, c: u8)
    requires Arith.Gcd(a, 26) == 1
    ensures CaesarDecChar(Arith.ModInverse(a, 26), b, CaesarEncChar(a, b, c)) == c
  {
    if IsLetter(c) {
      var inv := Arith.ModInverse(a, 26);
      Arith.ModInverseCorrect(a, 26);
      var cas := CaseBase(c);
      var e := CaesarEncChar(a, b, c);
      assert CaseBase(e) == cas;
      AffineUndo(a, c - cas, b % 26, inv);
    }
  }

  /** inv * (26 + ((a mod 26) * x + b) mod 26 - b) == x (mod 26) for x < 26 and a * inv == 1 (mod 26). */
  lemma AffineUndo(a: nat, x: nat, b: nat, inv: nat)
    requires x < 26 && b < 26 && (a * inv) % 26 == 1
    ensures (inv * (26 + ((a % 26) * x + b) % 26 - b)) % 26 == x
  {
    var ax := (a % 26) * x;
    var q := (ax + b) / 26;
    var w := 26 + (ax + b) % 26 - b;
    assert w == ax + (1 - q) * 26;
    Arith.ModAddMultiple(ax, 1 - q, 26);
    Arith.ModMulLeft(w, inv, 26);
    Arith.ModMulLeft(ax, inv, 26);
    assert inv * w == w * inv;
    var ai := (a % 26) * inv;
    assert ax * inv == ai * x;
    Arith.ModMulLeft(ai, x, 26);
    Arith.ModMulLeft(a, inv, 26);
    Arith.DivModUnique(x, 26, 0, x);
  }

  function CaesarEncrypted(a: u8, b: u8, file: seq<u8>): seq<u8>
  {
    Map(c => CaesarEncChar(a, b, c), file)
  }

  function CaesarDecrypted(inv: nat, b: u8, file: seq<u8>): seq<u8>
  {
    Map(c => CaesarDecChar(inv, b, c), file)
  }

  /**
    With a key that passes cy_check_caesar, decrypting the encryption gives
    back the input, byte for byte.
   */
  lemma CaesarRoundTrip(a: u8, b: u8, file: seq<u8>)
    requires Arith.Gcd(a, 26) == 1
    ensures CaesarDecrypted(Arith.ModInverse(a, 26), b, CaesarEncrypted(a, b, file)) == file
  {
    forall i | 0 <= i < |file|
      ensures CaesarDecrypted(Arith.ModInverse(a, 26), b, CaesarEncrypted(a, b, file))[i] == file[i]
    {
      CaesarCharRoundTrip(a, b, file[i]);
    }
  }

  /** cy_encryption_caesar: check the key, then encrypt every byte with (key[0], key[1]). */
  method CaesarEncrypt(file: seq<u8>, key: Key, buffer: array<u8>) returns (st: Status)
    requires key.Valid() && |file| <= buffer.Length && buffer != key.str
    modifies buffer
    ensures st == CheckCaesar(key.State())
    ensures st.Err? ==> buffer[..] == old(buffer[..])
    ensures st.Ok? ==> buffer[..|file|] == CaesarEncrypted(key.str[0], key.str[1], file)
    ensures buffer[|file|..] == old(buffer[|file|..])
  {
    st := CheckCaesar(key.State());
    if st.Err? {
      return;
    }
    var keya, keyb := key.str[0], key.str[1];
    MapInto(file, c => CaesarEncChar(keya, keyb, c), buffer);
  }

  /**
    cy_decryption_caesar: check the key, compute the inverse of key[0] modulo
    26 with EEA, then decrypt every byte.  EEA cannot fail once the check has
    passed, so its failure return is unreachable.
   */
  method CaesarDecrypt(file: seq<u8>, key: Key, buffer: array<u8>) returns (st: Status)
    requires key.Valid() && |file| <= buffer.Length && buffer != key.str
    modifies buffer
    ensures st == CheckCaesar(key.State())
    ensures st.Err? ==> buffer[..] == old(buffer[..])
    ensures st.Ok? ==> buffer[..|file|] == CaesarDecrypted(Arith.ModInverse(key.str[0], 26), key.str[1], file)
    ensures buffer[|file|..] == old(buffer[|file|..])
  {
    st := CheckCaesar(key.State());
    if st.Err? {
      return;
    }
    var keyb := key.str[1];
    var est, keya := NumberTheory.EEA(key.str[0], 26);
    assert est.Ok?;
    MapInto(file, c => CaesarDecChar(keya, keyb, c), buffer);
  }

  // ---------------------------------------------------------------------------
  // Monoalphabetic cipher

  /**
    The letter substitution through a 26-entry table: letter c is looked up at
    its index from its case base, and the entry is moved to c's case (an entry
    above 'Z' is taken as lower case, any other as upper case).  Other bytes
    pass through.  No case of the byte arithmetic leaves 0 .. 255.
   */
  function MapLetter(table: seq<u8>, c: u8): (r: u8)
    requires |table| >= 26
    ensures !IsLetter(c) ==> r == c
    ensures IsLetter(c) && IsLetter(table[c - CaseBase(c)]) ==> (IsUpper(r) <==> IsUpper(c)) && (IsLower(r) <==> IsLower(c))
  {
    if IsLetter(c) then
      var cas := if c > 'Z' as int then 'a' as int else 'A' as int;
      var v := table[c - cas];
      if v > 'Z' as int then v - 'a' as int + cas else v - 'A' as int + cas
    else c
  }

  function MonoTranslated(table: seq<u8>, file: seq<u8>): seq<u8>
    requires |table| >= 26
  {
    Map(c => MapLetter(table, c), file)
  }

  /** "abcdefghijklmnopqrstuvwxyz", the mapkey of the decryption's inverse table. */
  function Alphabet(): (s: seq<u8>)
    ensures |s| == 26 && forall i :: 0 <= i < 26 ==> s[i] == 'a' as int + i
  {
    Identity('a' as int, 'z' as int)
  }

  /** A monoalphabetic key that is a permutation of 'a' .. 'z'. */
  predicate LowercasePermutation(key: seq<u8>)
  {
    |key| >= 26 && IsPermutationFrom(key[..26], 'a' as int)
  }

  /** The table decryption builds: inverse_generated('a', 'z', alphabet, key). */
  function MonoInverse(key: seq<u8>): (t: seq<u8>)
    requires |key| >= 26 && forall i :: 0 <= i < 26 ==> IsLower(key[i])
    ensures |t| == 26
  {
    assert forall i :: 0 <= i < 26 ==> 'a' as int <= key[..26][i] < 'a' as int + 26 by {
      forall i | 0 <= i < 26
        ensures 'a' as int <= key[..26][i] < 'a' as int + 26
      {
        assert key[..26][i] == key[i] && IsLower(key[i]);
      }
    }
    InverseTable('a' as int, key[..26], Alphabet(), 26)
  }

  /**
    With a key that permutes 'a' .. 'z', decrypting the encryption gives back
    the input: letters keep their case, other bytes are untouched.
   */
  lemma MonoRoundTrip(key: seq<u8>, file: seq<u8>)
    requires LowercasePermutation(key)
    ensures MonoTranslated(MonoInverse(key), MonoTranslated(key, file)) == file
  {
    var inv := MonoInverse(key);
    InverseTableInverts('a' as int, key[..26], Alphabet(), 26);
    forall i | 0 <= i < |file|
      ensures MapLetter(inv, MapLetter(key, file[i])) == file[i]
    {
      var c := file[i];
      if IsLetter(c) {
        var cas := CaseBase(c);
        var x := c - cas;
        assert key[..26][x] == key[x];
        assert inv[key[x] - 'a' as int] == 'a' as int + x;
      }
    }
  }

  /** cy_encryption_monoalpahbetic: check the key, then substitute every letter through it. */
  method MonoEncrypt(file: seq<u8>, key: Key, buffer: array<u8>) returns (st: Status)
    requires key.Valid() && |file| <= buffer.Length && buffer != key.str
    modifies buffer
    ensures st == MonoCheck(key.State())
    ensures st.Err? ==> buffer[..] == old(buffer[..])
    ensures st.Ok? ==> buffer[..|file|] == MonoTranslated(key.str[..], file)
    ensures buffer[|file|..] == old(buffer[|file|..])
  {
    st := CheckMonoalphabetic(key.State());
    if st.Err? {
      return;
    }
    var table := key.str[..];
    MapInto(file, c => MapLetter(table, c), buffer);
  }

  /** Each of the first 26 entries of t is a lower-case letter. */
  predicate LowerKey(t: seq<u8>)
  {
    |t| >= 26 && forall i :: 0 <= i < 26 ==> IsLower(t[i])
  }

  /**
    cy_decryption_monoalpahbetic: check the key, build the inverse table with
    inverse_generated('a', 'z', "abc...z", key), substitute every letter
    through it and return what free_space reports for the table.  The build
    rejects a key holding an upper-case entry (it is below 'a') and leaves the
    table NULL, which the source does not notice: a file without letters is
    then copied unchanged and free_space refuses the NULL table with an
    argument error, while a letter would be looked up through NULL, which the
    requires leaves out.
   */
  method MonoDecrypt(file: seq<u8>, key: Key, buffer: array<u8>) returns (st: Status)
    requires key.Valid() && |file| <= buffer.Length && buffer != key.str
    requires MonoCheck(key.State()).Ok? && !LowerKey(key.str[..]) ==> forall i :: 0 <= i < |file| ==> !IsLetter(file[i])
    modifies buffer
    ensures MonoCheck(key.State()).Err? ==> st == MonoCheck(key.State()) && buffer[..] == old(buffer[..])
    ensures MonoCheck(key.State()).Ok? && LowerKey(key.str[..]) ==>
              st == Ok && buffer[..|file|] == MonoTranslated(MonoInverse(key.str[..]), file)
    ensures MonoCheck(key.State()).Ok? && !LowerKey(key.str[..]) ==> st == Err(InvalidArgument) && buffer[..|file|] == file
    ensures buffer[|file|..] == old(buffer[|file|..])
  {
    st := CheckMonoalphabetic(key.State());
    if st.Err? {
      return;
    }
    var invkey := new Key.Empty();
    var abc := KeyState(Some(Alphabet()), 26, Owned);
    var built := InverseGenerated('a' as int, 'z' as int, abc, key.State(), invkey);
    if built.Err? {
      assert !LowerKey(key.str[..]);
      MapInto(file, c => c, buffer);
      assert buffer[..|file|] == file;
      st := Err(InvalidArgument);
      return;
    }
    assert LowerKey(key.str[..]);
    var table := invkey.str[..];
    assert Alphabet()[..26] == Alphabet();
    assert table == MonoInverse(key.str[..]);
    MapInto(file, c => MapLetter(table, c), buffer);
    st := Ok;
  }

  // ---------------------------------------------------------------------------
  // Byte substitution (eascii)

  /** Byte c replaced by entry c of a 256-entry table. */
  function MapByte(table: seq<u8>, c: u8): u8
    requires |table| >= 256
  {
    table[c]
  }

  function EasciiTranslated(table: seq<u8>, file: seq<u8>): seq<u8>
    requires |table| >= 256
  {
    Map(c => MapByte(table, c), file)
  }

  /** The table decryption builds: inverse_generated(0, 255, identity, key). */
  function EasciiInverse(key: seq<u8>): (t: seq<u8>)
    requires |key| >= 256
    ensures |t| == 256
  {
    InverseTable(0, key[..256], Identity(0, 255), 256)
  }

  /** With a key that permutes 0 .. 255, decrypting the encryption gives back every byte. */
  lemma EasciiRoundTrip(key: seq<u8>, file: seq<u8>)
    requires |key| >= 256 && IsPermutationFrom(key[..256], 0)
    ensures EasciiTranslated(EasciiInverse(key), EasciiTranslated(key, file)) == file
  {
    InverseTableInverts(0, key[..256], Identity(0, 255), 256);
    forall i | 0 <= i < |file|
      ensures MapByte(EasciiInverse(key), MapByte(key, file[i])) == file[i]
    {
      assert key[..256][file[i]] == key[file[i]];
    }
  }

  /** cy_encryption_eascii: check the key, then replace every byte c by key[c]. */
  method EasciiEncrypt(file: seq<u8>, key: Key, buffer: array<u8>) returns (st: Status)
    requires key.Valid() && |file| <= buffer.Length && buffer != key.str
    modifies buffer
    ensures st == CheckTable256(key.State())
    ensures st.Err? ==> buffer[..] == old(buffer[..])
    ensures st.Ok? ==> buffer[..|file|] == EasciiTranslated(key.str[..], file)
    ensures buffer[|file|..] == old(buffer[|file|..])
  {
    st := CheckTable256(key.State());
    if st.Err? {
      return;
    }
    var table := key.str[..];
    MapInto(file, c => MapByte(table, c), buffer);
  }

  /**
    cy_decryption_eascii: check the key, build the inverse table with
    inverse_generated(0, 255, identity, key) (which cannot fail on a checked
    key), replace every byte c by inverse[c] and free the table.
   */
  method EasciiDecrypt(file: seq<u8>, key: Key, buffer: array<u8>) returns (st: Status)
    requires key.Valid() && |file| <= buffer.Length && buffer != key.str
    modifies buffer
    ensures st == CheckTable256(key.State())
    ensures st.Err? ==> buffer[..] == old(buffer[..])
    ensures st.Ok? ==> buffer[..|file|] == EasciiTranslated(EasciiInverse(key.str[..]), file)
    ensures buffer[|file|..] == old(buffer[|file|..])
  {
    st := CheckTable256(key.State());
    if st.Err? {
      return;
    }
    var invkey := new Key.Empty();
    var eascii := KeyState(Some(Identity(0, 255)), 256, Owned);
    var built := InverseGenerated(0, 255, eascii, key.State(), invkey);
    assert built.Ok?;
    var table := invkey.str[..];
    assert Identity(0, 255)[..256] == Identity(0, 255);
    assert table == EasciiInverse(key.str[..]);
    MapInto(file, c => MapByte(table, c), buffer);
  }

  // ---------------------------------------------------------------------------
  // Frequency-analysis crack of the monoalphabetic cipher

  /** The letter's index 0 .. 25 counted from its case base, as the counting loop computes it. */
  function LetterIndex(c: u8): (x: int)
    requires IsLetter(c)
    ensures 0 <= x < 26
  {
    c - (if c > 'Z' as int then 'a' as int else 'A' as int)
  }

  /** How often the letter with index x (either case) occurs in s. */
  function Count(s: seq<u8>, x: int): nat
  {
    if |s| == 0 then 0
    else
      var c := s[|s| - 1];
      Count(s[..|s| - 1], x) + (if IsLetter(c) && LetterIndex(c) == x then 1 else 0)
  }

  /** "etaoinshrdlcumwfgypbvkjxqz": English letters from most to least frequent. */
  function FreqOrder(): (s: seq<u8>)
    ensures |s| == 26 && forall i :: 0 <= i < 26 ==> IsLower(s[i])
  {
    var f := "etaoinshrdlcumwfgypbvkjxqz";
    seq(26, i requires 0 <= i < 26 => f[i] as int)
  }

  /**
    r ranks the letters of s: it lists 'a' .. 'z' once each, ordered by
    non-increasing number of occurrences in s.
   */
  predicate Ranking(s: seq<u8>, r: seq<u8>)
  {
    && |r| == 26 && IsPermutationFrom(r, 'a' as int)
    && forall i, j :: 0 <= i < j < 26 ==> Count(s, r[i] - 'a' as int) >= Count(s, r[j] - 'a' as int)
  }

  /** The counting loop: numtable[x] is the number of letters of file with index x. */
  method CountLetters(file: seq<u8>) returns (numtable: array<nat>)
    ensures fresh(numtable) && numtable.Length == 26
    ensures forall x :: 0 <= x < 26 ==> numtable[x] == Count(file, x)
  {
    numtable := new nat[26](_ => 0);
    var i := 0;
    while i < |file|
      invariant i <= |file|
      invariant forall x :: 0 <= x < 26 ==> numtable[x] == Count(file[..i], x)
    {
      assert file[..i + 1][..i] == file[..i];
      var c := file[i];
      if IsLetter(c) {
        var x := LetterIndex(c);
        numtable[x] := numtable[x] + 1;
      }
      i := i + 1;
    }
    assert file[..|file|] == file;
  }

  /** The letter counts of s, indexed by letter: the numtable the counting loop fills. */
  function Counts(s: seq<u8>): (c: seq<nat>)
    ensures |c| == 26 && forall x :: 0 <= x < 26 ==> c[x] == Count(s, x)
  {
    seq(26, x requires 0 <= x < 26 => Count(s, x))
  }

  /**
    The inner scan of the crack's selection sort over nums[i..j): k starts at
    i and moves to a later index only when nums[k] < nums[j], so it ends on
    the FIRST largest count.
   */
  function ArgMax(nums: seq<nat>, i: nat, j: nat): (k: nat)
    requires i < j <= |nums|
    ensures i <= k < j
    decreases j
  {
    if j == i + 1 then i
    else
      var k := ArgMax(nums, i, j - 1);
      if nums[k] < nums[j - 1] then j - 1 else k
  }

  /** ArgMax picks a largest count in [i, j), and the first one: every earlier count is smaller. */
  lemma {:induction false} ArgMaxIsFirstMax(nums: seq<nat>, i: nat, j: nat)
    requires i < j <= |nums|
    ensures forall t :: i <= t < j ==> nums[t] <= nums[ArgMax(nums, i, j)]
    ensures forall t :: i <= t < ArgMax(nums, i, j) ==> nums[t] < nums[ArgMax(nums, i, j)]
    decreases j
  {
    if j > i + 1 {
      ArgMaxIsFirstMax(nums, i, j - 1);
    }
  }

  /**
    The outer loop of the selection sort from position i on: the scan's pick
    is swapped into place i, in the counts and in the letters alike.
   */
  function SelectionSort(nums: seq<nat>, chars: seq<u8>, i: nat): (r: (seq<nat>, seq<u8>))
    requires |nums| == |chars| && i <= |nums|
    ensures |r.0| == |nums| && |r.1| == |chars|
    decreases |nums| - i
  {
    if i == |nums| then (nums, chars)
    else
      var k := ArgMax(nums, i, |nums|);
      SelectionSort(Swap(nums, i, k), Swap(chars, i, k), i + 1)
  }

  /** The letter ranking the crack computes: "abc...z" sorted by the counts of s. */
  function CrackRanking(s: seq<u8>): (r: seq<u8>)
    ensures |r| == 26
  {
    SelectionSort(Counts(s), Alphabet(), 0).1
  }

  /**
    The counts are those of their letters, and the letters are a
    permutation of 'a' .. 'z'.
   */
  predicate Paired(nums: seq<nat>, chars: seq<u8>, counts: seq<nat>)
  {
    && |nums| == 26 && |chars| == 26 && |counts| == 26
    && IsPermutationFrom(chars, 'a' as int)
    && forall k :: 0 <= k < 26 ==> nums[k] == counts[chars[k] - 'a' as int]
  }

  predicate NonIncreasing(nums: seq<nat>)
  {
    forall p, q :: 0 <= p < q < |nums| ==> nums[p] >= nums[q]
  }

  /** The places before i hold their final counts: none is smaller than a later one. */
  predicate FinalUpTo(nums: seq<nat>, i: nat)
  {
    forall p, q :: 0 <= p < i && p < q < |nums| ==> nums[p] >= nums[q]
  }

  /** Swapping two places in both tables keeps the pairing. */
  lemma SwapPaired(nums: seq<nat>, chars: seq<u8>, counts: seq<nat>, i: nat, k: nat)
    requires Paired(nums, chars, counts) && i < 26 && k < 26
    ensures Paired(Swap(nums, i, k), Swap(chars, i, k), counts)
  {
    var nums', chars' := Swap(nums, i, k), Swap(chars, i, k);
    SwapKeepsPermutation(chars, i, k, 'a' as int);
    forall m | 0 <= m < 26
      ensures nums'[m] == counts[chars'[m] - 'a' as int]
    {
      var m' := if m == i then k else if m == k then i else m;
      assert nums'[m] == nums[m'] && chars'[m] == chars[m'];
    }
  }

  /** One step of the outer loop keeps the pairing and fixes place i. */
  lemma SelectionStep(nums: seq<nat>, chars: seq<u8>, counts: seq<nat>, i: nat)
    requires Paired(nums, chars, counts) && i < 26 && FinalUpTo(nums, i)
    ensures Paired(Swap(nums, i, ArgMax(nums, i, |nums|)), Swap(chars, i, ArgMax(nums, i, |nums|)), counts)
    ensures FinalUpTo(Swap(nums, i, ArgMax(nums, i, |nums|)), i + 1)
  {
    var k := ArgMax(nums, i, |nums|);
    var nums' := Swap(nums, i, k);
    SwapPaired(nums, chars, counts, i, k);
    ArgMaxIsFirstMax(nums, i, |nums|);
    forall p, q | 0 <= p < i + 1 && p < q < 26
      ensures nums'[p] >= nums'[q]
    {
      var q' := if q == k then i else if q == i then k else q;
      assert nums'[q] == nums[q'];
      if p < i {
        assert nums'[p] == nums[p] && p < q';
      } else {
        assert nums'[p] == nums[k] && i <= q';
      }
    }
  }

  /**
    From position i on, the sort keeps the counts paired with a permutation
    of the letters and leaves the counts non-increasing, given that the first
    i places are already final.
   */
  lemma {:induction false} SelectionSortSorts(nums: seq<nat>, chars: seq<u8>, counts: seq<nat>, i: nat)
    requires Paired(nums, chars, counts) && i <= 26 && FinalUpTo(nums, i)
    ensures Paired(SelectionSort(nums, chars, i).0, SelectionSort(nums, chars, i).1, counts)
    ensures NonIncreasing(SelectionSort(nums, chars, i).0)
    decreases 26 - i
  {
    if i < 26 {
      var k := ArgMax(nums, i, |nums|);
      SelectionStep(nums, chars, counts, i);
      SelectionSortSorts(Swap(nums, i, k), Swap(chars, i, k), counts, i + 1);
    }
  }

  /** The crack's ranking orders 'a' .. 'z' by non-increasing frequency in s. */
  lemma CrackRankingRanks(s: seq<u8>)
    ensures Ranking(s, CrackRanking(s))
  {
    CrackRankingSorted(s);
    SortedRanking(s, SelectionSort(Counts(s), Alphabet(), 0).0, CrackRanking(s), Counts(s));
  }

  /** After the sort the counts are non-increasing and paired with the crack's ranking. */
  lemma CrackRankingSorted(s: seq<u8>)
    ensures Paired(SelectionSort(Counts(s), Alphabet(), 0).0, CrackRanking(s), Counts(s))
    ensures NonIncreasing(SelectionSort(Counts(s), Alphabet(), 0).0)
  {
    InitialPaired(s);
    SelectionSortSorts(Counts(s), Alphabet(), Counts(s), 0);
  }

  /** Before the sort: the counts of s against "abc...z", nothing yet final. */
  lemma InitialPaired(s: seq<u8>)
    ensures Paired(Counts(s), Alphabet(), Counts(s)) && FinalUpTo(Counts(s), 0)
  {
    IdentityInverse('a' as int, 'z' as int);
  }

  /** With all counts equal, the scan never moves, so nothing is swapped. */
  lemma {:induction false} EqualCountsKeepOrder(nums: seq<nat>, chars: seq<u8>, i: nat)
    requires |nums| == |chars| && i <= |nums|
    requires forall p, q :: 0 <= p < q < |nums| ==> nums[p] == nums[q]
    ensures SelectionSort(nums, chars, i) == (nums, chars)
    decreases |nums| - i
  {
    if i < |nums| {
      var k := ArgMax(nums, i, |nums|);
      ArgMaxIsFirstMax(nums, i, |nums|);
      assert Swap(nums, i, k) == nums && Swap(chars, i, k) == chars;
      EqualCountsKeepOrder(nums, chars, i + 1);
    }
  }

  /** A byte string without letters has every letter count zero. */
  lemma {:induction false} NoLettersCountZero(s: seq<u8>, x: int)
    requires forall i :: 0 <= i < |s| ==> !IsLetter(s[i])
    ensures Count(s, x) == 0
  {
    if |s| > 0 {
      NoLettersCountZero(s[..|s| - 1], x);
    }
  }

  /**
    Ties keep their place: a ciphertext without letters ranks them in
    alphabetical order, so the crack's key is fixed even when every count is 0.
   */
  lemma NoLettersKeepAlphabet(s: seq<u8>)
    requires forall i :: 0 <= i < |s| ==> !IsLetter(s[i])
    ensures CrackRanking(s) == Alphabet()
  {
    forall x | 0 <= x < 26
      ensures Counts(s)[x] == 0
    {
      NoLettersCountZero(s, x);
    }
    EqualCountsKeepOrder(Counts(s), Alphabet(), 0);
  }

  /** The inner loop of the sort: the index of the first largest count at or after i. */
  method ScanMax(numtable: array<nat>, i: nat) returns (k: nat)
    requires i < numtable.Length
    ensures k == ArgMax(numtable[..], i, numtable.Length)
  {
    k := i;
    var j := i + 1;
    while j < numtable.Length
      invariant i < j <= numtable.Length
      invariant k == ArgMax(numtable[..], i, j)
    {
      if numtable[k] < numtable[j] {
        k := j;
      }
      j := j + 1;
    }
  }

  /** The sort's exchange of places i and k, in the counts and in the letters. */
  method SwapBoth(numtable: array<nat>, chartable: array<u8>, i: nat, k: nat)
    requires i < numtable.Length && k < numtable.Length && i < chartable.Length && k < chartable.Length
    modifies numtable, chartable
    ensures numtable[..] == Swap(old(numtable[..]), i, k)
    ensures chartable[..] == Swap(old(chartable[..]), i, k)
  {
    SwapEntries(numtable, i, k);
    SwapEntries(chartable, i, k);
  }

  /**
    The selection sort of the crack: for each i, find the first largest count
    at or after i and swap it, together with its letter, into place i.  The
    result is SelectionSort of the old tables; so the counts end
    non-increasing, and stay paired with a permutation of 'a' .. 'z'.
   */
  method SortByFrequency(numtable: array<nat>, chartable: array<u8>, ghost counts: seq<nat>)
    requires numtable.Length == 26 && chartable.Length == 26
    requires Paired(numtable[..], chartable[..], counts)
    modifies numtable, chartable
    ensures (numtable[..], chartable[..]) == SelectionSort(old(numtable[..]), old(chartable[..]), 0)
    ensures Paired(numtable[..], chartable[..], counts) && NonIncreasing(numtable[..])
  {
    ghost var nums0, chars0 := numtable[..], chartable[..];
    var i := 0;
    while i < 26
      invariant i <= 26
      invariant SelectionSort(numtable[..], chartable[..], i) == SelectionSort(nums0, chars0, 0)
    {
      var k := ScanMax(numtable, i);
      SwapBoth(numtable, chartable, i, k);
      i := i + 1;
    }
    SelectionSortSorts(nums0, chars0, counts, 0);
  }

  /** Counts sorted and paired with their letters make the letters a ranking. */
  lemma SortedRanking(file: seq<u8>, nums: seq<nat>, r: seq<u8>, counts: seq<nat>)
    requires Paired(nums, r, counts) && NonIncreasing(nums)
    requires forall x :: 0 <= x < 26 ==> counts[x] == Count(file, x)
    ensures Ranking(file, r)
  {
    forall i, j | 0 <= i < j < 26
      ensures Count(file, r[i] - 'a' as int) >= Count(file, r[j] - 'a' as int)
    {
      assert nums[i] >= nums[j];
    }
  }

  /** Swapping two entries of a permutation gives a permutation. */
  lemma SwapKeepsPermutation(s: seq<u8>, i: nat, j: nat, start: int)
    requires i < |s| && j < |s| && IsPermutationFrom(s, start)
    ensures IsPermutationFrom(Swap(s, i, j), start)
  {
    var t := Swap(s, i, j);
    forall p, q | 0 <= p < q < |t|
      ensures t[p] != t[q]
    {
      var p' := if p == i then j else if p == j then i else p;
      var q' := if q == i then j else if q == j then i else q;
      assert t[p] == s[p'] && t[q] == s[q'] && p' != q';
    }
  }

  /**
    cy_crack_monoalpahbetic(file, key, buffer): count the letters of the
    ciphertext, rank them by the selection sort, build the inverse table
    inverse_generated('a', 'z', freqchar, ranking), decrypt every letter
    through it, and make *key that table.  The call always reports success.
    The i-th most frequent ciphertext letter decrypts to the i-th letter of
    "etaoinshrdlcumwfgypbvkjxqz".
   */
  method Crack(file: seq<u8>, key: Key, buffer: array<u8>) returns (st: Status)
    requires |file| <= buffer.Length
    modifies key, buffer
    ensures st == Ok
    ensures key.str != null && fresh(key.str) && key.size == 26 && key.owner.Owned? && key.Valid()
    ensures Ranking(file, CrackRanking(file))
    ensures key.str[..] == InverseTable('a' as int, CrackRanking(file), FreqOrder(), 26)
    ensures buffer[..|file|] == MonoTranslated(key.str[..], file)
    ensures buffer[|file|..] == old(buffer[|file|..])
  {
    var invkey := CrackKey(file);
    key.str, key.size, key.owner := invkey.str, invkey.size, invkey.owner;
    var table := key.str[..];
    MapInto(file, c => MapLetter(table, c), buffer);
    st := Ok;
  }

  /** The first three steps of the crack: rank the letters and invert the ranking onto the frequency order. */
  method CrackKey(file: seq<u8>) returns (invkey: Key)
    ensures fresh(invkey) && invkey.str != null && fresh(invkey.str)
    ensures invkey.size == 26 && invkey.owner.Owned? && invkey.Valid()
    ensures Ranking(file, CrackRanking(file))
    ensures invkey.str[..] == InverseTable('a' as int, CrackRanking(file), FreqOrder(), 26)
  {
    var chartable := RankLetters(file);
    ghost var r := chartable[..];
    invkey := new Key.Empty();
    var freqchar := KeyState(Some(FreqOrder()), 26, Owned);
    var ranking := KeyState(Some(chartable[..]), 26, Owned);
    var _ := InverseGenerated('a' as int, 'z' as int, freqchar, ranking, invkey);
    assert Entries(ranking, 26) == r && Entries(freqchar, 26) == FreqOrder() by {
      assert r[..26] == r && FreqOrder()[..26] == FreqOrder();
    }
  }

  /**
    The first two loops of the crack: count the letters into numtable, start
    chartable as "abc...z", and sort both by non-increasing count.
   */
  method RankLetters(file: seq<u8>) returns (chartable: array<u8>)
    ensures fresh(chartable) && chartable[..] == CrackRanking(file)
    ensures Ranking(file, chartable[..])
  {
    var numtable := CountLetters(file);
    chartable := new u8[26](i requires 0 <= i < 26 => 'a' as int + i);
    ghost var counts := numtable[..];
    assert counts == Counts(file);
    assert chartable[..] == Alphabet();
    IdentityInverse('a' as int, 'z' as int);
    SortByFrequency(numtable, chartable, counts);
    CrackRankingRanks(file);
  }

  /** In the crack's table, the i-th ranked letter maps to the i-th letter of the frequency order. */
  lemma CrackTableDecodes(file: seq<u8>, r: seq<u8>)
    requires Ranking(file, r)
    ensures forall i :: 0 <= i < 26 ==> InverseTable('a' as int, r, FreqOrder(), 26)[r[i] - 'a' as int] == FreqOrder()[i]
  {
    InverseTableInverts('a' as int, r, FreqOrder(), 26);
  }
}

=== FILE: transport.dfy ===
/**
  The message transfer loops of the command-line tool (CLI/src/main.c):
  sending a header-framed message, receiving one, reading a whole stream into
  a growing buffer, and writing a payload.

  The socket is a class whose state is the bytes the peer has accepted
  (outbound) and the bytes still waiting to be delivered (inbound).  Each
  system call may move any number of bytes up to the number asked for, or
  return 0 (the peer closed) or a negative count (an error), so every
  postcondition below holds however the kernel splits the transfer.  Where
  the tool calls serror, which prints and exits, the model returns
  Err(Failure).
 */
module Transport {

  import opened Machine
  import opened Framing

  /** CY_BUFFSIZE: the read chunk, and the step by which the read buffer grows. */
  const BUFFSIZE: nat := 2048

  class Socket {
    var outbound: seq<u8>
    var inbound: seq<u8>

    /** send(fd, data, |data|, 0): the peer accepts a prefix of data. */
    method Send(data: seq<u8>) returns (n: int)
      modifies this
      ensures -1 <= n <= |data|
      ensures outbound == old(outbound) + (if n > 0 then data[..n] else [])
      ensures inbound == old(inbound)
    {
      n :| -1 <= n <= |data|;
      if n > 0 {
        outbound := outbound + data[..n];
      }
    }

    /**
      recv(fd, p, max, 0) and read(fd, p, max): a prefix of the waiting bytes,
      at most max of them, is delivered.
     */
    method Receive(max: nat) returns (n: int, data: seq<u8>)
      modifies this
      ensures -1 <= n <= max && n <= |old(inbound)|
      ensures data == (if n > 0 then old(inbound)[..n] else [])
      ensures inbound == old(inbound)[|data|..]
      ensures outbound == old(outbound)
    {
      n :| -1 <= n <= max && n <= |inbound|;
      data := if n > 0 then inbound[..n] else [];
      inbound := inbound[|data|..];
    }
  }

  /** The bytes of one message on the wire: the encoded header, then the payload. */
  function Message(head: Header, payload: seq<u8>): (m: seq<u8>)
    ensures |m| == HEADER_SIZE + |payload|
  {
    Encode(head) + payload
  }

  /**
    A message read from the front of a stream gives back the header and the
    payload it was made of, whatever follows it.
   */
  lemma MessageRoundTrip(head: Header, payload: seq<u8>, rest: seq<u8>)
    requires |payload| == head.dataLen
    ensures Decode((Message(head, payload) + rest)[..HEADER_SIZE]) == head
    ensures (Message(head, payload) + rest)[HEADER_SIZE..HEADER_SIZE + head.dataLen] == payload
    ensures (Message(head, payload) + rest)[HEADER_SIZE + head.dataLen..] == rest
  {
    var s := Message(head, payload) + rest;
    assert s[..HEADER_SIZE] == Encode(head);
    DecodeEncode(head);
  }

  /**
    The loop shared by cy_buff_send and cy_buff_write: send p[total..fullsize)
    until all of it is accepted; 0 or a negative count is fatal.  `sent` is
    the number of bytes accepted.
   */
  method SendFully(sock: Socket, p: array<u8>, fullsize: nat) returns (st: Status, ghost sent: nat)
    requires fullsize <= p.Length
    modifies sock
    ensures st == Ok || st == Err(Failure)
    ensures sent <= fullsize && (st == Ok <==> sent == fullsize)
    ensures sock.outbound == old(sock.outbound) + p[..sent]
    ensures sock.inbound == old(sock.inbound)
  {
    var total: nat := 0;
    while total < fullsize
      invariant total <= fullsize
      invariant sock.outbound == old(sock.outbound) + p[..total]
      invariant sock.inbound == old(sock.inbound)
      decreases fullsize - total
    {
      var n := sock.Send(p[total..fullsize]);
      if n == 0 || n < 0 {
        return Err(Failure), total;
      }
      assert p[..total + n] == p[..total] + p[total..fullsize][..n];
      total := total + n;
    }
    return Ok, total;
  }

  /**
    cy_buff_send: the header is written over buff[0..16), the payload that
    follows it is left alone, and data_len + 16 bytes are sent in order.
   */
  method SendMessage(sock: Socket, head: Header, buff: array<u8>) returns (st: Status)
    requires HEADER_SIZE + head.dataLen <= buff.Length
    modifies sock, buff
    ensures buff[..HEADER_SIZE] == Encode(head)
    ensures buff[HEADER_SIZE..] == old(buff[HEADER_SIZE..])
    ensures st == Ok || st == Err(Failure)
    ensures st == Ok ==>
      sock.outbound == old(sock.outbound) + Message(head, old(buff[HEADER_SIZE..HEADER_SIZE + head.dataLen]))
    ensures sock.inbound == old(sock.inbound)
  {
    ExportHeader(head, buff);
    var fullsize := head.dataLen + HEADER_SIZE;
    ghost var sent;
    st, sent := SendFully(sock, buff, fullsize);
    assert buff[..fullsize] == buff[..HEADER_SIZE] + buff[HEADER_SIZE..][..head.dataLen];
  }

  /**
    cy_buff_write: exactly the first data_len bytes of buff are sent, with no
    header.
   */
  method WritePayload(sock: Socket, head: Header, buff: array<u8>) returns (st: Status)
    requires head.dataLen <= buff.Length
    modifies sock
    ensures st == Ok || st == Err(Failure)
    ensures st == Ok ==> sock.outbound == old(sock.outbound) + buff[..head.dataLen]
    ensures sock.inbound == old(sock.inbound)
  {
    ghost var sent;
    st, sent := SendFully(sock, buff, head.dataLen);
  }

  /** Bytes delivered at p + at: the rest of the buffer is untouched. */
  method Store(buff: array<u8>, at: nat, data: seq<u8>)
    requires at + |data| <= buff.Length
    modifies buff
    ensures buff[..at] == old(buff[..at])
    ensures buff[at..at + |data|] == data
    ensures buff[at + |data|..] == old(buff[at + |data|..])
  {
    forall k | 0 <= k < |data| {
      buff[at + k] := data[k];
    }
  }

  /**
    recv(fd, p + total, want, 0) or read(fd, p + total, want): the delivered
    bytes land at p + total and nothing else in the buffer changes.
   */
  method ReceiveInto(sock: Socket, buff: array<u8>, total: nat, want: nat) returns (n: int)
    requires total + want <= buff.Length
    modifies sock, buff
    ensures -1 <= n <= want && n <= |old(sock.inbound)|
    ensures n > 0 ==> buff[..total + n] == old(buff[..total]) + old(sock.inbound)[..n]
    ensures n > 0 ==> buff[total + n..] == old(buff[total + n..])
    ensures n <= 0 ==> buff[..] == old(buff[..])
    ensures sock.inbound == if n > 0 then old(sock.inbound)[n..] else old(sock.inbound)
    ensures sock.outbound == old(sock.outbound)
  {
    var data;
    n, data := sock.Receive(want);
    Store(buff, total, data);
    assert buff[..total + |data|] == buff[..total] + buff[total..total + |data|];
  }

  /**
    cy_buff_recv: ask for at most 16 - total bytes until exactly 16 are in;
    at that point, and only then, decode the header and extend the target to
    data_len + 16; then receive until the whole message is in.  The result
    depends only on the incoming bytes, not on how they were split.  The
    buffer must hold the announced message, which the tool does not check.
   */
  method ReceiveMessage(sock: Socket, buff: array<u8>) returns (st: Status, head: Header)
    requires buff.Length >= HEADER_SIZE
    requires |sock.inbound| >= HEADER_SIZE ==>
      HEADER_SIZE + Decode(sock.inbound[..HEADER_SIZE]).dataLen <= buff.Length
    modifies sock, buff
    ensures st == Ok || st == Err(Failure)
    ensures sock.outbound == old(sock.outbound)
    ensures st == Ok ==>
      |old(sock.inbound)| >= HEADER_SIZE + head.dataLen &&
      head == Decode(old(sock.inbound)[..HEADER_SIZE]) &&
      buff[..HEADER_SIZE + head.dataLen] == old(sock.inbound)[..HEADER_SIZE + head.dataLen] &&
      buff[HEADER_SIZE + head.dataLen..] == old(buff[HEADER_SIZE + head.dataLen..]) &&
      sock.inbound == old(sock.inbound)[HEADER_SIZE + head.dataLen..]
  {
    ghost var stream := sock.inbound;
    head := Header(0, 0, 0, 0, 0, 0, 0, 0, 0);
    var fullsize := HEADER_SIZE;
    var total: nat := 0;
    while total < fullsize
      invariant total <= fullsize <= buff.Length
      invariant total <= |stream| && sock.inbound == stream[total..]
      invariant buff[..total] == stream[..total]
      invariant buff[total..] == old(buff[total..])
      invariant total < HEADER_SIZE ==> fullsize == HEADER_SIZE
      invariant total >= HEADER_SIZE ==>
        head == Decode(stream[..HEADER_SIZE]) && fullsize == HEADER_SIZE + head.dataLen
      invariant sock.outbound == old(sock.outbound)
      decreases |sock.inbound|
    {
      var n := ReceiveInto(sock, buff, total, fullsize - total);
      if n == 0 || n < 0 {
        return Err(Failure), head;
      }
      assert stream[..total + n] == stream[..total] + stream[total..][..n];
      total := total + n;
      if total == HEADER_SIZE {
        head := ImportHeader(buff);
        fullsize := head.dataLen + total;
      }
    }
    return Ok, head;
  }

  /**
    A message sent whole arrives whole: when the incoming bytes start with
    Message(h, payload), a successful receive yields h and the payload.
   */
  lemma ReceivedMessage(stream: seq<u8>, h: Header, payload: seq<u8>, got: Header, buff: seq<u8>)
    requires |payload| == h.dataLen
    requires |stream| >= HEADER_SIZE && got == Decode(stream[..HEADER_SIZE])
    requires HEADER_SIZE + got.dataLen <= |stream| && HEADER_SIZE + got.dataLen <= |buff|
    requires buff[..HEADER_SIZE + got.dataLen] == stream[..HEADER_SIZE + got.dataLen]
    requires |Message(h, payload)| <= |stream| && stream[..|Message(h, payload)|] == Message(h, payload)
    ensures got == h
    ensures buff[HEADER_SIZE..HEADER_SIZE + got.dataLen] == payload
  {
    var rest := stream[|Message(h, payload)|..];
    assert stream == Message(h, payload) + rest;
    MessageRoundTrip(h, payload, rest);
    assert buff[HEADER_SIZE..HEADER_SIZE + got.dataLen]
        == stream[..HEADER_SIZE + got.dataLen][HEADER_SIZE..];
  }

  /** realloc to a larger size: the old contents come first. */
  method Grow(buff: array<u8>, size: nat) returns (bigger: array<u8>)
    requires buff.Length <= size
    ensures fresh(bigger) && bigger.Length == size
    ensures bigger[..buff.Length] == buff[..]
  {
    bigger := new u8[size];
    forall k | 0 <= k < buff.Length {
      bigger[k] := buff[k];
    }
  }

  /**
    cy_buff_read: start from a cleared header and a 2048-byte buffer; before
    each read grow the buffer by 2048 whenever fewer than 2048 bytes are free
    after data_len, so every read of up to 2048 bytes lands inside it; add
    each count to data_len and stop when read returns 0.  The stream must be
    shorter than size_t can count.
   */
  method ReadAll(sock: Socket) returns (st: Status, head: Header, buff: array<u8>)
    requires |sock.inbound| + 2 * BUFFSIZE <= U64_MAX
    modifies sock
    ensures fresh(buff)
    ensures st == Ok || st == Err(Failure)
    ensures head == Header(head.dataLen, 0, 0, 0, 0, 0, 0, 0, 0)
    ensures head.dataLen + BUFFSIZE <= buff.Length
    ensures old(sock.inbound) == buff[..head.dataLen] + sock.inbound
    ensures sock.outbound == old(sock.outbound)
  {
    ghost var stream := sock.inbound;
    // head is cleared; its data_len is counted in dataLen
    var dataLen: u64 := 0;
    var buffsize := BUFFSIZE;
    buff := new u8[BUFFSIZE];
    while true
      invariant fresh(buff) && buff.Length == buffsize
      invariant dataLen <= buffsize <= dataLen + 2 * BUFFSIZE
      invariant dataLen <= |stream| && sock.inbound == stream[dataLen..]
      invariant buff[..dataLen] == stream[..dataLen]
      invariant sock.outbound == old(sock.outbound)
      decreases |sock.inbound|
    {
      buff, buffsize := MakeRoom(buff, buffsize, dataLen);
      var n := ReceiveInto(sock, buff, dataLen, BUFFSIZE);
      if n <= 0 {
        assert stream == stream[..dataLen] + stream[dataLen..];
      }
      if n == 0 {
        return Ok, Header(dataLen, 0, 0, 0, 0, 0, 0, 0, 0), buff;
      }
      if n < 0 {
        return Err(Failure), Header(dataLen, 0, 0, 0, 0, 0, 0, 0, 0), buff;
      }
      assert stream[..dataLen + n] == stream[..dataLen] + stream[dataLen..][..n];
      dataLen := dataLen + n;
    }
  }

  /**
    The growth step of cy_buff_read: when fewer than 2048 bytes are free after
    data_len, the buffer is reallocated 2048 bytes larger, so afterwards at
    least 2048 are free.
   */
  method MakeRoom(buff: array<u8>, buffsize: nat, dataLen: nat) returns (grown: array<u8>, newsize: nat)
    requires buff.Length == buffsize && dataLen <= buffsize
    ensures grown.Length == newsize && newsize - dataLen >= BUFFSIZE
    ensures newsize == if buffsize - dataLen < BUFFSIZE then buffsize + BUFFSIZE else buffsize
    ensures grown == buff || fresh(grown)
    ensures grown[..dataLen] == buff[..dataLen]
  {
    grown, newsize := buff, buffsize;
    if buffsize - dataLen < BUFFSIZE {
      newsize := buffsize + BUFFSIZE;
      grown := Grow(buff, newsize);
    }
  }
}
